=== FILE: README.md ===
# ARQ framing, CDMA Walsh codes and raster geometry, in Dafny

This project models three parts of a computer-networks coursework repository and proves properties of them.

**1. Automatic repeat request (ARQ) over a byte link.** The repository has three sender/receiver pairs: Stop-and-Wait, Go-Back-N and Selective Repeat. All six programs share one frame layout:
- a 15-byte header: a 6-byte source address, a 6-byte destination address, a big-endian 16-bit total length and one sequence byte (`seq_num % 256`);
- the payload;
- a big-endian CRC-32 over header and payload.

They also share a 4-byte acknowledgement: `ACK` followed by one sequence byte.
- `FrameCodec` models building and checking frames and ACKs. `Crc` models CRC-32 and `Bytes` the big-endian packing.
- `FileSource` models the chunked file reads.
- Each receiver loop is an imperative method, proved equal to a fold of a pure `Step` function over the frames it reads.
- Each sender is a record of the loop's variables. Its phases (timeout, ACK, new frame) are functions, and methods with loops are proved equal to them.
- Invariants and end-to-end properties are lemmas about those functions. `SlidingWindow` and `KeyOrder` hold what the two windowed senders share.

**2. CDMA with Walsh codes.** This part covers:
- the recursive Walsh–Hadamard table and the next power of two (`WalshCodes`);
- chip arithmetic (`Chips`);
- a station spreading its bit onto the shared channel (`CdmaSender`);
- a station correlating the channel with its code (`CdmaReceiver`);
- the simulation that pads the stations, transmits, receives and counts correct decodes (`CdmaMain`).

**3. Integer raster geometry of a clipping demo window (`Canvas`).** This part covers:
- Bresenham's line algorithm, as the list of pixels it plots;
- the polygon, line and clip-window buttons with their click-count guards, as methods of a `MainWindow` class;
- the Cohen–Sutherland outcode and the trivial accept/reject test.

The environment's choices are parameters of the model:
- where packets are lost (oracle booleans);
- what each `recv` returns;
- the clock readings.

## Model

| member | source | states |
|---|---|---|
| Bytes.EncodeU16 | assaiment2/CN_Assignment2_StopAndWait/client.py:34 | the big-endian `H` field is two bytes that read back as the same length |
| Bytes.DecodeU16 | assaiment4/CN_Assignment2_StopAndWait/server.py:60 | unpacking two bytes gives a value below 2^16 |
| Bytes.EncodeU32 | assaiment2/CN_Assignment2_StopAndWait/client.py:37 | the big-endian `!I` CRC trailer is four bytes that read back as the same value |
| Bytes.DecodeU32 | assaiment4/CN_Assignment2_StopAndWait/server.py:53 | unpacking the 4-byte trailer gives a value below 2^32 |
| Bytes.FromOneByte | assaiment2/CN_Assignment2_StopAndWait/client.py:73 | `int.from_bytes` of a single byte is that byte, so it is below 256 |
| Crc.Crc32 | assaiment2/CN_Assignment2_StopAndWait/client.py:26-27 | `zlib.crc32` (reflected CRC-32, polynomial 0xEDB88320) gives a value below 2^32 |
| FileSource.Read | assaiment2/CN_Assignment2_StopAndWait/client.py:53-55 | one `f.read(size)`: the next at most `size` bytes from the offset; empty exactly at end of file; a short read reaches end of file |
| FileSource.ChunksJoin | assaiment2/CN_Assignment2_StopAndWait/client.py:52-55 | the successive reads are non-empty, at most `size` bytes each, and concatenate back to the whole file |
| FileSource.ChunksFrom | assaiment2/CN_Assignment2_StopAndWait/client.py:52-55 | the chunks from an offset are the read at that offset followed by the chunks after it |
| FileSource.ChunkCount | assaiment2/CN_Assignment2_StopAndWait/client.py:52-55 | a file of `L` bytes takes `ceil(L / size)` reads before the empty one |
| FrameCodec.Header | assaiment2/CN_Assignment2_StopAndWait/client.py:34 | the packed header is 15 bytes |
| FrameCodec.CreateFrame | assaiment2/CN_Assignment2_StopAndWait/client.py:29-37 | a frame is header plus payload plus 4 CRC bytes long |
| FrameCodec.CreateFrameLayout | assaiment2/CN_Assignment2_StopAndWait/client.py:29-37 | the frame holds the two addresses, a length field equal to its own size, the sequence byte `seqNum % 256`, the payload, and a trailer equal to the CRC-32 of everything before it |
| FrameCodec.ParseFrame | assaiment4/CN_Assignment2_StopAndWait/server.py:47-60 | malformed exactly when shorter than 19 bytes; corrupt exactly when the trailer differs from the CRC of the rest; otherwise the frame passes, its number is byte 14 and its payload is exactly the bytes between header and trailer |
| FrameCodec.ParseCreateFrame | assaiment4/CN_Assignment2_StopAndWait/server.py:51-60 | a frame the senders build parses back to its sequence byte and payload |
| FrameCodec.InOrder | assaiment2/CN_Assignment2_StopAndWait/client.py:57 | a lossless in-order link has one frame per chunk |
| FrameCodec.InOrderPrefix | assaiment2/CN_Assignment2_StopAndWait/client.py:57 | frame `n` of that link is `create_frame(n, chunk n)`, after the first `n` frames |
| FrameCodec.ParsedInOrder | assaiment4/CN_Assignment2_GoBack/server.py:45-59 | parsing every frame of the in-order link gives, in order, success with sequence byte `n % 256` and chunk `n` |
| FrameCodec.InOrderReadsPrefix | assaiment4/CN_Assignment2_GoBack/server.py:59 | read `n` of that link is chunk `n` numbered `n % 256` |
| FrameCodec.FrameIsNotTermination | assaiment4/CN_Assignment2_StopAndWait/server.py:43 | a data frame is never empty and never equals `END`, so it never ends a receiver |
| FrameCodec.OnWireReadBack | assaiment2/CN_Assignment2_StopAndWait/client.py:65-88 | what a sender puts on the link ends the receiver exactly when it is `END`; a data frame parses back to its number mod 256 and payload |
| FrameCodec.CreateAck | assaiment4/CN_Assignment2_StopAndWait/server.py:24-25 | an ACK is 4 bytes |
| FrameCodec.AckRoundTrip | assaiment2/CN_Assignment2_GoBack/client.py:72-75 | `ParseAck` of a 4-byte slot recovers the number of the ACK built for it, and reads a slot as number `k` exactly when it is `ACK` followed by byte `k` |
| FrameCodec.AckRun | assaiment4/CN_Assignment2_StopAndWait/server.py:68 | the ACKs `0..n-1` in order, one per frame taken |
| FrameCodec.AckRunSnoc | assaiment4/CN_Assignment2_StopAndWait/server.py:68 | ACK run `n + 1` is ACK run `n` followed by ACK `n` |
| SlidingWindow.PendingAck | assaiment2/CN_Assignment2_GoBack/client.py:72-75 | the ACK number `ParseAck` takes from the first full buffer slot is below 256 |
| SlidingWindow.NextChunk | assaiment2/CN_Assignment2_GoBack/client.py:98-103 | when the reads so far produced chunks `0..nextSeq-1`, a non-empty read is chunk `nextSeq`, and the rest of the file holds the chunks after it |
| KeyOrder.SmallestExists | assaiment2/CN_Assignment2_GoBack/client.py:52 | a non-empty set of sequence numbers has a least element |
| KeyOrder.Smallest | assaiment2/CN_Assignment2_GoBack/client.py:52 | the smallest key is in the set and below every other key |
| KeyOrder.AscendingSorted | assaiment2/CN_Assignment2_GoBack/client.py:52 | `sorted(keys)` lists exactly the keys, once each, strictly increasing |
| KeyOrder.AscendingUnfold | assaiment2/CN_Assignment2_GoBack/client.py:52 | the sorted keys are the least key followed by the sorted rest |
| KeyOrder.WalkNext | assaiment2/CN_Assignment2_GoBack/client.py:52-53 | one step of the walk over sorted keys: the next key is the least one pending, and its frame is the next one sent |
| KeyOrder.AscendingRange | assaiment2/CN_Assignment2_GoBack/client.py:52 | when the keys are the range `[lo, hi)`, sorting lists `lo, lo+1, ..., hi-1` |
| StopAndWaitSender.AckForItsNumber | assaiment2/CN_Assignment2_StopAndWait/client.py:72-74 | the ACK the receiver builds for `k` ends the retransmission loop exactly when the counter equals `k` |
| StopAndWaitSender.NoAckPast255 | assaiment2/CN_Assignment2_StopAndWait/client.py:72-74 | once the counter is 256 or more, no 4-byte reply ends the loop |
| StopAndWaitSender.Transfer | assaiment2/CN_Assignment2_StopAndWait/client.py:48-88 | the transfer uses at most the attempts given and never lowers the counter |
| StopAndWaitSender.Then | assaiment2/CN_Assignment2_StopAndWait/client.py:52-88 | prefixing earlier transmissions keeps the final counter and the finished flag |
| StopAndWaitSender.TransferUnfold | assaiment2/CN_Assignment2_StopAndWait/client.py:57-85 | one attempt sends the chunk's frame unless it is lost; a matching ACK moves to the next chunk with counter + 1, anything else retries the same chunk |
| StopAndWaitSender.AttemptNext | assaiment2/CN_Assignment2_StopAndWait/client.py:59-85 | the same step, stated for the transmissions already sent and the attempts already used |
| StopAndWaitSender.SendUntilAcked | assaiment2/CN_Assignment2_StopAndWait/client.py:59-82 | the inner loop consumes attempts until a matching ACK, or until none are left, and ends in the state the transfer function continues from |
| StopAndWaitSender.RunSender | assaiment2/CN_Assignment2_StopAndWait/client.py:39-88 | the sender's nested loops put exactly the transfer function's transmissions on the link, with its counter and finished flag |
| StopAndWaitSender.NoMatchingAck | assaiment2/CN_Assignment2_StopAndWait/client.py:59-82 | without a matching ACK every attempt re-sends the identical frame, the counter stays put and `END` is never sent |
| StopAndWaitSender.CounterStopsAt256 | assaiment2/CN_Assignment2_StopAndWait/client.py:72-85 | with one-slot replies the counter never passes 256 |
| StopAndWaitSender.EndAfter | assaiment2/CN_Assignment2_StopAndWait/client.py:88 | transmissions ending with `END` still end with it when earlier ones are prefixed |
| StopAndWaitSender.FinishedEndsWithEnd | assaiment2/CN_Assignment2_StopAndWait/client.py:87-88 | a finished transfer's last transmission is `END` |
| StopAndWaitSender.FinishedCountsChunks | assaiment2/CN_Assignment2_StopAndWait/client.py:52-85 | when the transfer finishes, the counter rose by exactly one per chunk |
| StopAndWaitSender.SentCarriesCons | assaiment2/CN_Assignment2_StopAndWait/client.py:57-65 | adding a frame that carries its own chunk keeps every frame carrying its chunk |
| StopAndWaitSender.SentCarriesShift | assaiment2/CN_Assignment2_StopAndWait/client.py:85 | carrying chunks from number `base + 1` on is carrying them from `base` with one more chunk |
| StopAndWaitSender.FramesCarryChunks | assaiment2/CN_Assignment2_StopAndWait/client.py:53-65 | every data frame sent with counter `k` carries chunk `k` of the file |
| StopAndWaitSender.LongFileNeverFinishes | assaiment2/CN_Assignment2_StopAndWait/client.py:73-74 | a file of more than 256 chunks is never finished and `END` is never sent |
| StopAndWaitReceiver.Step | assaiment4/CN_Assignment2_StopAndWait/server.py:47-87 | malformed or corrupt frames change nothing; the expected frame is written and `expected` rises by one, with its ACK sent unless lost; a lower number is re-ACKed with its own number; a higher one changes nothing |
| StopAndWaitReceiver.ReceiveNext | assaiment4/CN_Assignment2_StopAndWait/server.py:41-87 | the state after one more read is one step from the state before it |
| StopAndWaitReceiver.HandleRead | assaiment4/CN_Assignment2_StopAndWait/server.py:47-87 | the loop body computes exactly one step |
| StopAndWaitReceiver.RunReceiver | assaiment4/CN_Assignment2_StopAndWait/server.py:37-87 | the loop stops at the first empty or `END` read and its state is the fold of the steps over the reads before it |
| StopAndWaitReceiver.WrittenIsPrefix | assaiment4/CN_Assignment2_StopAndWait/server.py:64-79 | on a link whose valid frames carry their own chunks, the file written is exactly the first `expected` chunks |
| StopAndWaitReceiver.InOrder | assaiment4/CN_Assignment2_StopAndWait/server.py:42 | one read per chunk, on a lossless in-order link |
| StopAndWaitReceiver.InOrderDelivery | assaiment4/CN_Assignment2_StopAndWait/server.py:64-79 | up to 256 chunks sent in order are all written, and each is ACKed once with its number |
| StopAndWaitReceiver.FrameAfterWrapIsNeverWritten | assaiment4/CN_Assignment2_StopAndWait/server.py:79-87 | after 256 chunks the frame numbered 256 (sequence byte 0) is taken for a duplicate: nothing written, `expected` stays 256, ACK 0 re-sent |
| GoBackNReceiver.NextExpected | assaiment4/CN_Assignment2_GoBack/server.py:73 | the next expected number stays below 256 |
| GoBackNReceiver.NextModulo | assaiment4/CN_Assignment2_GoBack/server.py:73 | it is `(n + 1) % 256` whenever the current one is `n % 256` |
| GoBackNReceiver.Step | assaiment4/CN_Assignment2_GoBack/server.py:45-81 | bad frames change nothing; the expected frame is written and ACKed and `expected` moves on mod 256; any other frame is not written and re-ACKs `expected - 1`, or nothing when `expected` is 0 |
| GoBackNReceiver.Receive | assaiment4/CN_Assignment2_GoBack/server.py:35-81 | the expected number stays below 256 whatever is read |
| GoBackNReceiver.ReceiveNext | assaiment4/CN_Assignment2_GoBack/server.py:39-81 | the state after one more read is one step from the state before it |
| GoBackNReceiver.HandleRead | assaiment4/CN_Assignment2_GoBack/server.py:45-81 | the loop body computes exactly one step |
| GoBackNReceiver.RunReceiver | assaiment4/CN_Assignment2_GoBack/server.py:35-81 | the loop stops at the first empty or `END` read and its state is the fold of the steps over the reads before it |
| GoBackNReceiver.WrittenIsPrefix | assaiment4/CN_Assignment2_GoBack/server.py:64-76 | with fewer than 256 chunks on a link whose valid frames carry their own chunks, the file written is exactly the first `expected` chunks |
| GoBackNReceiver.WrappingAckRun | assaiment4/CN_Assignment2_GoBack/server.py:68-69 | the ACKs `0..n-1` mod 256 in order |
| GoBackNReceiver.WrappingAckRunSnoc | assaiment4/CN_Assignment2_GoBack/server.py:68-69 | ACK run `n + 1` is ACK run `n` followed by ACK `n % 256` |
| GoBackNReceiver.AcceptInOrder | assaiment4/CN_Assignment2_GoBack/server.py:64-73 | the frame for counter `n` is accepted when `expected` is `n % 256`: the chunk is written and ACK `n % 256` sent |
| GoBackNReceiver.InOrderNext | assaiment4/CN_Assignment2_GoBack/server.py:64-73 | in-order delivery of all chunks but the last extends to the last |
| GoBackNReceiver.InOrderDelivery | assaiment4/CN_Assignment2_GoBack/server.py:64-73 | any number of chunks sent in order is written whole, each ACKed once, and `expected` ends at the count mod 256 |
| SelectiveRepeatReceiver.Drain | assaiment2/CN_Assignment2_SelectiveRepeat/server.py:80-84 | draining sends no ACK and never lowers `expected` or shortens the file |
| SelectiveRepeatReceiver.DrainRemovesRun | assaiment2/CN_Assignment2_SelectiveRepeat/server.py:80-84 | after the drain `expected` is not buffered; exactly the run of numbers it passed was popped; every other buffered payload is kept |
| SelectiveRepeatReceiver.DeliverBuffered | assaiment2/CN_Assignment2_SelectiveRepeat/server.py:80-84 | the drain loop computes the drain |
| SelectiveRepeatReceiver.Step | assaiment2/CN_Assignment2_SelectiveRepeat/server.py:48-97 | bad frames change nothing; `expected` and the file only grow; once `expected` reaches 256 nothing more is written |
| SelectiveRepeatReceiver.StepCases | assaiment2/CN_Assignment2_SelectiveRepeat/server.py:67-97 | a valid frame in the window is ACKed with its own number; the expected one is written, the window moves past it and past exactly the buffered run behind it, that run leaves the buffer, and every other buffered payload stays unchanged; any other in-window frame is buffered only if absent, a buffered payload is never replaced, and `expected` and the file stay; a frame below the window is only re-ACKed; one above it changes nothing |
| SelectiveRepeatReceiver.ReceiveNext | assaiment2/CN_Assignment2_SelectiveRepeat/server.py:41-97 | the state after one more read is one step from the state before it |
| SelectiveRepeatReceiver.ReceiveLinkNext | assaiment2/CN_Assignment2_SelectiveRepeat/server.py:41-97 | the same, stated over the raw frames of the link |
| SelectiveRepeatReceiver.HandleRead | assaiment2/CN_Assignment2_SelectiveRepeat/server.py:48-97 | the loop body computes exactly one step on the parsed frame |
| SelectiveRepeatReceiver.RunReceiver | assaiment2/CN_Assignment2_SelectiveRepeat/server.py:36-97 | the loop stops at the first empty or `END` read and its state is the fold of the steps over the frames before it |
| SelectiveRepeatReceiver.DrainDeliversChunks | assaiment2/CN_Assignment2_SelectiveRepeat/server.py:80-84 | when the file is the first `expected` chunks and the buffer holds true chunks ahead of it, the drain keeps both facts |
| SelectiveRepeatReceiver.WrittenIsPrefix | assaiment2/CN_Assignment2_SelectiveRepeat/server.py:67-91 | on a link whose valid frames carry their own chunks, the file is the first `expected` chunks and every buffered payload is its own chunk |
| SelectiveRepeatReceiver.OutcomesWrittenIsPrefix | assaiment2/CN_Assignment2_SelectiveRepeat/server.py:67-91 | the same over the sequence of parse results |
| SelectiveRepeatReceiver.InOrderDelivery | assaiment2/CN_Assignment2_SelectiveRepeat/server.py:67-84 | up to 256 chunks sent in order are written whole, each ACKed once, and the buffer ends empty |
| SelectiveRepeatReceiver.InOrderReadsDelivery | assaiment2/CN_Assignment2_SelectiveRepeat/server.py:67-84 | the same over the parse results of that link |
| SelectiveRepeatReceiver.BufferAhead | assaiment2/CN_Assignment2_SelectiveRepeat/server.py:67-91 | frame 1 arriving first is ACKed and buffered, and nothing is written |
| SelectiveRepeatReceiver.ReleaseBuffered | assaiment2/CN_Assignment2_SelectiveRepeat/server.py:74-84 | frame 0 then writes both payloads in order and empties the buffer |
| SelectiveRepeatReceiver.SwappedFramesDelivered | assaiment2/CN_Assignment2_SelectiveRepeat/server.py:67-91 | two frames arriving swapped are written in the right order |
| SelectiveRepeatReceiver.NothingWrittenPast255 | assaiment2/CN_Assignment2_SelectiveRepeat/server.py:67-77 | once `expected` reaches 256 no later frame is written |
| SelectiveRepeatReceiver.FrameAfterWrapIsNeverWritten | assaiment2/CN_Assignment2_SelectiveRepeat/server.py:67-97 | of 257 chunks sent in order the last is never written; its frame (byte 0) is re-ACKed as a duplicate |
| GoBackNSender.Resend | assaiment2/CN_Assignment2_GoBack/client.py:52-53 | a timeout re-sends one frame per unacknowledged entry |
| GoBackNSender.Retransmit | assaiment2/CN_Assignment2_GoBack/client.py:52-54 | the resend loop walks the sorted keys and sends their frames |
| GoBackNSender.HandleTimeout | assaiment2/CN_Assignment2_GoBack/client.py:50-57 | the timeout phase computes `CheckTimeout`: once more than 3000 ms have passed since the timer started, every unacknowledged frame is re-sent in key order and the timer restarts |
| GoBackNSender.RemoveAcked | assaiment2/CN_Assignment2_GoBack/client.py:80-82 | the deletion loop removes every key up to the ACK number and keeps the rest |
| GoBackNSender.ProcessAck | assaiment2/CN_Assignment2_GoBack/client.py:71-94 | fewer than 4 buffered bytes change nothing; otherwise 4 bytes are consumed; an ACK `a` at or above `base` retires exactly the kept frames numbered up to `a`, sets `base` to `a + 1` and leaves the timer running, restarted now, exactly when frames remain; an ACK below `base` or a slot that is not an ACK leaves window and timer as they were |
| GoBackNSender.HandleAck | assaiment2/CN_Assignment2_GoBack/client.py:71-94 | the ACK phase computes ProcessAck, so it retires frames cumulatively as stated there |
| GoBackNSender.SendNew | assaiment2/CN_Assignment2_GoBack/client.py:96-115 | the send phase never reads past the end of the file |
| GoBackNSender.LoopNext | assaiment2/CN_Assignment2_GoBack/client.py:48-69 | the loop function `Loop` unfolds one pass: while work remains, a receive error ends the loop after the timeout phase, and any other pass continues from the pass's state |
| GoBackNSender.HandlePass | assaiment2/CN_Assignment2_GoBack/client.py:49-115 | one pass of the loop body: timeout, receive, ACK, send |
| GoBackNSender.RunSender | assaiment2/CN_Assignment2_GoBack/client.py:36-119 | the sender loop ends in the state and for the reason the loop function `Loop` gives |
| GoBackNSender.InitialInv | assaiment2/CN_Assignment2_GoBack/client.py:37-46 | the initial variables satisfy the invariant |
| GoBackNSender.CheckTimeoutKeepsInv | assaiment2/CN_Assignment2_GoBack/client.py:50-57 | a timeout keeps the invariant: every kept frame carries its number's chunk, everything sent carries its chunk, kept numbers run without a gap to `nextSeq`, at most 4 numbers past `base`, `base` at most 256 |
| GoBackNSender.CheckTimeoutKeepsWindow | assaiment2/CN_Assignment2_GoBack/client.py:50-57 | a timeout keeps the kept frames and the window exact: pending keys are `[base, nextSeq)` and the timer runs iff some are pending |
| GoBackNSender.ProcessAckKeepsInv | assaiment2/CN_Assignment2_GoBack/client.py:71-94 | an ACK keeps the invariant and never lowers `base` |
| GoBackNSender.SendNewReadsOn | assaiment2/CN_Assignment2_GoBack/client.py:97-115 | after the send phase the file offset is still the end of chunks `0..nextSeq-1` |
| GoBackNSender.SendNewKeepsFrames | assaiment2/CN_Assignment2_GoBack/client.py:102-103 | every stored frame is its number's chunk, whether or not it was lost |
| GoBackNSender.SendNewSendsRight | assaiment2/CN_Assignment2_GoBack/client.py:102-109 | every frame put on the link carries the chunk of its number |
| GoBackNSender.SendNewKeepsInv | assaiment2/CN_Assignment2_GoBack/client.py:96-115 | the send phase keeps the invariant |
| GoBackNSender.PassKeepsInv | assaiment2/CN_Assignment2_GoBack/client.py:48-115 | one pass keeps the invariant, whatever arrives |
| GoBackNSender.FinishKeepsInv | assaiment2/CN_Assignment2_GoBack/client.py:117-119 | appending `END` keeps the invariant |
| GoBackNSender.LoopKeepsInv | assaiment2/CN_Assignment2_GoBack/client.py:48-119 | the invariant holds at the end; leaving with everything acknowledged means the file was read to the end and nothing is pending |
| GoBackNSender.LongFileNeverAllAcked | assaiment2/CN_Assignment2_GoBack/client.py:75-84 | a long file never ends with everything acknowledged, because a one-byte ACK cannot move `base` past 256 |
| GoBackNSender.InitialWindow | assaiment2/CN_Assignment2_GoBack/client.py:37-46 | initially the window is empty and no timer runs |
| GoBackNSender.ProcessAckKeepsWindow | assaiment2/CN_Assignment2_GoBack/client.py:78-91 | for an ACK naming a sent frame, the pending keys stay exactly `[base, nextSeq)` and the timer runs iff some are pending |
| GoBackNSender.SendNewKeepsWindow | assaiment2/CN_Assignment2_GoBack/client.py:97-115 | the send phase keeps the window exact: pending keys are `[base, nextSeq)` and the timer runs iff some are pending |
| GoBackNSender.PassKeepsWindow | assaiment2/CN_Assignment2_GoBack/client.py:48-115 | one pass keeps the window shape when the ACK it processes names a sent frame |
| GoBackNSender.TimeoutResendsWindow | assaiment2/CN_Assignment2_GoBack/client.py:50-54 | a timeout re-sends exactly frames `base .. nextSeq-1`, in order, each carrying its chunk |
| GoBackNSender.AllAckedAtMost256 | assaiment2/CN_Assignment2_GoBack/client.py:48 | ending with everything acknowledged means the whole file was sent, in at most 256 chunks |
| GoBackNSender.NoSlidePast255 | assaiment2/CN_Assignment2_GoBack/client.py:75-84 | once `base` is 256 or more no ACK changes the window or the timer |
| SelectiveRepeatSender.AddFrame | assaiment2/CN_Assignment2_SelectiveRepeat/client.py:56-66 | storing a new frame and starting its timer keeps one timer per unacknowledged frame |
| SelectiveRepeatSender.Burst | assaiment2/CN_Assignment2_SelectiveRepeat/client.py:50-66 | the burst stays within the file and keeps one timer per frame |
| SelectiveRepeatSender.SendBurst | assaiment2/CN_Assignment2_SelectiveRepeat/client.py:48-67 | the burst loop computes the burst |
| SelectiveRepeatSender.CheckTimers | assaiment2/CN_Assignment2_SelectiveRepeat/client.py:72-76 | the timeout phase, which appends `Resent` to the link and restarts the expired timers, keeps one timer per frame; what `Resent` holds is stated by `TimeoutsResendExpired` |
| SelectiveRepeatSender.HandleTimeouts | assaiment2/CN_Assignment2_SelectiveRepeat/client.py:72-76 | the loop over the timers computes the timeout phase |
| SelectiveRepeatSender.SlideStops | assaiment2/CN_Assignment2_SelectiveRepeat/client.py:100-101 | `Slide` moves the base to the first pending number at or after it, or to `nextSeq`, never past it |
| SelectiveRepeatSender.SlideBase | assaiment2/CN_Assignment2_SelectiveRepeat/client.py:100-101 | the slide loop computes `Slide` |
| SelectiveRepeatSender.ProcessAck | assaiment2/CN_Assignment2_SelectiveRepeat/client.py:90-104 | fewer than 4 buffered bytes change nothing; otherwise 4 bytes are consumed; an ACK `a` retires exactly frame `a` and, with one timer per frame, exactly its timer, and `base` slides from where it was; a slot that is not an ACK changes nothing else; one timer per frame is kept |
| SelectiveRepeatSender.HandleAck | assaiment2/CN_Assignment2_SelectiveRepeat/client.py:90-104 | the ACK phase computes ProcessAck, so it retires one frame and its timer as stated there |
| SelectiveRepeatSender.SendNew | assaiment2/CN_Assignment2_SelectiveRepeat/client.py:107-122 | the send phase stays within the file and keeps one timer per frame |
| SelectiveRepeatSender.LoopNext | assaiment2/CN_Assignment2_SelectiveRepeat/client.py:70-87 | the loop function `Loop` unfolds one pass: while work remains, a receive error ends the loop after the timeout phase, and any other pass continues from the pass's state |
| SelectiveRepeatSender.HandlePass | assaiment2/CN_Assignment2_SelectiveRepeat/client.py:71-122 | one pass of the loop body |
| SelectiveRepeatSender.RunSender | assaiment2/CN_Assignment2_SelectiveRepeat/client.py:36-126 | burst then loop end in the state and for the reason the run function `Run` (the burst, then `Loop`) gives |
| SelectiveRepeatSender.InitialInv | assaiment2/CN_Assignment2_SelectiveRepeat/client.py:37-46 | the initial variables satisfy the invariant |
| SelectiveRepeatSender.AddFrameKeepsInv | assaiment2/CN_Assignment2_SelectiveRepeat/client.py:56-66 | adding a frame with room in the window keeps the invariant: keys in `[base, nextSeq)`, at most 4 ahead of `base`, a pending `base`, frames equal to their chunks, timers matching frames |
| SelectiveRepeatSender.BurstKeepsInv | assaiment2/CN_Assignment2_SelectiveRepeat/client.py:50-66 | a burst that fits in the window keeps the invariant |
| SelectiveRepeatSender.CheckTimersKeepsInv | assaiment2/CN_Assignment2_SelectiveRepeat/client.py:72-76 | the timeout phase keeps the invariant |
| SelectiveRepeatSender.ProcessAckKeepsInv | assaiment2/CN_Assignment2_SelectiveRepeat/client.py:90-104 | any ACK, even for a frame never sent, keeps the invariant |
| SelectiveRepeatSender.SendNewKeepsInv | assaiment2/CN_Assignment2_SelectiveRepeat/client.py:107-122 | the send phase keeps the invariant |
| SelectiveRepeatSender.PassKeepsInv | assaiment2/CN_Assignment2_SelectiveRepeat/client.py:70-122 | one pass keeps the invariant, whatever arrives |
| SelectiveRepeatSender.FinishKeepsInv | assaiment2/CN_Assignment2_SelectiveRepeat/client.py:124-126 | appending `END` keeps the invariant |
| SelectiveRepeatSender.LoopKeepsInv | assaiment2/CN_Assignment2_SelectiveRepeat/client.py:70-126 | the invariant holds at the end; leaving with everything acknowledged means the file was read to the end and nothing is pending |
| SelectiveRepeatSender.RunKeepsInv | assaiment2/CN_Assignment2_SelectiveRepeat/client.py:36-126 | the same for burst and loop together |
| SelectiveRepeatSender.LongFileNeverAllAcked | assaiment2/CN_Assignment2_SelectiveRepeat/client.py:93-101 | with more than 256 chunks frame 256 is never acknowledged, so the sender never finishes |
| SelectiveRepeatSender.TimeoutsResendExpired | assaiment2/CN_Assignment2_SelectiveRepeat/client.py:72-76 | a timeout's `Resent` is exactly the expired frames, once each, by ascending number, each carrying its chunk; afterwards no timer is expired |
| WalshCodes.Walsh | assaiment4/CN_Asgn_4/main.py:7-21 | the table for a power of two `n` has `n` rows of length `n` |
| WalshCodes.GenerateWalshTable | assaiment4/CN_Asgn_4/main.py:7-21 | the recursive builder with its two append loops returns the Sylvester table |
| WalshCodes.WalshSigns | assaiment4/CN_Asgn_4/main.py:9-19 | every entry is +1 or -1 |
| WalshCodes.WalshRow | assaiment4/CN_Asgn_4/main.py:15-19 | row `i` of the top half is the half row twice; the bottom half appends the negated half row |
| WalshCodes.WalshOrthogonal | assaiment4/CN_Asgn_4/main.py:7-21 | distinct rows have dot product 0 and each row with itself gives `n` |
| WalshCodes.PowerBelow | assaiment4/CN_Asgn_4/main.py:26-27 | a smaller power of two is at most half of a larger one |
| WalshCodes.NextPowerOf2 | assaiment4/CN_Asgn_4/main.py:23-28 | the result is the least power of two at or above `x` |
| Chips.DotAppend | CN_Asgn_4/CN_Asgn_4/receiver.py:6 | the correlation `Dot` of concatenations is the sum of the parts' correlations |
| Chips.DotNegate | assaiment4/CN_Asgn_4/main.py:18 | negating one side negates the correlation; negating both leaves it |
| Chips.DotSpread | assaiment4/CN_Asgn_4/sender.py:14 | correlating with a code scaled by `k` gives `k` times the correlation with the code |
| Chips.DotAddChips | assaiment4/CN_Asgn_4/sender.py:20-21 | correlation is additive over adding a signal to the channel |
| Chips.DotZeros | assaiment4/CN_Asgn_4/main.py:38 | the silent channel correlates to 0 |
| Chips.AddChipsCommute | assaiment4/CN_Asgn_4/sender.py:20-21 | two senders' additions give the same channel in either order |
| CdmaSender.Bipolar | assaiment4/CN_Asgn_4/sender.py:6-11 | 1 maps to +1, 0 to -1, anything else to 0 |
| CdmaSender.Transmit | assaiment4/CN_Asgn_4/sender.py:14-21 | each channel chip grows by the code chip times the bipolar value; the channel length is unchanged |
| CdmaSender.SilenceLeavesChannel | assaiment4/CN_Asgn_4/sender.py:10-21 | a silent station leaves the channel as it was |
| CdmaReceiver.Decide | CN_Asgn_4/CN_Asgn_4/receiver.py:9-17 | positive correlation decodes to 1, negative to 0, zero to `'silence'` |
| CdmaReceiver.Receive | CN_Asgn_4/CN_Asgn_4/receiver.py:3-20 | only the receiver's own slot is written, with the decision on its correlation |
| CdmaMain.Pad | assaiment4/CN_Asgn_4/main.py:44-48 | the data is padded with `None` up to `N` stations; the stations' own data is kept |
| CdmaMain.CorrectCount | assaiment4/CN_Asgn_4/main.py:86-92 | the count of correct decodes is at most the number of stations |
| CdmaMain.AllCorrectIff | assaiment4/CN_Asgn_4/main.py:97 | the count equals the number of stations exactly when every station decoded correctly |
| CdmaMain.CountCorrect | assaiment4/CN_Asgn_4/main.py:86-92 | the verification loop computes the count |
| CdmaMain.Channel | assaiment4/CN_Asgn_4/main.py:38-67 | the channel after all senders has `N` chips |
| CdmaMain.ChannelCorrelation | CN_Asgn_4/CN_Asgn_4/receiver.py:6 | with Walsh codes, station `i`'s correlation with the channel is `N` times its bipolar value, and 0 for an unused code |
| CdmaMain.DecideRecovers | CN_Asgn_4/CN_Asgn_4/receiver.py:9-17 | deciding on `N` times a bipolar value recovers the bit, or `'silence'` for `None` |
| CdmaMain.StationsDecoded | assaiment4/CN_Asgn_4/main.py:61-80 | every station decodes correctly from the summed channel |
| CdmaMain.TransmitAll | assaiment4/CN_Asgn_4/main.py:61-67 | running every sender in turn on the zero channel produces the summed channel |
| CdmaMain.ReceiveAll | assaiment4/CN_Asgn_4/main.py:74-80 | every slot holds its receiver's decision |
| CdmaMain.Exchange | assaiment4/CN_Asgn_4/main.py:38-80 | transmission then reception decodes every station correctly |
| CdmaMain.RunSimulation | assaiment4/CN_Asgn_4/main.py:30-100 | `N` is the least power of two covering the stations, each station decodes correctly, the padded ones decode to `'silence'`, and the count is `N` |
| Canvas.NoOvershoot | assaiment6/Ass6b/mainwindow.cpp:86-88 | a step never moves past the target in an axis already reached, and always moves in some axis |
| Canvas.PathSnoc | assaiment6/Ass6b/mainwindow.cpp:84-88 | plotting a neighbour of the last pixel keeps the pixel list a path |
| Canvas.ShortSnoc | assaiment6/Ass6b/mainwindow.cpp:84-85 | plotting a non-target pixel inside the bounding box keeps the list short of the target |
| Canvas.BresenhamLine | assaiment6/Ass6b/mainwindow.cpp:77-90 | the pixels start at `(x1, y1)` and end at `(x2, y2)`, plotted once at the end; each step moves by 0 or one unit towards the target in each axis; all pixels lie in the bounding box; there are at least `max(dx, dy) + 1` and at most `dx + dy + 1` of them |
| Canvas.RasterisePolygon | assaiment6/Ass6b/mainwindow.cpp:123-127 | edge `i` is rasterised from vertex `i` to vertex `i + 1`, wrapping to vertex 0: it starts and ends there, reaches the target only at its end, steps toward it and stays in the bounding box of the two vertices |
| Canvas.MainWindow.constructor | assaiment6/Ass6b/mainwindow.cpp:13-20 | the window starts with no clicks, shapes or clip window |
| Canvas.MainWindow.ResetGrid | assaiment6/Ass6b/mainwindow.cpp:49-55 | clicks and shapes are cleared; the clip window is forgotten only when asked; corners are kept |
| Canvas.MainWindow.OnMouseClick | assaiment6/Ass6b/mainwindow.cpp:100-106 | the click is appended; nothing else changes |
| Canvas.MainWindow.DrawPolygon | assaiment6/Ass6b/mainwindow.cpp:117-130 | with fewer than 3 clicks nothing changes; otherwise the clicks become the polygon, the clicks are cleared, and each edge is rasterised between consecutive vertices, with the same per-step facts as a single line |
| Canvas.MainWindow.SetLine | assaiment6/Ass6b/mainwindow.cpp:132-145 | with fewer than 2 clicks nothing changes; otherwise the last two clicks become a stored segment, rasterised from the first to the second (it reaches the second only at its end, steps toward it and stays in their bounding box), and the clicks are cleared |
| Canvas.MainWindow.SetClipWindow | assaiment6/Ass6b/mainwindow.cpp:147-162 | with fewer than 2 clicks nothing changes; otherwise the corners are the component-wise min and max of the last two clicks, so they are ordered, and the window is set |
| Canvas.MainWindow.ComputeOutCode | assaiment6/Ass6b/mainwindow.cpp:164-171 | the code is 0 exactly inside the window; LEFT, RIGHT, BOTTOM and TOP are set exactly for the side the point lies beyond, with the else-if making RIGHT and TOP exclusive with LEFT and BOTTOM |
| Canvas.MainWindow.TrivialClip | assaiment6/Ass6b/mainwindow.cpp:181-182 | accepted, with both endpoints unchanged, exactly when both codes are 0; rejected exactly when both points lie beyond one side |
| Canvas.MainWindow.RejectedMissesWindow | assaiment6/Ass6b/mainwindow.cpp:182 | a rejected segment's bounding box has no point inside the window |

## Left out

- Sockets and files are not modelled. A receiver reads one whole frame per `recv`, a sender's ACK reads are given as byte strings, and the output file is an appended byte sequence. `connect`, `accept`, `settimeout` and `close` are left out.
- Random loss is an oracle: each attempt, frame or ACK carries a boolean saying whether the simulation drops it.
- Time is an integer clock in milliseconds, supplied with each pass of the windowed senders. `TIMEOUT` is 3000 ms, and a timer has expired when more than 3000 ms have passed since its start.
- The Go-Back-N sender reads the clock once per pass. The Selective Repeat timeout loop reads it once for all timers of a pass, where the program calls `time.time()` per timer.
- The Go-Back-N timer is `None` when stopped. The program tests the start time for truth, so a start time of exactly 0 would count as stopped there. A real clock never reads 0.
- The Stop-and-Wait sender has no clock in the model. Its `time.sleep(TIMEOUT)` after a simulated loss and a 2-second `recv` timeout are both one attempt with no reply.
- The environment supplies finitely many attempts or passes. `StopAndWaitSender.Transfer` and both senders' `Loop` stop when they run out and report it (`finished == false` or `OutOfTicks`). The programs would wait forever.
- The Selective Repeat timeout loop visits timers in ascending sequence number. The program visits them in dictionary insertion order, which is the same order because numbers are inserted increasing and re-inserting an existing key keeps its place.
- `Crc.Crc32` is CRC-32 as `zlib.crc32` computes it: reflected, polynomial 0xEDB88320, initial and final value 0xFFFFFFFF. It is written out bit by bit. Nothing about it is proved beyond its range; corrupt-frame detection is stated relative to it.
- `GoBackNSender.ProcessAckKeepsWindow` and `GoBackNSender.PassKeepsWindow` need the processed ACK to name a frame already sent. An ACK from elsewhere (number at or above `nextSeq`) would move `base` past `nextSeq` in the program. The general invariant (`LoopKeepsInv`) needs no such assumption.
- `GoBackNSender.LongFileNeverAllAcked` requires more than 260 chunks, while the program already stalls at 257. The margin of one window keeps the proof to the invariant without the window shape, which holds only for ACKs naming sent frames.
- `Canvas.BresenhamLine` bounds the number of pixels between `max(dx, dy) + 1` and `dx + dy + 1`. It does not state the exact count of `max(dx, dy) + 1`.
- Integer overflow of the 32-bit `int` in `mainwindow.cpp` (`2 * err`, `abs`) is not modelled: the model uses unbounded integers, which matches the program for grid coordinates of realistic size.
- `screenToGrid` (float division and `floor`) is left out: `OnMouseClick` receives the grid position.
- Drawing is left out: `plotPixel`, QPainter and the pixmap, the grid lines, the clip-window frame drawing and all label texts. `drawGrid` is modelled as `ResetGrid`, its effect on the stored shapes.
- The intersection loop of Cohen–Sutherland is left out because it computes with `float`. Only its trivial accept and reject branches are modelled, together with the `c1`/`c2` result on accept (lines 181-182, 203-204).
- Liang–Barsky, Sutherland–Hodgman, Weiler–Atherton, `pointInPolygon` and the Cohen–Sutherland button handler, which stores the segments its intersection loop clips, are left out because they compute with `float`.
- `on_btnResetClip_clicked` is left out: it only copies back `preClipPolygon` and `preClipLines`, which the left-out clip handlers save, and redraws them.
- `on_btnDrawGrid_clicked` and `on_spinGridSize_valueChanged` are `ResetGrid(true)` plus drawing. The `gridSize` the spin box sets is used only by `screenToGrid` and by drawing, both left out.
- In the CDMA code, the sender and receiver threads and `channel_lock` are left out: senders run one after another and receivers after them. `AddChipsCommute` shows the order of senders does not matter.
- `channel.py` (the shared list and the lock) is not part of this model: the channel is an array created with `N` zero chips.
- The receiver's float division by `len(walsh_code)` is replaced by the sign of the integer correlation. That is the same decision because the length is positive.
- The random choice of each station's data is a parameter (`stations`). `NUM_STATIONS` is its length. `'silence'` is a fourth value of `Datum` and is excluded from the stations' data because the program only picks 0, 1 or `None`.
- Console output (`print`) is left out throughout.
- The FTP client and server and `assaiment3/receiver.py` are not part of this model.

=== FILE: bytes.dfy ===
/**
 * Bytes and the big-endian integer encodings the ARQ scripts use through
 * Python's `struct` module (`!H`, `!I`) and `int.from_bytes(..., 'big')`.
 */
module Bytes {

  type byte = b: int | 0 <= b < 256

  const TWO_POW_16: nat := 0x1_0000
  const TWO_POW_32: nat := 0x1_0000_0000

  /** The value of two bytes read most significant first (`struct.unpack('!H', ...)`). */
  function DecodeU16(s: seq<byte>): (v: nat)
    requires |s| == 2
    ensures v < TWO_POW_16
  {
    s[0] as int * 256 + s[1]
  }

  /** `struct.pack('!H', v)`: the unsigned 16-bit value in network byte order. */
  function EncodeU16(v: nat): (s: seq<byte>)
    requires v < TWO_POW_16
    ensures |s| == 2 && DecodeU16(s) == v
  {
    [v / 256, v % 256]
  }

  /** The value of four bytes read most significant first (`struct.unpack('!I', ...)`). */
  function DecodeU32(s: seq<byte>): (v: nat)
    requires |s| == 4
    ensures v < TWO_POW_32
  {
    ((s[0] as int * 256 + s[1]) * 256 + s[2]) * 256 + s[3]
  }

  /** `struct.pack('!I', v)`: the unsigned 32-bit value in network byte order. */
  function EncodeU32(v: nat): (s: seq<byte>)
    requires v < TWO_POW_32
    ensures |s| == 4 && DecodeU32(s) == v
  {
    var x1 := v / 256;
    var x2 := x1 / 256;
    var x3 := x2 / 256;
    assert v == x1 * 256 + v % 256 && x1 == x2 * 256 + x1 % 256 && x2 == x3 * 256 + x2 % 256;
    [x3, x2 % 256, x1 % 256, v % 256]
  }

  /** `int.from_bytes(s, 'big')`: any number of bytes, the empty sequence being 0. */
  function FromBytesBigEndian(s: seq<byte>): nat
  {
    if |s| == 0 then 0 else FromBytesBigEndian(s[..|s| - 1]) * 256 + s[|s| - 1] as int
  }

  /** A single trailing byte is read back as itself; no byte reaches 256. */
  lemma FromOneByte(s: seq<byte>)
    requires |s| == 1
    ensures FromBytesBigEndian(s) == s[0] < 256
  {
    assert s[..0] == [];
  }

  /** A counter below 256 is its own sequence byte. */
  lemma SmallMod(n: int)
    requires 0 <= n < 256
    ensures n % 256 == n
  {
  }
}

=== FILE: canvas.dfy ===
/**
 * The integer part of the clipping canvas: the Bresenham rasteriser,
 * the clip window set from two clicks, Cohen-Sutherland outcodes and the
 * trivial accept/reject decisions, and the click-count guards of the
 * drawing buttons.
 */
module Canvas {

  /** A grid position. */
  datatype Point = Point(x: int, y: int)

  function Abs(v: int): nat
  {
    if v < 0 then -v else v
  }

  /** The step direction toward the target: +1 when it lies above, -1 otherwise (also when it is level). */
  function Dir(from: int, to: int): int
  {
    if from < to then 1 else -1
  }

  predicate Between(v: int, a: int, b: int)
  {
    (a <= v <= b) || (b <= v <= a)
  }

  /** One rasteriser step: each coordinate stays or moves one unit in its direction, and the pixel changes. */
  predicate Advances(p: Point, q: Point, sx: int, sy: int)
  {
    && (q.x == p.x || q.x == p.x + sx)
    && (q.y == p.y || q.y == p.y + sy)
    && q != p
  }

  /** `p * q <= -p` for a non-negative `p` and a negative `q`. */
  lemma {:induction false} ScaleNegative(p: int, q: int)
    requires p >= 0 && q <= -1
    ensures p * q <= -p
    decreases p
  {
    if p > 0 {
      ScaleNegative(p - 1, q);
      assert p * q == (p - 1) * q + q;
    }
  }

  /**
   * With `err == dx - dy + b * dx - a * dy` after `a` steps in x and `b`
   * in y, the error term never lets a coordinate pass its target, and
   * while the target is not reached at least one coordinate steps.
   */
  lemma NoOvershoot(dx: int, dy: int, a: int, b: int, err: int)
    requires 0 <= a <= dx && 0 <= b <= dy && !(a == dx && b == dy)
    requires err == dx - dy + b * dx - a * dy
    ensures a == dx ==> 2 * err <= -dy
    ensures b == dy ==> 2 * err >= dx
    ensures 2 * err > -dy || 2 * err < dx
  {
    if a == dx {
      assert b * dx - a * dy == dx * (b - dy);
      ScaleNegative(dx, b - dy);
    }
    if b == dy {
      assert b * dx - a * dy == dy * (dx - a);
      ScaleNegative(dy, a - dx);
      assert dy * (a - dx) == -(dy * (dx - a));
    }
  }

  /** Every pixel advances one step from the one before it. */
  predicate Path(pixels: seq<Point>, sx: int, sy: int)
  {
    forall i :: 0 <= i < |pixels| - 1 ==> Advances(pixels[i], pixels[i + 1], sx, sy)
  }

  /** Every pixel lies in the bounding box of the two ends and none is the second end. */
  predicate Short(pixels: seq<Point>, x1: int, y1: int, x2: int, y2: int)
  {
    forall p :: p in pixels ==> p != Point(x2, y2) && Between(p.x, x1, x2) && Between(p.y, y1, y2)
  }

  lemma PathSnoc(pixels: seq<Point>, p: Point, sx: int, sy: int)
    requires Path(pixels, sx, sy)
    requires pixels != [] ==> Advances(pixels[|pixels| - 1], p, sx, sy)
    ensures Path(pixels + [p], sx, sy)
  {
  }

  lemma ShortSnoc(pixels: seq<Point>, p: Point, x1: int, y1: int, x2: int, y2: int)
    requires Short(pixels, x1, y1, x2, y2)
    requires p != Point(x2, y2) && Between(p.x, x1, x2) && Between(p.y, y1, y2)
    ensures Short(pixels + [p], x1, y1, x2, y2)
  {
  }

  /**
   * `drawBresenhamLine`, with the plotted pixels collected in order: it
   * starts at the first end point, every step moves each coordinate by
   * nothing or one unit toward the second end point, no pixel leaves the
   * bounding box of the two ends, and the loop stops as soon as it has
   * plotted the second end point.
   */
  method BresenhamLine(x1: int, y1: int, x2: int, y2: int) returns (pixels: seq<Point>)
    ensures |pixels| > 0 && pixels[0] == Point(x1, y1) && pixels[|pixels| - 1] == Point(x2, y2)
    ensures forall i :: 0 <= i < |pixels| - 1 ==>
      Advances(pixels[i], pixels[i + 1], Dir(x1, x2), Dir(y1, y2)) && pixels[i] != Point(x2, y2)
    ensures forall p :: p in pixels ==> Between(p.x, x1, x2) && Between(p.y, y1, y2)
    ensures Abs(x2 - x1) + 1 <= |pixels| && Abs(y2 - y1) + 1 <= |pixels|
    ensures |pixels| <= Abs(x2 - x1) + Abs(y2 - y1) + 1
  {
    var dx: int := Abs(x2 - x1);
    var dy: int := Abs(y2 - y1);
    var sx := Dir(x1, x2);
    var sy := Dir(y1, y2);
    var err: int := dx - dy;
    var x, y := x1, y1;
    ghost var a: int, b: int := 0, 0;
    pixels := [];
    while true
      invariant 0 <= a <= dx && 0 <= b <= dy
      invariant x == if x1 < x2 then x1 + a else x1 - a
      invariant y == if y1 < y2 then y1 + b else y1 - b
      invariant err == dx - dy + b * dx - a * dy
      invariant |pixels| <= a + b && a <= |pixels| && b <= |pixels|
      invariant pixels == [] ==> x == x1 && y == y1
      invariant pixels != [] ==> pixels[0] == Point(x1, y1) && Advances(pixels[|pixels| - 1], Point(x, y), sx, sy)
      invariant Path(pixels, sx, sy)
      invariant Short(pixels, x1, y1, x2, y2)
      decreases dx - a + dy - b
    {
      PathSnoc(pixels, Point(x, y), sx, sy);
      ghost var before := pixels;
      pixels := pixels + [Point(x, y)];
      if x == x2 && y == y2 {
        break;
      }
      ShortSnoc(before, Point(x, y), x1, y1, x2, y2);
      NoOvershoot(dx, dy, a, b, err);
      var e2 := 2 * err;
      if e2 > -dy {
        assert (a + 1) * dy == a * dy + dy;
        err := err - dy;
        x := x + sx;
        a := a + 1;
      }
      if e2 < dx {
        assert (b + 1) * dx == b * dx + dx;
        err := err + dx;
        y := y + sy;
        b := b + 1;
      }
    }
  }

  // ---------------------------------------------------------------------
  // Cohen-Sutherland region codes.
  // ---------------------------------------------------------------------

  const INSIDE: bv8 := 0
  const LEFT: bv8 := 1
  const RIGHT: bv8 := 2
  const BOTTOM: bv8 := 4
  const TOP: bv8 := 8

  /** A stored line: the last two clicks when the line button was pressed. */
  datatype Segment = Segment(first: Point, second: Point)

  /** What the trivial tests of `clipLineCohenSutherland` decide before any intersection is computed. */
  datatype Verdict = Accepted(c1: Point, c2: Point) | Rejected | NeedsClipping

  function Min(a: int, b: int): int
  {
    if a < b then a else b
  }

  function Max(a: int, b: int): int
  {
    if a < b then b else a
  }

  /** A rasterised run from one point to another. */
  predicate Joins(pixels: seq<Point>, from: Point, to: Point)
  {
    |pixels| > 0 && pixels[0] == from && pixels[|pixels| - 1] == to
  }

  /**
   * A run as the rasteriser draws it: it joins the two points, reaches
   * `to` only at its end, every step moves toward `to`, and no pixel leaves
   * the bounding box of the two points.
   */
  predicate Rasterised(pixels: seq<Point>, from: Point, to: Point)
  {
    && Joins(pixels, from, to)
    && (forall i :: 0 <= i < |pixels| - 1 ==>
          Advances(pixels[i], pixels[i + 1], Dir(from.x, to.x), Dir(from.y, to.y)) && pixels[i] != to)
    && (forall p :: p in pixels ==> Between(p.x, from.x, to.x) && Between(p.y, from.y, to.y))
  }

  /** The polygon drawing loop: one rasterised edge from every vertex to the next, the last edge closing back to the first vertex. */
  method RasterisePolygon(vertices: seq<Point>) returns (edges: seq<seq<Point>>)
    ensures |edges| == |vertices|
    ensures forall i :: 0 <= i < |edges| ==> Rasterised(edges[i], vertices[i], vertices[(i + 1) % |vertices|])
  {
    edges := [];
    var n := |vertices|;
    for i := 0 to n
      invariant |edges| == i
      invariant forall k :: 0 <= k < i ==> Rasterised(edges[k], vertices[k], vertices[(k + 1) % n])
    {
      var p1 := vertices[i];
      var p2 := vertices[(i + 1) % n];
      var pixels := BresenhamLine(p1.x, p1.y, p2.x, p2.y);
      edges := edges + [pixels];
    }
  }

  /** The state of the window the handlers read and update. */
  class MainWindow {
    var clickedPoints: seq<Point>
    var polygonVertices: seq<Point>
    var lines: seq<Segment>
    var windowMin: Point
    var windowMax: Point
    var isWindowSet: bool

    /** The window corners are ordered in both axes. */
    ghost predicate Valid()
      reads this
    {
      windowMin.x <= windowMax.x && windowMin.y <= windowMax.y
    }

    /** The constructor's grid reset: no clicks, shapes or window yet. */
    constructor()
      ensures Valid()
      ensures clickedPoints == [] && polygonVertices == [] && lines == [] && !isWindowSet
    {
      clickedPoints := [];
      polygonVertices := [];
      lines := [];
      windowMin := Point(0, 0);
      windowMax := Point(0, 0);
      isWindowSet := false;
    }

    /** `drawGrid`: forgets the clicks and the shapes, and the window too when asked. */
    method ResetGrid(clearWindow: bool)
      requires Valid()
      modifies this
      ensures Valid()
      ensures clickedPoints == [] && polygonVertices == [] && lines == []
      ensures isWindowSet == (old(isWindowSet) && !clearWindow)
      ensures windowMin == old(windowMin) && windowMax == old(windowMax)
    {
      clickedPoints := [];
      polygonVertices := [];
      lines := [];
      if clearWindow {
        isWindowSet := false;
      }
    }

    /** `onMouseClick`, with the click already converted to a grid position. */
    method OnMouseClick(gridPos: Point)
      requires Valid()
      modifies this
      ensures Valid()
      ensures clickedPoints == old(clickedPoints) + [gridPos]
      ensures polygonVertices == old(polygonVertices) && lines == old(lines)
      ensures windowMin == old(windowMin) && windowMax == old(windowMax) && isWindowSet == old(isWindowSet)
    {
      clickedPoints := clickedPoints + [gridPos];
    }

    /**
     * The polygon button: with fewer than three clicks nothing changes;
     * otherwise the clicks become the polygon's vertices, each edge to the
     * next vertex (the last one back to the first) is rasterised, and the
     * clicks are cleared.
     */
    method DrawPolygon() returns (edges: seq<seq<Point>>)
      requires Valid()
      modifies this
      ensures Valid()
      ensures |old(clickedPoints)| < 3 ==>
        clickedPoints == old(clickedPoints) && polygonVertices == old(polygonVertices) && edges == []
      ensures |old(clickedPoints)| >= 3 ==>
        polygonVertices == old(clickedPoints) && clickedPoints == [] && |edges| == |polygonVertices|
      ensures forall i :: 0 <= i < |edges| ==>
        Rasterised(edges[i], polygonVertices[i], polygonVertices[(i + 1) % |polygonVertices|])
      ensures lines == old(lines)
      ensures windowMin == old(windowMin) && windowMax == old(windowMax) && isWindowSet == old(isWindowSet)
    {
      edges := [];
      if |clickedPoints| < 3 {
        return;
      }
      polygonVertices := clickedPoints;
      edges := RasterisePolygon(polygonVertices);
      clickedPoints := [];
    }

    /**
     * The line button: with fewer than two clicks nothing changes;
     * otherwise the last two clicks are stored as a line, rasterised, and
     * the clicks are cleared.
     */
    method SetLine() returns (pixels: seq<Point>)
      requires Valid()
      modifies this
      ensures Valid()
      ensures |old(clickedPoints)| < 2 ==> clickedPoints == old(clickedPoints) && lines == old(lines) && pixels == []
      ensures |old(clickedPoints)| >= 2 ==>
        var n := |old(clickedPoints)|;
        var p1 := old(clickedPoints)[n - 2];
        var p2 := old(clickedPoints)[n - 1];
        && lines == old(lines) + [Segment(p1, p2)] && clickedPoints == []
        && Rasterised(pixels, p1, p2)
      ensures polygonVertices == old(polygonVertices)
      ensures windowMin == old(windowMin) && windowMax == old(windowMax) && isWindowSet == old(isWindowSet)
    {
      pixels := [];
      if |clickedPoints| < 2 {
        return;
      }
      var p1 := clickedPoints[|clickedPoints| - 2];
      var p2 := clickedPoints[|clickedPoints| - 1];
      lines := lines + [Segment(p1, p2)];
      pixels := BresenhamLine(p1.x, p1.y, p2.x, p2.y);
      clickedPoints := [];
    }

    /**
     * The clip-window button: with fewer than two clicks nothing changes;
     * otherwise the window spans the last two clicks, its lower corner
     * the component-wise minimum and its upper corner the maximum.
     */
    method SetClipWindow()
      requires Valid()
      modifies this
      ensures Valid()
      ensures |old(clickedPoints)| < 2 ==>
        clickedPoints == old(clickedPoints) && windowMin == old(windowMin)
        && windowMax == old(windowMax) && isWindowSet == old(isWindowSet)
      ensures |old(clickedPoints)| >= 2 ==>
        var n := |old(clickedPoints)|;
        var p1 := old(clickedPoints)[n - 2];
        var p2 := old(clickedPoints)[n - 1];
        && windowMin == Point(Min(p1.x, p2.x), Min(p1.y, p2.y))
        && windowMax == Point(Max(p1.x, p2.x), Max(p1.y, p2.y))
        && isWindowSet && clickedPoints == []
      ensures polygonVertices == old(polygonVertices) && lines == old(lines)
    {
      if |clickedPoints| < 2 {
        return;
      }
      var p1 := clickedPoints[|clickedPoints| - 2];
      var p2 := clickedPoints[|clickedPoints| - 1];
      windowMin := Point(Min(p1.x, p2.x), Min(p1.y, p2.y));
      windowMax := Point(Max(p1.x, p2.x), Max(p1.y, p2.y));
      isWindowSet := true;
      clickedPoints := [];
    }

    /**
     * `computeOutCode` on a grid point: the code is INSIDE exactly when the
     * point lies in the window; LEFT and RIGHT, and BOTTOM and TOP, are
     * never set together.
     */
    function ComputeOutCode(p: Point): (code: bv8)
      reads this
      ensures code == INSIDE <==>
        windowMin.x <= p.x <= windowMax.x && windowMin.y <= p.y <= windowMax.y
      ensures code & LEFT != 0 <==> p.x < windowMin.x
      ensures code & RIGHT != 0 <==> windowMin.x <= p.x && windowMax.x < p.x
      ensures code & BOTTOM != 0 <==> p.y < windowMin.y
      ensures code & TOP != 0 <==> windowMin.y <= p.y && windowMax.y < p.y
    {
      var horizontal := if p.x < windowMin.x then LEFT else if p.x > windowMax.x then RIGHT else INSIDE;
      var vertical := if p.y < windowMin.y then BOTTOM else if p.y > windowMax.y then TOP else INSIDE;
      INSIDE | horizontal | vertical
    }

    /** Both end points lie beyond the same edge of the window. */
    predicate SameSideOutside(p1: Point, p2: Point)
      reads this
    {
      || (p1.x < windowMin.x && p2.x < windowMin.x)
      || (p1.x > windowMax.x && p2.x > windowMax.x)
      || (p1.y < windowMin.y && p2.y < windowMin.y)
      || (p1.y > windowMax.y && p2.y > windowMax.y)
    }

    /**
     * The first pass of `clipLineCohenSutherland`: accepted unchanged
     * exactly when both end points are inside, rejected exactly when both
     * lie beyond one common edge, and otherwise left to the intersection
     * steps.
     */
    function TrivialClip(p1: Point, p2: Point): (v: Verdict)
      requires Valid()
      reads this
      ensures v.Accepted? <==> ComputeOutCode(p1) == INSIDE && ComputeOutCode(p2) == INSIDE
      ensures v.Accepted? ==> v.c1 == p1 && v.c2 == p2
      ensures v.Rejected? <==> SameSideOutside(p1, p2)
    {
      var outcode1 := ComputeOutCode(p1);
      var outcode2 := ComputeOutCode(p2);
      if outcode1 | outcode2 == 0 then Accepted(p1, p2)
      else if outcode1 & outcode2 != 0 then Rejected
      else NeedsClipping
    }

    /** A rejected segment has no point in the window: its whole bounding box lies beyond the shared edge. */
    lemma RejectedMissesWindow(p1: Point, p2: Point, q: Point)
      requires Valid() && TrivialClip(p1, p2).Rejected?
      requires Between(q.x, p1.x, p2.x) && Between(q.y, p1.y, p2.y)
      ensures ComputeOutCode(q) != INSIDE
    {
    }
  }
}

=== FILE: cdma_main.dfy ===
/**
 * The CDMA simulation driver: pick the table size, pad the stations,
 * let every station transmit and every receiver decode, then count the
 * stations whose bit came back.
 */
module CdmaMain {
  import opened Chips
  import opened WalshCodes
  import opened CdmaSender
  import opened CdmaReceiver

  /** The padding loop: silent stations are appended until there are `n`; a longer list is left as it is. */
  method Pad(stations: seq<Datum>, n: nat) returns (padded: seq<Datum>)
    ensures |padded| == if n > |stations| then n else |stations|
    ensures padded[..|stations|] == stations
    ensures forall i :: |stations| <= i < |padded| ==> padded[i] == Null
  {
    padded := stations;
    var k: int := 0;
    while k < n - |stations|
      invariant 0 <= k && |padded| == |stations| + k
      invariant k > 0 ==> k <= n - |stations|
      invariant padded[..|stations|] == stations
      invariant forall i :: |stations| <= i < |padded| ==> padded[i] == Null
      decreases n - |stations| - k
    {
      padded := padded + [Null];
      k := k + 1;
    }
  }

  /** The success test of the verification phase. */
  predicate Correct(sent: Datum, decoded: Datum)
  {
    sent == decoded || (sent == Null && decoded == SilenceLabel)
  }

  /** The number of stations, in order, whose decoded slot passes the test. */
  function CorrectCount(sent: seq<Datum>, decoded: seq<Datum>): (count: nat)
    requires |sent| == |decoded|
    ensures count <= |sent|
  {
    if |sent| == 0 then 0
    else
      var m := |sent| - 1;
      CorrectCount(sent[..m], decoded[..m]) + if Correct(sent[m], decoded[m]) then 1 else 0
  }

  /** The count reaches the number of stations exactly when every station passes. */
  lemma {:induction false} AllCorrectIff(sent: seq<Datum>, decoded: seq<Datum>)
    requires |sent| == |decoded|
    ensures CorrectCount(sent, decoded) == |sent| <==>
      forall i :: 0 <= i < |sent| ==> Correct(sent[i], decoded[i])
    decreases |sent|
  {
    if |sent| != 0 {
      var m := |sent| - 1;
      AllCorrectIff(sent[..m], decoded[..m]);
      if CorrectCount(sent, decoded) == |sent| {
        assert CorrectCount(sent[..m], decoded[..m]) == m;
        assert forall i :: 0 <= i < m ==> sent[..m][i] == sent[i] && decoded[..m][i] == decoded[i];
      } else {
        assert !(forall i :: 0 <= i < m ==> Correct(sent[..m][i], decoded[..m][i]))
          || !Correct(sent[m], decoded[m]);
      }
    }
  }

  /** The verification loop: counts the stations that pass. */
  method CountCorrect(sent: seq<Datum>, decoded: seq<Datum>) returns (count: nat)
    requires |sent| == |decoded|
    ensures count == CorrectCount(sent, decoded)
  {
    count := 0;
    for i := 0 to |sent|
      invariant count == CorrectCount(sent[..i], decoded[..i])
    {
      assert sent[..i + 1][..i] == sent[..i] && decoded[..i + 1][..i] == decoded[..i];
      if Correct(sent[i], decoded[i]) {
        count := count + 1;
      }
    }
    assert sent[..|sent|] == sent && decoded[..|sent|] == decoded;
  }

  /** The channel after the first `|data|` stations transmitted, in station order, onto `n` silent chips. */
  function Channel(codes: seq<seq<int>>, data: seq<Datum>, n: nat): (c: seq<int>)
    requires |codes| == |data|
    requires forall i :: 0 <= i < |codes| ==> |codes[i]| >= n
    ensures |c| == n
    decreases |codes|
  {
    if |codes| == 0 then Zeros(n)
    else
      var m := |codes| - 1;
      AddChips(Channel(codes[..m], data[..m], n), Spread(codes[m], Bipolar(data[m])))
  }

  /**
   * Correlating with row `i` of the table picks out station `i`'s
   * contribution, `n` times its bipolar value, from the stations that
   * transmitted; every other station contributes nothing.
   */
  lemma {:induction false} ChannelCorrelation(n: nat, data: seq<Datum>, i: nat)
    requires IsPowerOf2(n) && |data| <= n && i < n
    ensures Dot(Walsh(n)[i], Channel(Walsh(n)[..|data|], data, n))
      == if i < |data| then n * Bipolar(data[i]) else 0
    decreases |data|
  {
    var w := Walsh(n);
    if |data| == 0 {
      DotZeros(w[i], n);
    } else {
      var m := |data| - 1;
      var b := Bipolar(data[m]);
      var codes := w[..|data|];
      assert codes[..m] == w[..m] && codes[m] == w[m];
      var before := Channel(w[..m], data[..m], n);
      assert Channel(codes, data, n) == AddChips(before, Spread(w[m], b));
      ChannelCorrelation(n, data[..m], i);
      DotAddChips(w[i], before, Spread(w[m], b));
      DotSpread(w[i], w[m], b);
      WalshOrthogonal(n, i, m);
      if i == m {
        assert Dot(w[i], before) == 0;
        assert Dot(w[i], Spread(w[m], b)) == b * n;
      } else if i < m {
        assert Dot(w[i], before) == n * Bipolar(data[i]);
        assert Dot(w[i], Spread(w[m], b)) == 0;
      } else {
        assert Dot(w[i], before) == 0;
        assert Dot(w[i], Spread(w[m], b)) == 0;
      }
    }
  }

  /** Decoding a correlation of `n` times a station's bipolar value gives back what the station sent. */
  lemma DecideRecovers(n: nat, d: Datum)
    requires n > 0 && d != SilenceLabel
    ensures Correct(d, Decide(n * Bipolar(d)))
  {
  }

  /** After every station of the padded list transmitted, every receiver decodes what its station sent. */
  lemma StationsDecoded(n: nat, data: seq<Datum>)
    requires IsPowerOf2(n) && |data| == n
    requires forall i :: 0 <= i < n ==> data[i] != SilenceLabel
    ensures forall i :: 0 <= i < n ==>
      Correct(data[i], Decide(Dot(Walsh(n)[i], Channel(Walsh(n), data, n))))
  {
    forall i | 0 <= i < n
      ensures Correct(data[i], Decide(Dot(Walsh(n)[i], Channel(Walsh(n), data, n))))
    {
      assert Walsh(n)[..n] == Walsh(n);
      ChannelCorrelation(n, data, i);
      DecideRecovers(n, data[i]);
    }
  }

  /** The transmission phase, stations in order. */
  method TransmitAll(channel: array<int>, table: seq<seq<int>>, data: seq<Datum>)
    requires |table| == |data| && forall i :: 0 <= i < |table| ==> |table[i]| >= channel.Length
    requires channel[..] == Zeros(channel.Length)
    modifies channel
    ensures channel[..] == Channel(table, data, channel.Length)
  {
    for i := 0 to |table|
      invariant channel[..] == Channel(table[..i], data[..i], channel.Length)
    {
      assert table[..i + 1][..i] == table[..i] && data[..i + 1][..i] == data[..i];
      Transmit(channel, table[i], data[i]);
    }
    assert table[..|table|] == table && data[..|data|] == data;
  }

  /** The reception phase: every receiver fills its own slot. */
  method ReceiveAll(channel: array<int>, table: seq<seq<int>>, decoded: array<Datum>)
    requires |table| == decoded.Length && forall i :: 0 <= i < |table| ==> |table[i]| > 0
    modifies decoded
    ensures forall i :: 0 <= i < |table| ==> decoded[i] == Decide(Dot(table[i], channel[..]))
  {
    for i := 0 to |table|
      invariant forall k :: 0 <= k < i ==> decoded[k] == Decide(Dot(table[k], channel[..]))
    {
      Receive(i, table[i], channel, decoded);
    }
  }

  /** The transmission and reception phases over a fresh channel of `n` silent chips. */
  method Exchange(n: nat, table: seq<seq<int>>, data: seq<Datum>) returns (decoded: array<Datum>)
    requires IsPowerOf2(n) && table == Walsh(n) && |data| == n
    requires forall i :: 0 <= i < n ==> data[i] != SilenceLabel
    ensures fresh(decoded) && decoded.Length == n
    ensures forall i :: 0 <= i < n ==> Correct(data[i], decoded[i]) && decoded[i] != Null
  {
    var channel := new int[n](_ => 0);
    assert channel[..] == Zeros(n);
    decoded := new Datum[n](_ => Null);
    TransmitAll(channel, table, data);
    ReceiveAll(channel, table, decoded);
    StationsDecoded(n, data);
  }

  /**
   * The whole simulation over the stations' choices (each 1, 0 or silent).
   * The table is the least power of two that fits every station, and
   * every station's slot decodes to what it sent, so the count is the
   * table size.
   */
  method RunSimulation(stations: seq<Datum>) returns (n: nat, decoded: array<Datum>, count: nat)
    requires forall i :: 0 <= i < |stations| ==> stations[i] != SilenceLabel
    ensures IsPowerOf2(n) && |stations| <= n
    ensures forall q: nat :: IsPowerOf2(q) && |stations| <= q ==> n <= q
    ensures decoded.Length == n
    ensures forall i :: 0 <= i < |stations| ==> Correct(stations[i], decoded[i])
    ensures forall i :: |stations| <= i < n ==> decoded[i] == SilenceLabel
    ensures count == n
  {
    n := NextPowerOf2(|stations|);
    var table := GenerateWalshTable(n);
    var data := Pad(stations, n);
    assert forall i :: 0 <= i < |stations| ==> data[i] == stations[i] by {
      assert forall i :: 0 <= i < |stations| ==> data[..|stations|][i] == data[i];
    }
    decoded := Exchange(n, table, data);
    AllCorrectIff(data, decoded[..]);
    count := CountCorrect(data, decoded[..]);
  }
}

=== FILE: cdma_receiver.dfy ===
/** A CDMA receiver: correlates the channel with its own Walsh row and decides on the sign. */
module CdmaReceiver {
  import opened Chips

  /**
   * The decision on `inner_product / len(walsh_code)`: with a positive
   * divisor only the sign of the inner product matters.
   */
  function Decide(innerProduct: int): (d: Datum)
    ensures d == One <==> innerProduct > 0
    ensures d == Zero <==> innerProduct < 0
    ensures d == SilenceLabel <==> innerProduct == 0
  {
    if innerProduct > 0 then One
    else if innerProduct < 0 then Zero
    else SilenceLabel
  }

  /**
   * `receiver`: writes the decision for this station into its own slot
   * and leaves every other slot alone. An empty code would divide by zero.
   */
  method Receive(id: nat, code: seq<int>, channel: array<int>, decoded: array<Datum>)
    requires id < decoded.Length && |code| > 0
    modifies decoded
    ensures decoded[..] == old(decoded[..])[id := Decide(Dot(code, channel[..]))]
  {
    var innerProduct := Dot(code, channel[..]);
    decoded[id] := Decide(innerProduct);
  }
}

=== FILE: cdma_sender.dfy ===
/** A CDMA station: spreads its bit over its Walsh row and adds the result onto the shared channel. */
module CdmaSender {
  import opened Chips

  /** 1 sends +1, 0 sends -1, anything else (silence) sends 0. */
  function Bipolar(d: Datum): (b: int)
    ensures b == 1 <==> d == One
    ensures b == -1 <==> d == Zero
    ensures b == 0 <==> d != One && d != Zero
  {
    match d
    case One => 1
    case Zero => -1
    case _ => 0
  }

  /**
   * `sender`: every channel chip grows by the matching chip of the
   * encoded signal; the channel keeps its length. The code must be at
   * least as long as the channel, or the Python indexing fails.
   */
  method Transmit(channel: array<int>, code: seq<int>, d: Datum)
    requires |code| >= channel.Length
    modifies channel
    ensures channel[..] == AddChips(old(channel[..]), Spread(code, Bipolar(d)))
  {
    var signal := Spread(code, Bipolar(d));
    for i := 0 to channel.Length
      invariant forall k :: 0 <= k < i ==> channel[k] == old(channel[k]) + signal[k]
      invariant forall k :: i <= k < channel.Length ==> channel[k] == old(channel[k])
    {
      channel[i] := channel[i] + signal[i];
    }
  }

  /** A silent station leaves the channel as it was. */
  lemma SilenceLeavesChannel(channel: seq<int>, code: seq<int>, d: Datum)
    requires d != One && d != Zero && |code| >= |channel|
    ensures AddChips(channel, Spread(code, Bipolar(d))) == channel
  {
  }
}

=== FILE: chips.dfy ===
/**
 * Chip sequences of the CDMA simulation: the correlation (inner product)
 * the receivers compute, chip-wise addition onto the channel, spreading a
 * bipolar value over a code, and the algebra that connects them.
 */
module Chips {

  /**
   * The values a station's slot takes: the bits 1 and 0, Python's `None`
   * (a silent station, and an undecoded slot) and the label `'silence'`
   * the receivers write for a zero correlation.
   */
  datatype Datum = One | Zero | Null | SilenceLabel

  /** The inner product of two chip sequences: pairs run up to the shorter sequence. */
  function Dot(a: seq<int>, b: seq<int>): int
    decreases |a|
  {
    if |a| == 0 || |b| == 0 then 0 else a[0] * b[0] + Dot(a[1..], b[1..])
  }

  /** Every chip negated: the lower half of a Walsh row. */
  function Negate(r: seq<int>): seq<int>
  {
    seq(|r|, i requires 0 <= i < |r| => -r[i])
  }

  /** A code spread by one bipolar value: every chip multiplied by it. */
  function Spread(code: seq<int>, bipolar: int): seq<int>
  {
    seq(|code|, i requires 0 <= i < |code| => code[i] * bipolar)
  }

  /** The channel after `channel[i] += signal[i]` for every index of the channel. */
  function AddChips(channel: seq<int>, signal: seq<int>): seq<int>
    requires |signal| >= |channel|
  {
    seq(|channel|, i requires 0 <= i < |channel| => channel[i] + signal[i])
  }

  function Zeros(n: nat): seq<int>
  {
    seq(n, _ => 0)
  }

  /** Correlation splits over concatenation when the first halves have the same length. */
  lemma {:induction false} DotAppend(a1: seq<int>, a2: seq<int>, b1: seq<int>, b2: seq<int>)
    requires |a1| == |b1|
    ensures Dot(a1 + a2, b1 + b2) == Dot(a1, b1) + Dot(a2, b2)
    decreases |a1|
  {
    if |a1| != 0 {
      assert (a1 + a2)[1..] == a1[1..] + a2;
      assert (b1 + b2)[1..] == b1[1..] + b2;
      DotAppend(a1[1..], a2, b1[1..], b2);
    } else {
      assert a1 + a2 == a2 && b1 + b2 == b2;
    }
  }

  /** Negating one side negates the correlation; negating both leaves it. */
  lemma {:induction false} DotNegate(a: seq<int>, b: seq<int>)
    ensures Dot(a, Negate(b)) == -Dot(a, b)
    ensures Dot(Negate(a), b) == -Dot(a, b)
    ensures Dot(Negate(a), Negate(b)) == Dot(a, b)
    decreases |a|
  {
    if |a| != 0 && |b| != 0 {
      assert Negate(b)[1..] == Negate(b[1..]);
      assert Negate(a)[1..] == Negate(a[1..]);
      DotNegate(a[1..], b[1..]);
    }
  }

  /** Correlating with a spread signal scales the correlation with the code. */
  lemma {:induction false} DotSpread(a: seq<int>, code: seq<int>, k: int)
    ensures Dot(a, Spread(code, k)) == k * Dot(a, code)
    decreases |a|
  {
    if |a| != 0 && |code| != 0 {
      assert Spread(code, k)[1..] == Spread(code[1..], k);
      DotSpread(a[1..], code[1..], k);
      assert a[0] * (code[0] * k) == k * (a[0] * code[0]);
      assert k * (a[0] * code[0]) + k * Dot(a[1..], code[1..]) == k * (a[0] * code[0] + Dot(a[1..], code[1..]));
    }
  }

  /** Correlation is additive in the channel. */
  lemma {:induction false} DotAddChips(a: seq<int>, channel: seq<int>, signal: seq<int>)
    requires |a| == |channel| && |signal| >= |channel|
    ensures Dot(a, AddChips(channel, signal)) == Dot(a, channel) + Dot(a, signal)
    decreases |a|
  {
    if |a| != 0 {
      assert AddChips(channel, signal)[1..] == AddChips(channel[1..], signal[1..]);
      DotAddChips(a[1..], channel[1..], signal[1..]);
    }
  }

  /** A silent channel correlates to zero. */
  lemma {:induction false} DotZeros(a: seq<int>, n: nat)
    ensures Dot(a, Zeros(n)) == 0
    decreases |a|
  {
    if |a| != 0 && n != 0 {
      assert Zeros(n)[1..] == Zeros(n - 1);
      DotZeros(a[1..], n - 1);
    }
  }

  /** The senders' additions commute: the channel does not depend on the order in which they run. */
  lemma AddChipsCommute(channel: seq<int>, s1: seq<int>, s2: seq<int>)
    requires |s1| >= |channel| && |s2| >= |channel|
    ensures AddChips(AddChips(channel, s1), s2) == AddChips(AddChips(channel, s2), s1)
  {
  }
}

=== FILE: crc.dfy ===
/**
 * CRC-32 as computed by `zlib.crc32`: the CRC of ITU-T V.42 / IEEE 802.3
 * (generator polynomial 0x04C11DB7), processed least significant bit first,
 * with the register preset to all ones and the result complemented.
 * The frame code only relies on it being a 32-bit value determined by the
 * bytes it covers.
 */
module Crc {
  import opened Bytes

  /** The generator 0x04C11DB7 with its bits reversed, as a reflected CRC uses it. */
  const POLY_REFLECTED: bv32 := 0xEDB8_8320

  /** Shifts one bit out of the register, folding in the polynomial when it is a 1. */
  function ShiftBit(reg: bv32): bv32
  {
    if reg & 1 == 1 then (reg >> 1) ^ POLY_REFLECTED else reg >> 1
  }

  /**
   * Feeds the bytes of `data`, first to last and each least significant bit
   * first, into the register; `bit` bits of `data[0]` have already been
   * shifted out. A byte is folded into the register before its first bit.
   */
  function Feed(reg: bv32, data: seq<byte>, bit: nat): bv32
    requires bit <= 8
    decreases |data|, 8 - bit
  {
    if |data| == 0 then reg
    else if bit == 8 then Feed(reg, data[1..], 0)
    else if bit == 0 then Feed(ShiftBit(reg ^ (data[0] as bv32)), data, 1)
    else Feed(ShiftBit(reg), data, bit + 1)
  }

  /** `zlib.crc32(data)` with its default start value: an unsigned 32-bit value. */
  function Crc32(data: seq<byte>): (c: nat)
    ensures c < TWO_POW_32
  {
    (Feed(0xFFFF_FFFF, data, 0) ^ 0xFFFF_FFFF) as nat
  }
}

=== FILE: file_source.dfy ===
/**
 * The input file as the clients see it: a byte sequence read front to back
 * by repeated `f.read(PAYLOAD_SIZE)` calls, an empty read meaning end of file.
 */
module FileSource {
  import opened Bytes

  /** `f.read(size)` when the file offset is `pos`. */
  function Read(data: seq<byte>, pos: nat, size: nat): (chunk: seq<byte>)
    requires pos <= |data|
    ensures |chunk| <= size && pos + |chunk| <= |data|
    ensures chunk == data[pos..pos + |chunk|]
    // a read is empty only at end of file
    ensures (chunk == []) == (pos == |data| || size == 0)
    // a short read happens only at end of file
    ensures |chunk| < size ==> pos + |chunk| == |data|
  {
    data[pos..if pos + size <= |data| then pos + size else |data|]
  }

  /** The bytes of a list of chunks, in order. */
  function Flatten(cs: seq<seq<byte>>): seq<byte>
  {
    if |cs| == 0 then [] else Flatten(cs[..|cs| - 1]) + cs[|cs| - 1]
  }

  lemma {:induction false} FlattenCons(c: seq<byte>, cs: seq<seq<byte>>)
    ensures Flatten([c] + cs) == c + Flatten(cs)
  {
    if |cs| != 0 {
      var last := |cs| - 1;
      assert ([c] + cs)[..|cs|] == [c] + cs[..last];
      FlattenCons(c, cs[..last]);
    }
  }

  /** Appending one more chunk appends its bytes. */
  lemma FlattenPrefix(cs: seq<seq<byte>>, n: nat)
    requires n < |cs|
    ensures Flatten(cs[..n + 1]) == Flatten(cs[..n]) + cs[n]
  {
    assert cs[..n + 1][..n] == cs[..n];
  }

  /** The successive non-empty reads of a file of `data`, `size` bytes at a time. */
  function Chunks(data: seq<byte>, size: nat): (cs: seq<seq<byte>>)
    requires size > 0
    decreases |data|
  {
    if |data| == 0 then []
    else
      var c := Read(data, 0, size);
      [c] + Chunks(data[|c|..], size)
  }

  /** Every chunk is non-empty and at most `size` long, and together they are the file. */
  lemma {:induction false} ChunksJoin(data: seq<byte>, size: nat)
    requires size > 0
    ensures forall i :: 0 <= i < |Chunks(data, size)| ==> 0 < |Chunks(data, size)[i]| <= size
    ensures Flatten(Chunks(data, size)) == data
    decreases |data|
  {
    if |data| != 0 {
      var c := Read(data, 0, size);
      var rest := Chunks(data[|c|..], size);
      ChunksJoin(data[|c|..], size);
      FlattenCons(c, rest);
      assert c + data[|c|..] == data;
    }
  }

  /** The chunks from `pos` on are the chunk read at `pos`, then the chunks after it. */
  lemma ChunksFrom(data: seq<byte>, pos: nat, size: nat)
    requires size > 0 && pos <= |data| && Read(data, pos, size) != []
    ensures Chunks(data[pos..], size) == [Read(data, pos, size)] + Chunks(data[pos + |Read(data, pos, size)|..], size)
  {
    var chunk := Read(data, pos, size);
    assert Read(data[pos..], 0, size) == chunk;
    assert data[pos..][|chunk|..] == data[pos + |chunk|..];
  }

  /** A file of n bytes is read in ceil(n / size) chunks. */
  lemma {:induction false} ChunkCount(data: seq<byte>, size: nat)
    requires size > 0
    ensures |Chunks(data, size)| == (|data| + size - 1) / size
    decreases |data|
  {
    if |data| == 0 {
      DivBelow(size - 1, size);
    } else {
      var c := Read(data, 0, size);
      ChunkCount(data[|c|..], size);
      if |data| > size {
        DivShift(|data| - size + size - 1, size);
      } else {
        DivBelow(|data| - 1, size);
        DivShift(|data| - 1, size);
      }
    }
  }

  lemma DivBelow(a: nat, s: nat)
    requires a < s
    ensures a / s == 0
  {
  }

  lemma DivShift(a: nat, s: nat)
    requires s > 0
    ensures (a + s) / s == a / s + 1
  {
    var q, r := a / s, a % s;
    assert a + s == (q + 1) * s + r by {
      assert a == q * s + r;
      assert (q + 1) * s == q * s + s;
    }
    DivUnique(a + s, s, q + 1, r);
  }

  /** Division is determined by any quotient-remainder pair. */
  lemma DivUnique(n: nat, s: nat, q: int, r: int)
    requires s > 0 && 0 <= r < s && n == q * s + r
    ensures n / s == q
  {
    var d := n / s - q;
    assert d * s == r - n % s by {
      assert n == (n / s) * s + n % s;
      assert d * s == (n / s) * s - q * s;
    }
  }
}

=== FILE: frame_codec.dfy ===
/**
 * The wire format shared by the three ARQ variants: a 15-byte header
 * (6-byte source address, 6-byte destination address, 16-bit frame length,
 * 8-bit sequence number), the payload, and a big-endian CRC-32 of
 * header and payload; the 4-byte acknowledgement `ACK` + sequence byte; and
 * the `END` marker that closes a session.
 */
module FrameCodec {
  import opened Wrappers
  import opened Bytes
  import opened Crc

  const HEADER_SIZE: nat := 15
  const CRC_SIZE: nat := 4
  /** Anything shorter cannot hold a header and a checksum. */
  const MIN_FRAME_SIZE: nat := HEADER_SIZE + CRC_SIZE
  /** The largest payload whose frame length still fits the 16-bit length field. */
  const MAX_PAYLOAD: nat := 0xFFFF - MIN_FRAME_SIZE

  const SRC_ADDR: seq<byte> := [0x12, 0x34, 0x56, 0x78, 0x9A, 0xBC]
  const DEST_ADDR: seq<byte> := [0xDE, 0xF0, 0x12, 0x34, 0x56, 0x78]

  /** The ASCII bytes `ACK` and `END`. */
  const ACK_TAG: seq<byte> := [0x41, 0x43, 0x4B]
  const END_MARKER: seq<byte> := [0x45, 0x4E, 0x44]
  const ACK_SIZE: nat := 4

  /** Both addresses, the 16-bit frame length in network byte order, and the sequence byte. */
  function Header(length: nat, seqByte: byte): (h: seq<byte>)
    requires length < TWO_POW_16
    ensures |h| == HEADER_SIZE
  {
    SRC_ADDR + DEST_ADDR + EncodeU16(length) + [seqByte]
  }

  /**
   * `create_frame(seq_num, payload)`, identical in the three client scripts.
   * Payloads longer than MAX_PAYLOAD make `struct.pack` raise; no caller
   * produces one (their reads are at most 100 bytes).
   */
  function CreateFrame(seqNum: nat, payload: seq<byte>): (frame: seq<byte>)
    requires |payload| <= MAX_PAYLOAD
    ensures |frame| == HEADER_SIZE + |payload| + CRC_SIZE
  {
    var header := Header(HEADER_SIZE + |payload| + CRC_SIZE, seqNum % 256);
    var body := header + payload;
    body + EncodeU32(Crc32(body))
  }

  /** The layout of a frame built by CreateFrame, field by field. */
  lemma CreateFrameLayout(seqNum: nat, payload: seq<byte>)
    requires |payload| <= MAX_PAYLOAD
    ensures var frame := CreateFrame(seqNum, payload);
      && frame[..6] == SRC_ADDR && frame[6..12] == DEST_ADDR
      // the length field counts the whole frame, checksum included
      && DecodeU16(frame[12..14]) == |frame|
      // the sequence byte is the counter reduced modulo 256
      && frame[14] == seqNum % 256
      && frame[HEADER_SIZE..|frame| - CRC_SIZE] == payload
      // the trailer is the checksum of everything before it, and of nothing else
      && DecodeU32(frame[|frame| - CRC_SIZE..]) == Crc32(frame[..|frame| - CRC_SIZE])
  {
    var body := Header(HEADER_SIZE + |payload| + CRC_SIZE, seqNum % 256) + payload;
    assert (body + EncodeU32(Crc32(body)))[..|body|] == body;
  }

  datatype Frame = Frame(seqNum: byte, payload: seq<byte>)

  /** Why a receiver discards what it read. */
  datatype FrameError = Malformed | Corrupt

  /**
   * The de-framing and integrity check the three server scripts share: a
   * read shorter than header plus checksum is malformed; otherwise the
   * checksum is recomputed over the header and payload and compared with the
   * trailing four bytes. The length field and the addresses are not checked.
   */
  function ParseFrame(raw: seq<byte>): (r: Result<Frame, FrameError>)
    ensures r == Failure(Malformed) <==> |raw| < MIN_FRAME_SIZE
    ensures r == Failure(Corrupt) <==>
      |raw| >= MIN_FRAME_SIZE && DecodeU32(raw[|raw| - CRC_SIZE..]) != Crc32(raw[..|raw| - CRC_SIZE])
    ensures r.Success? ==> |r.value.payload| == |raw| - MIN_FRAME_SIZE
    // a frame that passes carries byte 14 as its number and everything between header and trailer as its payload
    ensures r.Success? ==> r.value.seqNum == raw[14] && r.value.payload == raw[HEADER_SIZE..|raw| - CRC_SIZE]
  {
    if |raw| < MIN_FRAME_SIZE then Failure(Malformed)
    else
      var header := raw[..HEADER_SIZE];
      var payload := raw[HEADER_SIZE..|raw| - CRC_SIZE];
      var receivedCrc := DecodeU32(raw[|raw| - CRC_SIZE..]);
      assert header + payload == raw[..|raw| - CRC_SIZE];
      if receivedCrc != Crc32(header + payload) then Failure(Corrupt)
      else Success(Frame(header[14], payload))
  }

  /** Reading a frame built by CreateFrame gives back the reduced counter and the payload. */
  lemma ParseCreateFrame(seqNum: nat, payload: seq<byte>)
    requires |payload| <= MAX_PAYLOAD
    ensures ParseFrame(CreateFrame(seqNum, payload)) == Success(Frame(seqNum % 256, payload))
  {
    var frame := CreateFrame(seqNum, payload);
    CreateFrameLayout(seqNum, payload);
    assert frame[..HEADER_SIZE][14] == frame[14];
  }

  /** The frames of `chunks`, sent once each, in order, with no loss. */
  function InOrder(chunks: seq<seq<byte>>): (link: seq<seq<byte>>)
    requires forall i :: 0 <= i < |chunks| ==> |chunks[i]| <= MAX_PAYLOAD
    ensures |link| == |chunks|
  {
    seq(|chunks|, i requires 0 <= i < |chunks| => CreateFrame(i, chunks[i]))
  }

  lemma InOrderPrefix(chunks: seq<seq<byte>>, n: nat)
    requires n < |chunks|
    requires forall i :: 0 <= i < |chunks| ==> |chunks[i]| <= MAX_PAYLOAD
    ensures InOrder(chunks)[..n] == InOrder(chunks[..n])
    ensures InOrder(chunks)[n] == CreateFrame(n, chunks[n])
  {
    var a, b := InOrder(chunks)[..n], InOrder(chunks[..n]);
    forall i | 0 <= i < n
      ensures a[i] == b[i]
    {
    }
  }

  /** The outcome of de-framing each read of `link`, in order. */
  function Parsed(link: seq<seq<byte>>): (outcomes: seq<Result<Frame, FrameError>>)
    ensures |outcomes| == |link|
  {
    seq(|link|, i requires 0 <= i < |link| => ParseFrame(link[i]))
  }

  lemma ParsedNext(link: seq<seq<byte>>, k: nat)
    requires k < |link|
    ensures Parsed(link[..k + 1]) == Parsed(link[..k]) + [ParseFrame(link[k])]
  {
    var a, b := Parsed(link[..k + 1]), Parsed(link[..k]) + [ParseFrame(link[k])];
    forall i | 0 <= i <= k
      ensures a[i] == b[i]
    {
      if i < k {
        assert a[i] == ParseFrame(link[i]) == Parsed(link[..k])[i];
      }
    }
  }

  /** What the frames of InOrder(chunks) read as: chunk i under the sequence byte i mod 256. */
  function InOrderReads(chunks: seq<seq<byte>>): (outcomes: seq<Result<Frame, FrameError>>)
    ensures |outcomes| == |chunks|
  {
    seq(|chunks|, i requires 0 <= i < |chunks| => Success(Frame(i % 256, chunks[i])))
  }

  lemma ParsedInOrder(chunks: seq<seq<byte>>)
    requires forall i :: 0 <= i < |chunks| ==> |chunks[i]| <= MAX_PAYLOAD
    ensures Parsed(InOrder(chunks)) == InOrderReads(chunks)
  {
    var a, b := Parsed(InOrder(chunks)), InOrderReads(chunks);
    forall i | 0 <= i < |chunks|
      ensures a[i] == b[i]
    {
      ParseCreateFrame(i, chunks[i]);
    }
  }

  lemma InOrderReadsPrefix(chunks: seq<seq<byte>>, n: nat)
    requires n < |chunks|
    ensures InOrderReads(chunks)[..n] == InOrderReads(chunks[..n])
    ensures InOrderReads(chunks)[n] == Success(Frame(n % 256, chunks[n]))
  {
    var a, b := InOrderReads(chunks)[..n], InOrderReads(chunks[..n]);
    forall i | 0 <= i < n
      ensures a[i] == b[i]
    {
    }
  }

  /** The receive loops stop on an empty read (peer closed) or on exactly `END`. */
  predicate IsTermination(raw: seq<byte>)
  {
    raw == [] || raw == END_MARKER
  }

  /** None of `inputs` is the termination signal. */
  predicate NoTerminationIn(inputs: seq<seq<byte>>)
  {
    forall i :: 0 <= i < |inputs| ==> !IsTermination(inputs[i])
  }

  lemma NoTerminationNext(link: seq<seq<byte>>, k: nat)
    requires k < |link| && NoTerminationIn(link[..k]) && !IsTermination(link[k])
    ensures NoTerminationIn(link[..k + 1])
  {
    var longer := link[..k + 1];
    forall i | 0 <= i < k + 1
      ensures !IsTermination(longer[i])
    {
      if i < k {
        assert longer[i] == link[..k][i];
      }
    }
  }

  /**
   * The link carries the file faithfully: every read that passes the
   * checksum and carries sequence number k holds the k-th chunk, whatever
   * the order, loss, duplication or corruption of the reads.
   */
  ghost predicate CarriesChunks(inputs: seq<seq<byte>>, chunks: seq<seq<byte>>)
  {
    forall i :: 0 <= i < |inputs| && ParseFrame(inputs[i]).Success? ==>
      ParseFrame(inputs[i]).value.seqNum < |chunks| &&
      ParseFrame(inputs[i]).value.payload == chunks[ParseFrame(inputs[i]).value.seqNum]
  }

  lemma CarriesChunksPrefix(inputs: seq<seq<byte>>, chunks: seq<seq<byte>>)
    requires |inputs| > 0 && CarriesChunks(inputs, chunks)
    ensures CarriesChunks(inputs[..|inputs| - 1], chunks)
  {
    var prefix := inputs[..|inputs| - 1];
    forall i | 0 <= i < |prefix| && ParseFrame(prefix[i]).Success?
      ensures ParseFrame(prefix[i]).value.seqNum < |chunks|
      ensures ParseFrame(prefix[i]).value.payload == chunks[ParseFrame(prefix[i]).value.seqNum]
    {
      assert prefix[i] == inputs[i];
    }
  }

  /** The same, for reads already de-framed. */
  predicate OutcomesCarry(outcomes: seq<Result<Frame, FrameError>>, chunks: seq<seq<byte>>)
  {
    forall i :: 0 <= i < |outcomes| && outcomes[i].Success? ==>
      outcomes[i].value.seqNum < |chunks| && outcomes[i].value.payload == chunks[outcomes[i].value.seqNum]
  }

  lemma ParsedCarries(link: seq<seq<byte>>, chunks: seq<seq<byte>>)
    requires CarriesChunks(link, chunks)
    ensures OutcomesCarry(Parsed(link), chunks)
  {
  }

  lemma OutcomesCarryPrefix(outcomes: seq<Result<Frame, FrameError>>, chunks: seq<seq<byte>>)
    requires |outcomes| > 0 && OutcomesCarry(outcomes, chunks)
    ensures OutcomesCarry(outcomes[..|outcomes| - 1], chunks)
  {
  }

  /** No frame is ever mistaken for the termination signal. */
  lemma FrameIsNotTermination(seqNum: nat, payload: seq<byte>)
    requires |payload| <= MAX_PAYLOAD
    ensures !IsTermination(CreateFrame(seqNum, payload))
  {
  }

  /**
   * What a client puts on the link, before encoding: the frame of a chunk
   * under its unreduced counter, or the `END` marker.
   */
  datatype Transmission = DataFrame(seqNum: nat, payload: seq<byte>) | EndSignal

  /** The bytes of a transmission, as `sendall` hands them to the socket. */
  function OnWire(t: Transmission): (bytes: seq<byte>)
    requires t.DataFrame? ==> |t.payload| <= MAX_PAYLOAD
  {
    match t
    case DataFrame(seqNum, payload) => CreateFrame(seqNum, payload)
    case EndSignal => END_MARKER
  }

  /**
   * Every receiver reads a data frame back as the reduced counter and the
   * payload, and only `END` as the termination signal.
   */
  lemma OnWireReadBack(t: Transmission)
    requires t.DataFrame? ==> |t.payload| <= MAX_PAYLOAD
    ensures IsTermination(OnWire(t)) <==> t.EndSignal?
    ensures t.DataFrame? ==> ParseFrame(OnWire(t)) == Success(Frame(t.seqNum % 256, t.payload))
  {
    if t.DataFrame? {
      ParseCreateFrame(t.seqNum, t.payload);
      FrameIsNotTermination(t.seqNum, t.payload);
    }
  }

  /**
   * The acknowledgement of frame `seqNum`: the tag `ACK` and the number as
   * one byte. A value of 256 or more makes the conversion to a byte raise; every caller passes a sequence
   * byte, or a value the receiver keeps below 256.
   */
  function CreateAck(seqNum: nat): (ack: seq<byte>)
    requires seqNum < 256
    ensures |ack| == ACK_SIZE
  {
    ACK_TAG + [seqNum]
  }

  /**
   * How the Go-Back-N and Selective Repeat clients read one 4-byte slot of
   * their ACK buffer: the slot counts when it starts with `ACK`, and its
   * fourth byte is the acknowledged sequence number.
   */
  function ParseAck(slot: seq<byte>): (r: Option<byte>)
    requires |slot| == ACK_SIZE
  {
    if slot[..3] == ACK_TAG then Some(slot[3]) else None
  }

  /** ParseAck and CreateAck are inverse to each other on 4-byte slots. */
  lemma AckRoundTrip(slot: seq<byte>, seqNum: nat)
    requires |slot| == ACK_SIZE && seqNum < 256
    ensures ParseAck(CreateAck(seqNum)) == Some(seqNum)
    ensures ParseAck(slot) == Some(seqNum) <==> slot == CreateAck(seqNum)
  {
    var ack := CreateAck(seqNum);
    assert ack[..3] == ACK_TAG;
    if ParseAck(slot) == Some(seqNum) {
      assert slot == slot[..3] + [slot[3]];
    }
  }

  /** ACK 0, ACK 1, ..., ACK n-1: what a receiver sends for `n` frames taken in order. */
  function AckRun(n: nat): (acks: seq<seq<byte>>)
    requires n <= 256
    ensures |acks| == n
  {
    seq(n, k requires 0 <= k < n => CreateAck(k))
  }

  lemma AckRunSnoc(n: nat)
    requires n < 256
    ensures AckRun(n + 1) == AckRun(n) + [CreateAck(n)]
  {
    var a, b := AckRun(n + 1), AckRun(n) + [CreateAck(n)];
    forall k | 0 <= k < n + 1
      ensures a[k] == b[k]
    {
      if k < n {
        assert a[k] == AckRun(n)[k];
      }
    }
  }
}

=== FILE: go_back_n_receiver.dfy ===
/**
 * The Go-Back-N receiver loop: only the frame carrying the expected
 * sequence number is written and acknowledged; `expected` is kept modulo
 * 256; any other valid frame is dropped and the last in-order frame is
 * re-acknowledged, except when `expected` is 0.
 */
module GoBackNReceiver {
  import opened Wrappers
  import opened Bytes
  import opened FrameCodec
  import opened FileSource

  /** Next expected sequence number, bytes written to the output file, ACKs sent. */
  datatype State = State(expected: nat, written: seq<byte>, acks: seq<seq<byte>>)

  const Initial: State := State(0, [], [])

  /** `(expected + 1) % 256`, for an `expected` that is already below 256. */
  function NextExpected(e: nat): (r: nat)
    requires e < 256
    ensures r < 256
  {
    if e == 255 then 0 else e + 1
  }

  /** One pass of the receive loop over a read that is not the termination signal. */
  function Step(st: State, raw: seq<byte>): (next: State)
    requires st.expected < 256
    // `expected` never leaves 0..255
    ensures next.expected < 256
    // a malformed or corrupt frame changes nothing and is not acknowledged
    ensures ParseFrame(raw).Failure? ==> next == st
    ensures st.written <= next.written && st.acks <= next.acks && |next.acks| <= |st.acks| + 1
    // the expected frame: written once, acknowledged with its number, `expected` advances modulo 256
    ensures ParseFrame(raw).Success? && ParseFrame(raw).value.seqNum == st.expected ==>
      next == State(NextExpected(st.expected), st.written + ParseFrame(raw).value.payload,
                    st.acks + [CreateAck(st.expected)])
    // an out-of-order frame is never written; it re-acknowledges expected - 1, or nothing at 0
    ensures ParseFrame(raw).Success? && ParseFrame(raw).value.seqNum != st.expected ==>
      if st.expected > 0 then next == State(st.expected, st.written, st.acks + [CreateAck(st.expected - 1)])
      else next == st
  {
    match ParseFrame(raw)
    case Failure(_) => st
    case Success(f) =>
      if f.seqNum == st.expected then
        State(NextExpected(st.expected), st.written + f.payload, st.acks + [CreateAck(st.expected)])
      else if st.expected > 0 then
        State(st.expected, st.written, st.acks + [CreateAck(st.expected - 1)])
      else st
  }

  /** The state after processing `inputs` in order, starting from a fresh session. */
  function Receive(inputs: seq<seq<byte>>): (st: State)
    ensures st.expected < 256
  {
    if |inputs| == 0 then Initial
    else Step(Receive(inputs[..|inputs| - 1]), inputs[|inputs| - 1])
  }

  /** Receiving one more read is one more Step. */
  lemma ReceiveNext(link: seq<seq<byte>>, k: nat)
    requires k < |link|
    ensures Receive(link[..k + 1]) == Step(Receive(link[..k]), link[k])
  {
    assert link[..k + 1][..k] == link[..k];
  }

  /**
   * One pass of the receive loop of `run_receiver`, for a read that is not
   * the termination signal.
   */
  method HandleRead(expected: nat, written: seq<byte>, acks: seq<seq<byte>>, frame: seq<byte>)
    returns (expected': nat, written': seq<byte>, acks': seq<seq<byte>>)
    requires expected < 256
    ensures State(expected', written', acks') == Step(State(expected, written, acks), frame)
  {
    expected', written', acks' := expected, written, acks;
    var parsed := ParseFrame(frame);
    if parsed.Success? {
      var receivedSeq := parsed.value.seqNum;
      if receivedSeq == expected {
        written' := written + parsed.value.payload;
        acks' := acks + [CreateAck(expected)];
        expected' := NextExpected(expected);
      } else if expected > 0 {
        acks' := acks + [CreateAck(expected - 1)];
      }
    }
  }

  /**
   * `run_receiver`: reads until the termination signal or until the link
   * has nothing more to deliver; `consumed` is the number of reads processed.
   */
  method RunReceiver(link: seq<seq<byte>>) returns (st: State, consumed: nat)
    ensures consumed <= |link|
    ensures NoTerminationIn(link[..consumed])
    ensures consumed < |link| ==> IsTermination(link[consumed])
    ensures st == Receive(link[..consumed])
  {
    var expected: nat := 0;
    var written: seq<byte> := [];
    var acks: seq<seq<byte>> := [];
    consumed := 0;
    while consumed < |link| && !IsTermination(link[consumed])
      invariant consumed <= |link|
      invariant NoTerminationIn(link[..consumed])
      invariant State(expected, written, acks) == Receive(link[..consumed])
    {
      expected, written, acks := HandleRead(expected, written, acks, link[consumed]);
      ReceiveNext(link, consumed);
      consumed := consumed + 1;
    }
    st := State(expected, written, acks);
  }

  /**
   * For a transfer of fewer than 256 frames, whatever the order, loss,
   * duplication or corruption on the link, the output file is exactly the
   * first `expected` chunks.
   */
  lemma {:induction false} WrittenIsPrefix(inputs: seq<seq<byte>>, chunks: seq<seq<byte>>)
    requires |chunks| < 256 && CarriesChunks(inputs, chunks)
    ensures Receive(inputs).expected <= |chunks|
    ensures Receive(inputs).written == Flatten(chunks[..Receive(inputs).expected])
  {
    if |inputs| != 0 {
      var prefix := inputs[..|inputs| - 1];
      CarriesChunksPrefix(inputs, chunks);
      WrittenIsPrefix(prefix, chunks);
      var st := Receive(prefix);
      var p := ParseFrame(inputs[|inputs| - 1]);
      if p.Success? && p.value.seqNum == st.expected {
        FlattenPrefix(chunks, st.expected);
      }
    }
  }

  /** Counting modulo 256 commutes with adding one. */
  lemma NextModulo(e: nat, n: nat)
    requires e == n % 256
    ensures NextExpected(e) == (n + 1) % 256
  {
  }

  /** ACK 0, ACK 1, ..., ACK 255, ACK 0, ... : n acknowledgements, numbered modulo 256. */
  function WrappingAckRun(n: nat): (acks: seq<seq<byte>>)
    ensures |acks| == n
  {
    seq(n, k requires 0 <= k < n => CreateAck(k % 256))
  }

  lemma WrappingAckRunSnoc(n: nat)
    ensures WrappingAckRun(n + 1) == WrappingAckRun(n) + [CreateAck(n % 256)]
  {
    var a, b := WrappingAckRun(n + 1), WrappingAckRun(n) + [CreateAck(n % 256)];
    forall k | 0 <= k < n + 1
      ensures a[k] == b[k]
    {
      if k < n {
        assert a[k] == CreateAck(k % 256) == WrappingAckRun(n)[k];
      }
    }
  }

  /**
   * With no loss, a transfer of any length is written out whole, in order,
   * and acknowledged frame by frame: the reduction modulo 256 on both sides
   * keeps sender and receiver numbering in step across the wrap.
   */
  lemma {:induction false} InOrderDelivery(chunks: seq<seq<byte>>)
    requires forall i :: 0 <= i < |chunks| ==> |chunks[i]| <= MAX_PAYLOAD
    ensures Receive(InOrder(chunks)) == State(|chunks| % 256, Flatten(chunks), WrappingAckRun(|chunks|))
  {
    if |chunks| != 0 {
      var n := |chunks| - 1;
      InOrderDelivery(chunks[..n]);
      InOrderNext(chunks);
    }
  }

  /** The frame numbered n is accepted when `expected` is n reduced modulo 256. */
  lemma AcceptInOrder(st: State, n: nat, chunk: seq<byte>)
    requires st.expected == n % 256 && |chunk| <= MAX_PAYLOAD
    ensures Step(st, CreateFrame(n, chunk)) ==
      State((n + 1) % 256, st.written + chunk, st.acks + [CreateAck(n % 256)])
  {
    ParseCreateFrame(n, chunk);
    NextModulo(st.expected, n);
  }

  /** The inductive step of InOrderDelivery: one more frame, in order. */
  lemma InOrderNext(chunks: seq<seq<byte>>)
    requires |chunks| > 0
    requires forall i :: 0 <= i < |chunks| ==> |chunks[i]| <= MAX_PAYLOAD
    requires Receive(InOrder(chunks[..|chunks| - 1])) ==
      State((|chunks| - 1) % 256, Flatten(chunks[..|chunks| - 1]), WrappingAckRun(|chunks| - 1))
    ensures Receive(InOrder(chunks)) == State(|chunks| % 256, Flatten(chunks), WrappingAckRun(|chunks|))
  {
    var n := |chunks| - 1;
    InOrderPrefix(chunks, n);
    AcceptInOrder(Receive(InOrder(chunks[..n])), n, chunks[n]);
    FlattenPrefix(chunks, n);
    assert chunks[..n + 1] == chunks;
    WrappingAckRunSnoc(n);
  }
}

=== FILE: go_back_n_sender.dfy ===
/**
 * The Go-Back-N sender loop. Each pass (1) retransmits the whole window,
 * by ascending sequence number, when the timer has run out, (2) takes in
 * what a non-blocking `recv` returns and processes at most one 4-byte
 * cumulative ACK from the buffer, and (3) frames and sends one new chunk
 * when the window of 4 has room. The loop ends once the file is read and
 * nothing is left unacknowledged; `END` follows.
 */
module GoBackNSender {
  import opened Wrappers
  import opened Bytes
  import opened FrameCodec
  import opened FileSource
  import opened KeyOrder
  import opened SlidingWindow

  /**
   * The variables of `run_sender`: window base, next number to use, the
   * unacknowledged frames by number, the timer start (none when stopped),
   * the ACK byte buffer, the file offset, whether the empty read was seen,
   * and everything put on the link so far.
   */
  datatype State = State(base: nat, nextSeq: nat, unacked: map<nat, Transmission>,
                         timerStart: Option<nat>, ackBuffer: seq<byte>, pos: nat,
                         fileDone: bool, sent: seq<Transmission>)

  const Initial: State := State(0, 0, map[], None, [], 0, false, [])

  // ---------------------------------------------------------------------
  // Phase 1: the timeout. `sorted(unacknowledged_frames.keys())`.
  // ---------------------------------------------------------------------

  /** What a timeout puts on the link: every unacknowledged frame, by ascending number. */
  ghost function Resend(m: map<nat, Transmission>): (frames: seq<Transmission>)
    ensures |frames| == |m|
  {
    AscendingSorted(m.Keys);
    Lookup(m, Ascending(m.Keys))
  }

  /** The retransmission loop of phase 1. */
  method Retransmit(unacked: map<nat, Transmission>) returns (frames: seq<Transmission>)
    ensures frames == Resend(unacked)
  {
    frames := [];
    var pending := unacked.Keys;
    ghost var done: seq<nat> := [];
    while pending != {}
      invariant pending <= unacked.Keys && AllStored(unacked, done)
      invariant done + Ascending(pending) == Ascending(unacked.Keys)
      invariant frames == Lookup(unacked, done)
      decreases pending
    {
      SmallestExists(pending);
      var k :| IsLeast(k, pending);
      WalkNext(unacked, done, pending, k);
      frames := frames + [unacked[k]];
      done := done + [k];
      pending := pending - {k};
    }
    assert done == done + Ascending(pending);
  }

  /** Phase 1: once more than TIMEOUT_MS has passed since the timer started, resend the window and restart the timer. */
  ghost function CheckTimeout(st: State, now: nat): (next: State)
  {
    if st.timerStart.Some? && now - st.timerStart.value > TIMEOUT_MS then
      st.(sent := st.sent + Resend(st.unacked), timerStart := Some(now))
    else st
  }

  method HandleTimeout(st: State, now: nat) returns (next: State)
    ensures next == CheckTimeout(st, now)
  {
    next := st;
    if st.timerStart.Some? && now - st.timerStart.value > TIMEOUT_MS {
      var frames := Retransmit(st.unacked);
      next := st.(sent := st.sent + frames, timerStart := Some(now));
    }
  }

  // ---------------------------------------------------------------------
  // Phase 2: one cumulative ACK.
  // ---------------------------------------------------------------------

  /** The buffer after one `recv`: what arrived is appended. */
  function Buffered(st: State, recv: Recv): (next: State)
    requires !recv.RecvError?
  {
    if recv.Data? then st.(ackBuffer := st.ackBuffer + recv.bytes) else st
  }

  /** The frames left once everything numbered up to `ack` is acknowledged. */
  function AfterAck(unacked: map<nat, Transmission>, ack: nat): (left: map<nat, Transmission>)
  {
    map k | k in unacked && k > ack :: unacked[k]
  }

  /** The deletion loop: every key up to the ACK number is removed, one at a time. */
  method RemoveAcked(unacked: map<nat, Transmission>, ack: nat) returns (left: map<nat, Transmission>)
    ensures left == AfterAck(unacked, ack)
  {
    var ackedKeys := set k | k in unacked && k <= ack;
    left := unacked;
    var pending := ackedKeys;
    while pending != {}
      invariant pending <= ackedKeys
      invariant left == map k | k in unacked && (k > ack || k in pending) :: unacked[k]
      decreases pending
    {
      var k :| k in pending;
      left := left - {k};
      pending := pending - {k};
    }
  }

  /**
   * `next` is `st` after the cumulative ACK `a`: an ACK at or above the base
   * retires every kept frame numbered up to `a` and no other, puts the base
   * just past `a`, and leaves the timer running, restarted at `now`, exactly
   * when frames remain; an ACK below the base changes neither the window nor
   * the timer.
   */
  ghost predicate AckedUpTo(st: State, next: State, a: nat, now: nat)
  {
    if a >= st.base then
      && next.base == a + 1
      && (forall k :: k in next.unacked <==> k in st.unacked && k > a)
      && (forall k :: k in next.unacked ==> next.unacked[k] == st.unacked[k])
      && (next.timerStart.Some? <==> next.unacked != map[])
      && (next.timerStart.Some? ==> next.timerStart.value == now)
    else
      next.base == st.base && next.unacked == st.unacked && next.timerStart == st.timerStart
  }

  /**
   * Phase 2: a full 4-byte slot is consumed; when it is an ACK whose number
   * is at least `base`, every frame up to it is forgotten, the window
   * slides past it, and the timer restarts, or stops if nothing is left.
   */
  function ProcessAck(st: State, now: nat): (next: State)
    ensures |st.ackBuffer| < ACK_SIZE ==> next == st
    ensures |st.ackBuffer| >= ACK_SIZE ==>
      && next.ackBuffer == st.ackBuffer[ACK_SIZE..]
      && next.nextSeq == st.nextSeq && next.pos == st.pos
      && next.fileDone == st.fileDone && next.sent == st.sent
    ensures |st.ackBuffer| >= ACK_SIZE && PendingAck(st.ackBuffer).Some? ==>
      AckedUpTo(st, next, PendingAck(st.ackBuffer).value, now)
    ensures |st.ackBuffer| >= ACK_SIZE && PendingAck(st.ackBuffer).None? ==>
      next == st.(ackBuffer := st.ackBuffer[ACK_SIZE..])
  {
    if |st.ackBuffer| < ACK_SIZE then st
    else
      var slid :=
        match PendingAck(st.ackBuffer)
        case Some(a) =>
          if a >= st.base then
            var left := AfterAck(st.unacked, a);
            st.(unacked := left, base := a + 1, timerStart := if left == map[] then None else Some(now))
          else st
        case None => st;
      slid.(ackBuffer := st.ackBuffer[ACK_SIZE..])
  }

  method HandleAck(st: State, now: nat) returns (next: State)
    ensures next == ProcessAck(st, now)
  {
    next := st;
    if |st.ackBuffer| >= ACK_SIZE {
      var ackData := st.ackBuffer[..ACK_SIZE];
      if ackData[..3] == ACK_TAG {
        var ackSeqNum := ackData[3];
        if ackSeqNum >= st.base {
          var left := RemoveAcked(st.unacked, ackSeqNum);
          next := next.(unacked := left, base := ackSeqNum + 1);
          if left != map[] {
            next := next.(timerStart := Some(now));
          } else {
            next := next.(timerStart := None);
          }
        }
      }
      next := next.(ackBuffer := st.ackBuffer[ACK_SIZE..]);
    }
  }

  // ---------------------------------------------------------------------
  // Phase 3: one new frame.
  // ---------------------------------------------------------------------

  /**
   * Phase 3: with room in the window and the file not yet exhausted, read
   * a chunk; an empty read marks the end of the file, otherwise the chunk is
   * framed under `nextSeq`, kept, sent unless lost, and starts the timer
   * when it is the first frame of the window.
   */
  function SendNew(st: State, data: seq<byte>, now: nat, lost: bool): (next: State)
    requires st.pos <= |data|
    ensures next.pos <= |data|
  {
    if st.nextSeq < st.base + WINDOW_SIZE && !st.fileDone then
      var payload := Read(data, st.pos, PAYLOAD_SIZE);
      if payload == [] then st.(fileDone := true)
      else
        var frame := DataFrame(st.nextSeq, payload);
        st.(unacked := st.unacked[st.nextSeq := frame],
            sent := if lost then st.sent else st.sent + [frame],
            timerStart := if st.base == st.nextSeq then Some(now) else st.timerStart,
            nextSeq := st.nextSeq + 1,
            pos := st.pos + |payload|)
    else st
  }

  // ---------------------------------------------------------------------
  // The loop.
  // ---------------------------------------------------------------------

  /** One pass of the loop whose `recv` did not fail. */
  ghost function Pass(st: State, data: seq<byte>, t: Tick): (next: State)
    requires st.pos <= |data| && !t.recv.RecvError?
    ensures next.pos <= |data|
  {
    SendNew(ProcessAck(Buffered(CheckTimeout(st, t.now), t.recv), t.now), data, t.now, t.lost)
  }

  datatype Outcome = Outcome(final: State, exit: Exit)

  /** `END` goes out after the loop, however it was left. */
  function Finish(st: State): (next: State)
  {
    st.(sent := st.sent + [EndSignal])
  }

  /** The loop `while not file_done or unacknowledged_frames`, pass by pass. */
  ghost function Loop(st: State, data: seq<byte>, ticks: seq<Tick>): (o: Outcome)
    requires st.pos <= |data|
    decreases |ticks|
  {
    if st.fileDone && st.unacked == map[] then Outcome(Finish(st), AllAcked)
    else if |ticks| == 0 then Outcome(st, OutOfTicks)
    else if ticks[0].recv.RecvError? then Outcome(Finish(CheckTimeout(st, ticks[0].now)), RecvFailed)
    else Loop(Pass(st, data, ticks[0]), data, ticks[1..])
  }

  /** One pass of the loop, from the pass at `ticks[i]` on. */
  lemma LoopNext(st: State, data: seq<byte>, ticks: seq<Tick>, i: nat)
    requires st.pos <= |data| && i < |ticks| && !(st.fileDone && st.unacked == map[])
    ensures Loop(st, data, ticks[i..]) ==
      if ticks[i].recv.RecvError? then Outcome(Finish(CheckTimeout(st, ticks[i].now)), RecvFailed)
      else Loop(Pass(st, data, ticks[i]), data, ticks[i + 1..])
  {
    assert ticks[i..][0] == ticks[i];
    assert ticks[i..][1..] == ticks[i + 1..];
  }

  /** The body of the loop for a pass whose `recv` did not fail. */
  method HandlePass(st: State, data: seq<byte>, t: Tick) returns (next: State)
    requires st.pos <= |data| && !t.recv.RecvError?
    ensures next == Pass(st, data, t)
  {
    next := HandleTimeout(st, t.now);
    if t.recv.Data? {
      next := next.(ackBuffer := next.ackBuffer + t.recv.bytes);
    }
    next := HandleAck(next, t.now);
    next := SendNew(next, data, t.now, t.lost);
  }

  /** `run_sender`, driven by `ticks`. */
  method RunSender(data: seq<byte>, ticks: seq<Tick>) returns (st: State, exit: Exit)
    ensures Outcome(st, exit) == Loop(Initial, data, ticks)
  {
    st := Initial;
    var i := 0;
    while true
      invariant i <= |ticks| && st.pos <= |data|
      invariant Loop(st, data, ticks[i..]) == Loop(Initial, data, ticks)
      decreases |ticks| - i
    {
      if st.fileDone && st.unacked == map[] {
        st, exit := Finish(st), AllAcked;
        return;
      }
      if i == |ticks| {
        exit := OutOfTicks;
        return;
      }
      var t := ticks[i];
      LoopNext(st, data, ticks, i);
      if t.recv.RecvError? {
        // the timeout check comes first; the receive error then breaks the loop
        st := HandleTimeout(st, t.now);
        st, exit := Finish(st), RecvFailed;
        return;
      }
      st := HandlePass(st, data, t);
      i := i + 1;
    }
  }

  // ---------------------------------------------------------------------
  // What every pass keeps, whatever the link delivers.
  // ---------------------------------------------------------------------

  /** The kept numbers run without a gap up to `nextSeq`. */
  ghost predicate Contiguous(st: State)
  {
    forall k, j :: k in st.unacked && k <= j < st.nextSeq ==> j in st.unacked
  }

  ghost predicate Inv(st: State, data: seq<byte>)
  {
    && ReadUpTo(data, st.pos, st.nextSeq, st.fileDone)
    && FramesKept(st.unacked, st.nextSeq, data)
    && SentCorrectly(st.sent, data)
    && Contiguous(st)
    && st.nextSeq <= st.base + WINDOW_SIZE
    && st.base <= 256
  }

  lemma InitialInv(data: seq<byte>)
    ensures Inv(Initial, data)
  {
    assert data[0..] == data;
  }

  /** A timeout resends only kept frames, so it sends nothing wrong. */
  lemma CheckTimeoutKeepsInv(st: State, data: seq<byte>, now: nat)
    requires Inv(st, data)
    ensures Inv(CheckTimeout(st, now), data)
  {
    var frames := Resend(st.unacked);
    AscendingSorted(st.unacked.Keys);
    assert SentCorrectly(frames, data) by {
      forall i | 0 <= i < |frames|
        ensures frames[i] in st.unacked.Values
      {
        assert Ascending(st.unacked.Keys)[i] in st.unacked.Keys;
      }
    }
    SentCorrectlyAppend(st.sent, frames, data);
  }

  /** Phase 2 only forgets frames and moves the base forward, and never past 256. */
  lemma ProcessAckKeepsInv(st: State, data: seq<byte>, now: nat)
    requires Inv(st, data)
    ensures Inv(ProcessAck(st, now), data)
    ensures st.base <= ProcessAck(st, now).base
  {
  }

  /** Phase 3 reads on from where the numbered chunks end. */
  lemma SendNewReadsOn(st: State, data: seq<byte>, now: nat, lost: bool)
    requires ReadUpTo(data, st.pos, st.nextSeq, st.fileDone)
    ensures var next := SendNew(st, data, now, lost);
      ReadUpTo(data, next.pos, next.nextSeq, next.fileDone)
  {
    if st.nextSeq < st.base + WINDOW_SIZE && !st.fileDone && Read(data, st.pos, PAYLOAD_SIZE) != [] {
      NextChunk(data, st.pos, st.nextSeq);
    }
  }

  /** Phase 3 keeps the new frame under its own number, with its own chunk. */
  lemma SendNewKeepsFrames(st: State, data: seq<byte>, now: nat, lost: bool)
    requires ReadUpTo(data, st.pos, st.nextSeq, st.fileDone) && FramesKept(st.unacked, st.nextSeq, data)
    ensures var next := SendNew(st, data, now, lost);
      FramesKept(next.unacked, next.nextSeq, data)
  {
    if st.nextSeq < st.base + WINDOW_SIZE && !st.fileDone && Read(data, st.pos, PAYLOAD_SIZE) != [] {
      NextChunk(data, st.pos, st.nextSeq);
    }
  }

  /** Phase 3 puts on the link only the chunk numbered `nextSeq`, under that number. */
  lemma SendNewSendsRight(st: State, data: seq<byte>, now: nat, lost: bool)
    requires ReadUpTo(data, st.pos, st.nextSeq, st.fileDone) && SentCorrectly(st.sent, data)
    ensures SentCorrectly(SendNew(st, data, now, lost).sent, data)
  {
    if st.nextSeq < st.base + WINDOW_SIZE && !st.fileDone {
      var payload := Read(data, st.pos, PAYLOAD_SIZE);
      if payload != [] {
        NextChunk(data, st.pos, st.nextSeq);
        var frame := DataFrame(st.nextSeq, payload);
        assert SentCorrectly([frame], data);
        SentCorrectlyAppend(st.sent, [frame], data);
      }
    }
  }

  /** Phase 3 frames the next chunk under the next number. */
  lemma SendNewKeepsInv(st: State, data: seq<byte>, now: nat, lost: bool)
    requires Inv(st, data)
    ensures Inv(SendNew(st, data, now, lost), data)
  {
    SendNewReadsOn(st, data, now, lost);
    SendNewKeepsFrames(st, data, now, lost);
    SendNewSendsRight(st, data, now, lost);
  }

  lemma PassKeepsInv(st: State, data: seq<byte>, t: Tick)
    requires Inv(st, data) && !t.recv.RecvError?
    ensures Inv(Pass(st, data, t), data)
  {
    var a := CheckTimeout(st, t.now);
    CheckTimeoutKeepsInv(st, data, t.now);
    var b := ProcessAck(Buffered(a, t.recv), t.now);
    ProcessAckKeepsInv(Buffered(a, t.recv), data, t.now);
    SendNewKeepsInv(b, data, t.now, t.lost);
  }

  /** `END` adds nothing wrong either. */
  lemma FinishKeepsInv(st: State, data: seq<byte>)
    requires Inv(st, data)
    ensures Inv(Finish(st), data)
  {
    assert SentCorrectly([EndSignal], data);
    SentCorrectlyAppend(st.sent, [EndSignal], data);
  }

  /**
   * Whatever the link delivers, the run keeps the invariant to its end,
   * and it ends with everything acknowledged only once the file is read.
   */
  lemma {:induction false} LoopKeepsInv(st: State, data: seq<byte>, ticks: seq<Tick>)
    requires Inv(st, data)
    ensures Inv(Loop(st, data, ticks).final, data)
    ensures Loop(st, data, ticks).exit == AllAcked ==>
      Loop(st, data, ticks).final.fileDone && Loop(st, data, ticks).final.unacked == map[]
    decreases |ticks|
  {
    if st.fileDone && st.unacked == map[] {
      FinishKeepsInv(st, data);
    } else if |ticks| != 0 {
      if ticks[0].recv.RecvError? {
        CheckTimeoutKeepsInv(st, data, ticks[0].now);
        FinishKeepsInv(CheckTimeout(st, ticks[0].now), data);
      } else {
        PassKeepsInv(st, data, ticks[0]);
        LoopKeepsInv(Pass(st, data, ticks[0]), data, ticks[1..]);
      }
    }
  }

  /**
   * `base` is one past an ACK byte, so it never exceeds 256, and `nextSeq`
   * never runs more than a window ahead of it: a file of more than 260
   * chunks is never acknowledged to the end, whatever the link does.
   */
  lemma LongFileNeverAllAcked(data: seq<byte>, ticks: seq<Tick>)
    requires |Chunks(data, PAYLOAD_SIZE)| > 256 + WINDOW_SIZE
    ensures Loop(Initial, data, ticks).exit != AllAcked
  {
    InitialInv(data);
    LoopKeepsInv(Initial, data, ticks);
  }

  // ---------------------------------------------------------------------
  // The window, when ACKs name frames already sent.
  // ---------------------------------------------------------------------

  /**
   * The kept frames are exactly base .. nextSeq - 1, and the timer runs
   * exactly while one of them is outstanding.
   */
  ghost predicate Window(st: State)
  {
    && st.base <= st.nextSeq
    && (forall k :: k in st.unacked <==> st.base <= k < st.nextSeq)
    && (st.timerStart.Some? <==> st.base < st.nextSeq)
  }

  /** The ACK phase 2 is about to read, if any, names a frame already numbered. */
  ghost predicate AckInWindow(st: State, recv: Recv)
    requires !recv.RecvError?
  {
    var pending := PendingAck(Buffered(st, recv).ackBuffer);
    pending.Some? ==> pending.value < st.nextSeq
  }

  lemma InitialWindow()
    ensures Window(Initial)
  {
  }

  /** A timeout leaves the window and the running timer as they were. */
  lemma CheckTimeoutKeepsWindow(st: State, now: nat)
    requires Window(st)
    ensures Window(CheckTimeout(st, now))
    ensures CheckTimeout(st, now).unacked == st.unacked
  {
  }

  /** Phase 2 with an ACK for a frame already numbered keeps the window exact. */
  lemma ProcessAckKeepsWindow(st: State, now: nat)
    requires Window(st)
    requires PendingAck(st.ackBuffer).Some? ==> PendingAck(st.ackBuffer).value < st.nextSeq
    ensures Window(ProcessAck(st, now))
  {
    if |st.ackBuffer| >= ACK_SIZE && PendingAck(st.ackBuffer).Some? {
      var ack := PendingAck(st.ackBuffer).value;
      if ack >= st.base {
        var left := AfterAck(st.unacked, ack);
        assert forall k :: k in left <==> ack < k < st.nextSeq;
        if ack + 1 < st.nextSeq {
          assert ack + 1 in left;
        }
      }
    }
  }

  /** Phase 3 extends the window at the top and starts the timer for a first frame. */
  lemma SendNewKeepsWindow(st: State, data: seq<byte>, now: nat, lost: bool)
    requires st.pos <= |data| && Window(st)
    ensures Window(SendNew(st, data, now, lost))
  {
  }

  /**
   * When every ACK names a frame already sent, a pass keeps the window
   * exact: cumulative ACKs slide the base, new frames extend the top, and
   * the timer is running exactly while something is outstanding.
   */
  lemma PassKeepsWindow(st: State, data: seq<byte>, t: Tick)
    requires st.pos <= |data| && Window(st) && !t.recv.RecvError? && AckInWindow(st, t.recv)
    ensures Window(Pass(st, data, t))
  {
    var a := Buffered(CheckTimeout(st, t.now), t.recv);
    assert a.ackBuffer == Buffered(st, t.recv).ackBuffer;
    ProcessAckKeepsWindow(a, t.now);
    SendNewKeepsWindow(ProcessAck(a, t.now), data, t.now, t.lost);
  }

  /**
   * On a timeout with an exact window, the frames resent are the chunks
   * base .. nextSeq - 1, each under its own number, lowest first.
   */
  lemma TimeoutResendsWindow(st: State, data: seq<byte>)
    requires Inv(st, data) && Window(st)
    ensures Resend(st.unacked) ==
      seq(st.nextSeq - st.base, i requires 0 <= i < st.nextSeq - st.base =>
        DataFrame(st.base + i, Chunks(data, PAYLOAD_SIZE)[st.base + i]))
  {
    AscendingRange(st.unacked.Keys, st.base, st.nextSeq);
  }

  /**
   * With an exact window, everything is acknowledged only when the base has
   * reached the number of chunks, and the base never passes 256: a file of
   * more than 256 chunks never completes.
   */
  lemma AllAckedAtMost256(st: State, data: seq<byte>)
    requires Inv(st, data) && Window(st) && st.fileDone && st.unacked == map[]
    ensures st.base == st.nextSeq == |Chunks(data, PAYLOAD_SIZE)| <= 256
  {
    assert st.base < st.nextSeq ==> st.base in st.unacked;
  }

  /**
   * Once the base is past 255 no ACK byte can reach it: the window never
   * slides again and the kept frames stay kept.
   */
  lemma NoSlidePast255(st: State, now: nat)
    requires st.base >= 256
    ensures ProcessAck(st, now).base == st.base
    ensures ProcessAck(st, now).unacked == st.unacked
    ensures ProcessAck(st, now).timerStart == st.timerStart
  {
  }
}

=== FILE: key_order.dfy ===
/**
 * Ascending key order over a dictionary with natural-number keys:
 * `sorted(d.keys())`, and the iteration order of a dictionary whose keys
 * were inserted in increasing order.
 */
module KeyOrder {
  /** `k` is the least number of `s`. */
  predicate IsLeast(k: nat, s: set<nat>)
  {
    k in s && forall j :: j in s ==> k <= j
  }

  /** A non-empty set of numbers has a least element. */
  lemma {:induction false} SmallestExists(s: set<nat>)
    requires s != {}
    ensures exists k :: IsLeast(k, s)
    decreases s
  {
    var x :| x in s;
    if s == {x} {
      assert IsLeast(x, s);
    } else {
      var rest := s - {x};
      SmallestExists(rest);
      var m :| IsLeast(m, rest);
      var least := if x < m then x else m;
      forall j | j in s
        ensures least <= j
      {
        if j != x {
          assert j in rest;
        }
      }
      assert IsLeast(least, s);
    }
  }

  /** The least element of a non-empty set of numbers. */
  ghost function Smallest(s: set<nat>): (k: nat)
    requires s != {}
    ensures k in s && forall j :: j in s ==> k <= j
  {
    SmallestExists(s);
    var k :| IsLeast(k, s);
    k
  }

  /** The numbers of `keys`, least first. */
  ghost function Ascending(keys: set<nat>): (ks: seq<nat>)
    decreases keys
  {
    if keys == {} then []
    else
      var k := Smallest(keys);
      [k] + Ascending(keys - {k})
  }

  /** Ascending lists every number of `keys` exactly once, in strictly increasing order. */
  lemma {:induction false} AscendingSorted(keys: set<nat>)
    ensures |Ascending(keys)| == |keys|
    ensures forall k :: k in keys <==> k in Ascending(keys)
    ensures forall i, j :: 0 <= i < j < |Ascending(keys)| ==> Ascending(keys)[i] < Ascending(keys)[j]
    decreases keys
  {
    if keys != {} {
      var k := Smallest(keys);
      var rest := keys - {k};
      AscendingSorted(rest);
      var ks := Ascending(keys);
      assert ks == [k] + Ascending(rest);
      forall i, j | 0 <= i < j < |ks|
        ensures ks[i] < ks[j]
      {
        assert ks[j] == Ascending(rest)[j - 1];
        if i > 0 {
          assert ks[i] == Ascending(rest)[i - 1];
        } else {
          assert ks[j] in rest;
        }
      }
    }
  }

  /** Whichever least element is taken first, Ascending starts with it. */
  lemma AscendingUnfold(keys: set<nat>, k: nat)
    requires IsLeast(k, keys)
    ensures Ascending(keys) == [k] + Ascending(keys - {k})
  {
    assert Smallest(keys) == k;
  }

  /** The values stored under `ks`, in that order. */
  ghost function Lookup<V>(m: map<nat, V>, ks: seq<nat>): (frames: seq<V>)
    requires forall i :: 0 <= i < |ks| ==> ks[i] in m
    ensures |frames| == |ks| && forall i :: 0 <= i < |ks| ==> frames[i] == m[ks[i]]
  {
    seq(|ks|, i requires 0 <= i < |ks| => m[ks[i]])
  }

  lemma LookupSnoc<V>(m: map<nat, V>, ks: seq<nat>, k: nat)
    requires (forall i :: 0 <= i < |ks| ==> ks[i] in m) && k in m
    ensures Lookup(m, ks + [k]) == Lookup(m, ks) + [m[k]]
  {
    assert forall i :: 0 <= i < |ks| ==> (ks + [k])[i] == ks[i];
  }

  /** Every number of `ks` is a key of `m`. */
  ghost predicate AllStored<V>(m: map<nat, V>, ks: seq<nat>)
  {
    forall i :: 0 <= i < |ks| ==> ks[i] in m
  }

  /** A walk over keys in ascending order, one least pending key further. */
  lemma WalkNext<V>(m: map<nat, V>, done: seq<nat>, pending: set<nat>, k: nat)
    requires pending <= m.Keys && AllStored(m, done)
    requires IsLeast(k, pending)
    ensures AllStored(m, done + [k])
    ensures done + Ascending(pending) == (done + [k]) + Ascending(pending - {k})
    ensures Lookup(m, done + [k]) == Lookup(m, done) + [m[k]]
  {
    AscendingUnfold(pending, k);
    LookupSnoc(m, done, k);
  }

  /** A strictly increasing listing of exactly lo .. hi - 1 has lo + a at position a. */
  lemma {:induction false} RangeEntry(ks: seq<nat>, lo: nat, hi: nat, a: nat)
    requires forall i, j :: 0 <= i < j < |ks| ==> ks[i] < ks[j]
    requires forall k :: k in ks <==> lo <= k < hi
    requires a < |ks|
    ensures ks[a] == lo + a
    decreases a
  {
    assert ks[a] in ks;
    if a == 0 {
      assert lo in ks;
      var j :| 0 <= j < |ks| && ks[j] == lo;
      assert ks[0] <= ks[j];
    } else {
      RangeEntry(ks, lo, hi, a - 1);
      assert ks[a - 1] < ks[a];
      assert lo + a in ks;
      var j :| 0 <= j < |ks| && ks[j] == lo + a;
      assert ks[a - 1] < ks[j];
      assert a - 1 < j;
      assert ks[a] <= ks[j];
    }
  }

  /** The numbers lo .. hi - 1, ascending, are just lo, lo + 1, ..., hi - 1. */
  lemma AscendingRange(keys: set<nat>, lo: nat, hi: nat)
    requires lo <= hi && forall k :: k in keys <==> lo <= k < hi
    ensures |Ascending(keys)| == hi - lo
    ensures forall i :: 0 <= i < hi - lo ==> Ascending(keys)[i] == lo + i
  {
    var ks := Ascending(keys);
    AscendingSorted(keys);
    if |ks| > 0 {
      // the last entry is below hi
      RangeEntry(ks, lo, hi, |ks| - 1);
      assert ks[|ks| - 1] in ks;
    }
    if hi > lo {
      // hi - 1 is listed, at position hi - 1 - lo
      assert hi - 1 in ks;
      var j :| 0 <= j < |ks| && ks[j] == hi - 1;
      RangeEntry(ks, lo, hi, j);
    }
    forall i | 0 <= i < hi - lo
      ensures ks[i] == lo + i
    {
      RangeEntry(ks, lo, hi, i);
    }
  }
}

=== FILE: selective_repeat_receiver.dfy ===
/**
 * The Selective Repeat receiver loop: a valid frame inside the receive
 * window [expected, expected + 4) is acknowledged with its own number; the
 * expected one is written and releases the contiguous run of buffered
 * frames behind it, any other is buffered once; a frame below the window
 * is re-acknowledged; one above it is dropped. `expected` counts without
 * reduction modulo 256.
 */
module SelectiveRepeatReceiver {
  import opened Wrappers
  import opened Bytes
  import opened FrameCodec
  import opened FileSource

  const WINDOW_SIZE: nat := 4

  /**
   * Next expected sequence number, out-of-order payloads by sequence number,
   * bytes written to the output file, ACKs sent.
   */
  datatype State = State(expected: nat, buffer: map<nat, seq<byte>>, written: seq<byte>, acks: seq<seq<byte>>)

  const Initial: State := State(0, map[], [], [])

  /**
   * The delivery loop after an in-order frame: while the buffer holds the
   * next expected frame, write it, drop it from the buffer and move on.
   */
  function Drain(st: State): (r: State)
    decreases |st.buffer|
    ensures r.acks == st.acks
    ensures st.expected <= r.expected && st.written <= r.written
  {
    if st.expected in st.buffer then
      var rest := st.buffer - {st.expected};
      assert rest.Keys == st.buffer.Keys - {st.expected};
      Drain(State(st.expected + 1, rest, st.written + st.buffer[st.expected], st.acks))
    else st
  }

  /**
   * Draining stops at the first number missing from the buffer; every number
   * it passed was buffered and has left the buffer; the rest of the buffer is
   * untouched.
   */
  lemma {:induction false} DrainRemovesRun(st: State)
    ensures Drain(st).expected !in Drain(st).buffer
    ensures forall k :: st.expected <= k < Drain(st).expected ==> k in st.buffer
    ensures forall k :: k in Drain(st).buffer <==> k in st.buffer && !(st.expected <= k < Drain(st).expected)
    ensures forall k :: k in Drain(st).buffer ==> Drain(st).buffer[k] == st.buffer[k]
    decreases |st.buffer|
  {
    if st.expected in st.buffer {
      var rest := st.buffer - {st.expected};
      assert rest.Keys == st.buffer.Keys - {st.expected};
      var next := State(st.expected + 1, rest, st.written + st.buffer[st.expected], st.acks);
      DrainRemovesRun(next);
      assert forall k :: k in rest ==> k in st.buffer;
    }
  }

  /**
   * One pass of the receive loop over a read that is not the termination
   * signal, once it has been de-framed and checked by ParseFrame.
   */
  function Step(st: State, read: Result<Frame, FrameError>): (next: State)
    // a malformed or corrupt frame changes nothing and is not acknowledged
    ensures read.Failure? ==> next == st
    // the window only moves forward, and the file only grows
    ensures st.expected <= next.expected && st.written <= next.written
    // once `expected` is past 255 no sequence byte reaches the window again: nothing more is written
    ensures st.expected >= 256 ==> next.written == st.written && next.expected == st.expected
  {
    match read
    case Failure(_) => st
    case Success(f) =>
      if st.expected <= f.seqNum < st.expected + WINDOW_SIZE then
        var acks := st.acks + [CreateAck(f.seqNum)];
        if f.seqNum == st.expected then
          Drain(State(st.expected + 1, st.buffer, st.written + f.payload, acks))
        else if f.seqNum !in st.buffer then
          State(st.expected, st.buffer[f.seqNum := f.payload], st.written, acks)
        else State(st.expected, st.buffer, st.written, acks)
      else if f.seqNum < st.expected then
        State(st.expected, st.buffer, st.written, st.acks + [CreateAck(f.seqNum)])
      else st
  }

  /**
   * What one valid frame does, by where its number falls. Inside the window
   * it is acknowledged with its own number: the expected one is written and
   * the window moves past it and past every buffered frame behind it;
   * any other is buffered unless a copy already is, and a buffered payload
   * is never replaced. Below the window it is only re-acknowledged; above
   * it, it changes nothing.
   */
  lemma StepCases(st: State, f: Frame)
    ensures var next := Step(st, Success(f));
      && (st.expected <= f.seqNum < st.expected + WINDOW_SIZE ==>
            next.acks == st.acks + [CreateAck(f.seqNum)])
      && (f.seqNum == st.expected ==>
            && st.written + f.payload <= next.written
            && st.expected < next.expected
            && next.expected !in next.buffer
            && (forall k :: st.expected < k < next.expected ==> k in st.buffer)
            && (forall k :: k in next.buffer <==> k in st.buffer && !(st.expected < k < next.expected))
            && (forall k :: k in next.buffer ==> next.buffer[k] == st.buffer[k]))
      && (st.expected < f.seqNum < st.expected + WINDOW_SIZE ==>
            && next.expected == st.expected && next.written == st.written
            && next.buffer.Keys == st.buffer.Keys + {f.seqNum}
            && (forall k :: k in st.buffer ==> next.buffer[k] == st.buffer[k])
            && (f.seqNum !in st.buffer ==> next.buffer[f.seqNum] == f.payload))
      && (f.seqNum < st.expected ==> next == st.(acks := st.acks + [CreateAck(f.seqNum)]))
      && (f.seqNum >= st.expected + WINDOW_SIZE ==> next == st)
  {
    if f.seqNum == st.expected {
      DrainRemovesRun(State(st.expected + 1, st.buffer, st.written + f.payload, st.acks + [CreateAck(f.seqNum)]));
    }
  }

  /** The state after the de-framed reads `outcomes`, in order, starting from a fresh session. */
  function Receive(outcomes: seq<Result<Frame, FrameError>>): State
  {
    if |outcomes| == 0 then Initial
    else Step(Receive(outcomes[..|outcomes| - 1]), outcomes[|outcomes| - 1])
  }

  /** Receiving one more read is one more Step. */
  lemma ReceiveNext(outcomes: seq<Result<Frame, FrameError>>, read: Result<Frame, FrameError>)
    ensures Receive(outcomes + [read]) == Step(Receive(outcomes), read)
  {
    assert (outcomes + [read])[..|outcomes|] == outcomes;
  }

  /** Receiving one more read of the link is one more Step. */
  lemma ReceiveLinkNext(link: seq<seq<byte>>, k: nat)
    requires k < |link|
    ensures Receive(Parsed(link[..k + 1])) == Step(Receive(Parsed(link[..k])), ParseFrame(link[k]))
  {
    ParsedNext(link, k);
    ReceiveNext(Parsed(link[..k]), ParseFrame(link[k]));
  }

  /** The inner delivery loop: runs while the expected number is buffered. */
  method DeliverBuffered(st: State) returns (r: State)
    ensures r == Drain(st)
  {
    var expected, buffer, written := st.expected, st.buffer, st.written;
    while expected in buffer
      invariant Drain(State(expected, buffer, written, st.acks)) == Drain(st)
      decreases |buffer|
    {
      var bufferedPayload := buffer[expected];
      assert (buffer - {expected}).Keys == buffer.Keys - {expected};
      buffer := buffer - {expected};
      written := written + bufferedPayload;
      expected := expected + 1;
    }
    r := State(expected, buffer, written, st.acks);
  }

  /**
   * One pass of the receive loop of `run_receiver`, for a read that is not
   * the termination signal.
   */
  method HandleRead(st: State, frame: seq<byte>) returns (next: State)
    ensures next == Step(st, ParseFrame(frame))
  {
    next := st;
    var parsed := ParseFrame(frame);
    if parsed.Success? {
      var receivedSeq := parsed.value.seqNum;
      if st.expected <= receivedSeq < st.expected + WINDOW_SIZE {
        var acks := st.acks + [CreateAck(receivedSeq)];
        if receivedSeq == st.expected {
          next := DeliverBuffered(State(st.expected + 1, st.buffer, st.written + parsed.value.payload, acks));
        } else if receivedSeq !in st.buffer {
          next := State(st.expected, st.buffer[receivedSeq := parsed.value.payload], st.written, acks);
        } else {
          next := State(st.expected, st.buffer, st.written, acks);
        }
      } else if receivedSeq < st.expected {
        next := State(st.expected, st.buffer, st.written, st.acks + [CreateAck(receivedSeq)]);
      }
    }
  }

  /**
   * `run_receiver`: reads until the termination signal or until the link
   * has nothing more to deliver; `consumed` is the number of reads processed.
   */
  method RunReceiver(link: seq<seq<byte>>) returns (st: State, consumed: nat)
    ensures consumed <= |link|
    ensures NoTerminationIn(link[..consumed])
    ensures consumed < |link| ==> IsTermination(link[consumed])
    ensures st == Receive(Parsed(link[..consumed]))
  {
    st := Initial;
    consumed := 0;
    while consumed < |link| && !IsTermination(link[consumed])
      invariant consumed <= |link|
      invariant NoTerminationIn(link[..consumed])
      invariant st == Receive(Parsed(link[..consumed]))
    {
      st := HandleRead(st, link[consumed]);
      ReceiveLinkNext(link, consumed);
      NoTerminationNext(link, consumed);
      consumed := consumed + 1;
    }
  }

  /**
   * What the receiver holds when the link carries the file faithfully: the
   * output file is the first `expected` chunks, and every buffered payload is
   * the chunk of its number, strictly inside the window.
   */
  ghost predicate Faithful(st: State, chunks: seq<seq<byte>>)
  {
    && st.expected <= |chunks|
    && st.written == Flatten(chunks[..st.expected])
    && forall k :: k in st.buffer ==>
         st.expected < k < st.expected + WINDOW_SIZE && k < |chunks| && st.buffer[k] == chunks[k]
  }

  /** Draining the buffer writes exactly the chunks that follow, in order. */
  lemma {:induction false} DrainDeliversChunks(st: State, chunks: seq<seq<byte>>, hi: nat)
    requires st.expected <= |chunks| && st.written == Flatten(chunks[..st.expected])
    requires forall k :: k in st.buffer ==> st.expected <= k < hi && k < |chunks| && st.buffer[k] == chunks[k]
    ensures Drain(st).expected <= |chunks| && Drain(st).written == Flatten(chunks[..Drain(st).expected])
    ensures forall k :: k in Drain(st).buffer ==>
      Drain(st).expected < k < hi && k < |chunks| && Drain(st).buffer[k] == chunks[k]
    decreases |st.buffer|
  {
    if st.expected in st.buffer {
      var rest := st.buffer - {st.expected};
      assert rest.Keys == st.buffer.Keys - {st.expected};
      var next := State(st.expected + 1, rest, st.written + st.buffer[st.expected], st.acks);
      FlattenPrefix(chunks, st.expected);
      DrainDeliversChunks(next, chunks, hi);
    }
  }

  /**
   * Whatever the order, loss, duplication or corruption on the link, the
   * output file is always exactly the first `expected` chunks, and the
   * buffer holds only chunks the window still waits to write.
   */
  lemma WrittenIsPrefix(link: seq<seq<byte>>, chunks: seq<seq<byte>>)
    requires CarriesChunks(link, chunks)
    ensures Faithful(Receive(Parsed(link)), chunks)
  {
    ParsedCarries(link, chunks);
    OutcomesWrittenIsPrefix(Parsed(link), chunks);
  }

  lemma {:induction false} OutcomesWrittenIsPrefix(outcomes: seq<Result<Frame, FrameError>>, chunks: seq<seq<byte>>)
    requires OutcomesCarry(outcomes, chunks)
    ensures Faithful(Receive(outcomes), chunks)
  {
    if |outcomes| != 0 {
      var prefix := outcomes[..|outcomes| - 1];
      OutcomesCarryPrefix(outcomes, chunks);
      OutcomesWrittenIsPrefix(prefix, chunks);
      var st := Receive(prefix);
      var p := outcomes[|outcomes| - 1];
      if p.Success? && p.value.seqNum == st.expected {
        var acks := st.acks + [CreateAck(st.expected)];
        FlattenPrefix(chunks, st.expected);
        DrainDeliversChunks(State(st.expected + 1, st.buffer, st.written + p.value.payload, acks),
                            chunks, st.expected + WINDOW_SIZE);
      }
    }
  }

  /**
   * With no loss and at most 256 frames, nothing is ever buffered: the
   * output file is the whole input and every frame is acknowledged with its
   * own number.
   */
  lemma InOrderDelivery(chunks: seq<seq<byte>>)
    requires |chunks| <= 256
    requires forall i :: 0 <= i < |chunks| ==> |chunks[i]| <= MAX_PAYLOAD
    ensures Receive(Parsed(InOrder(chunks))) == State(|chunks|, map[], Flatten(chunks), AckRun(|chunks|))
  {
    ParsedInOrder(chunks);
    InOrderReadsDelivery(chunks);
  }

  lemma {:induction false} InOrderReadsDelivery(chunks: seq<seq<byte>>)
    requires |chunks| <= 256
    ensures Receive(InOrderReads(chunks)) == State(|chunks|, map[], Flatten(chunks), AckRun(|chunks|))
  {
    if |chunks| != 0 {
      var n := |chunks| - 1;
      InOrderReadsDelivery(chunks[..n]);
      InOrderReadsPrefix(chunks, n);
      SmallMod(n);
      var outcomes := InOrderReads(chunks);
      assert outcomes == outcomes[..n] + [outcomes[n]];
      ReceiveNext(outcomes[..n], outcomes[n]);
      FlattenPrefix(chunks, n);
      assert chunks[..n + 1] == chunks;
      AckRunSnoc(n);
    }
  }

  /** Frame 1 arriving first is acknowledged and buffered. */
  lemma BufferAhead(second: seq<byte>)
    ensures Step(Initial, Success(Frame(1, second))) == State(0, map[1 := second], [], [CreateAck(1)])
  {
  }

  /** Frame 0 arriving next is written and releases the buffered frame 1. */
  lemma ReleaseBuffered(first: seq<byte>, second: seq<byte>)
    ensures Step(State(0, map[1 := second], [], [CreateAck(1)]), Success(Frame(0, first))) ==
      State(2, map[], first + second, [CreateAck(1), CreateAck(0)])
  {
    var acks := [CreateAck(1)] + [CreateAck(0)];
    var empty: map<nat, seq<byte>> := map[1 := second] - {1};
    assert empty == map[] by {
      assert empty.Keys == {};
    }
    assert Drain(State(1, map[1 := second], [] + first, acks)) ==
      Drain(State(2, empty, ([] + first) + second, acks));
    assert ([] + first) + second == first + second;
    assert acks == [CreateAck(1), CreateAck(0)];
  }

  /**
   * Two frames that arrive swapped are both written, in order: frame 1 is
   * buffered until frame 0 arrives and releases it.
   */
  lemma SwappedFramesDelivered(first: seq<byte>, second: seq<byte>)
    ensures Receive([Success(Frame(1, second)), Success(Frame(0, first))]) ==
      State(2, map[], first + second, [CreateAck(1), CreateAck(0)])
  {
    var one: seq<Result<Frame, FrameError>> := [Success(Frame(1, second))];
    ReceiveNext([], Success(Frame(1, second)));
    ReceiveNext(one, Success(Frame(0, first)));
    assert [] + one == one;
    assert one + [Success(Frame(0, first))] == [Success(Frame(1, second)), Success(Frame(0, first))];
    BufferAhead(second);
    ReleaseBuffered(first, second);
  }

  /**
   * Once `expected` has passed 255, whatever arrives afterwards, the output
   * file never changes again.
   */
  lemma {:induction false} NothingWrittenPast255(before: seq<Result<Frame, FrameError>>, after: seq<Result<Frame, FrameError>>)
    requires Receive(before).expected >= 256
    ensures Receive(before + after).written == Receive(before).written
    ensures Receive(before + after).expected >= 256
    decreases |after|
  {
    if |after| != 0 {
      var n := |after| - 1;
      NothingWrittenPast255(before, after[..n]);
      assert before + after == (before + after[..n]) + [after[n]];
      ReceiveNext(before + after[..n], after[n]);
    } else {
      assert before + after == before;
    }
  }

  /**
   * In particular, in an in-order transfer of 257 chunks, frame 256 carries
   * the sequence byte 0 and is taken for a duplicate of frame 0: it is
   * re-acknowledged as ACK 0 and never written.
   */
  lemma FrameAfterWrapIsNeverWritten(chunks: seq<seq<byte>>)
    requires |chunks| == 257
    ensures Receive(InOrderReads(chunks)) ==
      State(256, map[], Flatten(chunks[..256]), AckRun(256) + [CreateAck(0)])
  {
    var outcomes := InOrderReads(chunks);
    InOrderReadsPrefix(chunks, 256);
    InOrderReadsDelivery(chunks[..256]);
    assert outcomes == outcomes[..256] + [outcomes[256]];
    ReceiveNext(outcomes[..256], outcomes[256]);
  }
}

=== FILE: selective_repeat_sender.dfy ===
/**
 * The Selective Repeat sender. An initial burst sends up to a full window
 * of 4 frames; then each pass of the reactive loop (1) retransmits, by
 * ascending number, every frame whose own timer has run out and restarts
 * that timer, (2) takes in what a non-blocking `recv` returns and processes
 * at most one 4-byte independent ACK, forgetting just that frame and sliding
 * the base past acknowledged numbers, and (3) frames and sends one new chunk
 * when the window has room. The loop ends once the file is read and nothing
 * is left unacknowledged; `END` follows.
 */
module SelectiveRepeatSender {
  import opened Wrappers
  import opened Bytes
  import opened FrameCodec
  import opened FileSource
  import opened KeyOrder
  import opened SlidingWindow

  /**
   * The variables of `run_sender`: window base, next number to use, the
   * unacknowledged frames and their timer starts by number, the ACK byte
   * buffer, the file offset, whether the empty read was seen, and
   * everything put on the link so far.
   */
  datatype State = State(base: nat, nextSeq: nat, unacked: map<nat, Transmission>,
                         timers: map<nat, nat>, ackBuffer: seq<byte>, pos: nat,
                         fileDone: bool, sent: seq<Transmission>)

  const Initial: State := State(0, 0, map[], map[], [], 0, false, [])

  /** A clock reading and a loss draw, for one frame of the initial burst. */
  datatype Draw = Draw(now: nat, lost: bool)

  /** Every unacknowledged frame has a timer, and every timer belongs to one. */
  predicate TimersMatch(st: State)
  {
    st.timers.Keys == st.unacked.Keys
  }

  /**
   * A chunk read at the offset becomes the frame numbered `nextSeq`: kept,
   * sent unless lost, its timer started, the counter and offset moved on.
   */
  function AddFrame(st: State, payload: seq<byte>, now: nat, lost: bool): (next: State)
    ensures TimersMatch(st) ==> TimersMatch(next)
  {
    var frame := DataFrame(st.nextSeq, payload);
    st.(unacked := st.unacked[st.nextSeq := frame],
        sent := if lost then st.sent else st.sent + [frame],
        timers := st.timers[st.nextSeq := now],
        nextSeq := st.nextSeq + 1,
        pos := st.pos + |payload|)
  }

  // ---------------------------------------------------------------------
  // The initial burst.
  // ---------------------------------------------------------------------

  /** The burst `for _ in range(WINDOW_SIZE)`, one draw per iteration; it stops at the empty read. */
  function Burst(st: State, data: seq<byte>, draws: seq<Draw>): (next: State)
    requires st.pos <= |data|
    ensures next.pos <= |data|
    ensures TimersMatch(st) ==> TimersMatch(next)
    decreases |draws|
  {
    if |draws| == 0 then st
    else
      var payload := Read(data, st.pos, PAYLOAD_SIZE);
      if payload == [] then st.(fileDone := true)
      else Burst(AddFrame(st, payload, draws[0].now, draws[0].lost), data, draws[1..])
  }

  method SendBurst(data: seq<byte>, draws: seq<Draw>) returns (st: State)
    requires |draws| == WINDOW_SIZE
    ensures st == Burst(Initial, data, draws)
  {
    st := Initial;
    for n := 0 to WINDOW_SIZE
      invariant st.pos <= |data|
      invariant Burst(st, data, draws[n..]) == Burst(Initial, data, draws)
    {
      assert draws[n..][1..] == draws[n + 1..];
      var payload := Read(data, st.pos, PAYLOAD_SIZE);
      if payload == [] {
        st := st.(fileDone := true);
        return;
      }
      st := AddFrame(st, payload, draws[n].now, draws[n].lost);
    }
  }

  // ---------------------------------------------------------------------
  // Phase 1: per-frame timeouts.
  // ---------------------------------------------------------------------

  /** A timer started at `start` has run for more than TIMEOUT_MS at `now`. */
  predicate Expired(start: nat, now: nat)
  {
    now - start > TIMEOUT_MS
  }

  /** The numbers whose timers have run out at `now`. */
  function ExpiredKeys(timers: map<nat, nat>, now: nat): (keys: set<nat>)
  {
    set k | k in timers && Expired(timers[k], now)
  }

  /** The timers after the pass: each expired one restarted at `now`, the others untouched. */
  function Restarted(timers: map<nat, nat>, now: nat): (restarted: map<nat, nat>)
  {
    map k | k in timers :: if Expired(timers[k], now) then now else timers[k]
  }

  /** What phase 1 puts on the link: the frames whose timers ran out, by ascending number. */
  ghost function Resent(unacked: map<nat, Transmission>, timers: map<nat, nat>, now: nat): (frames: seq<Transmission>)
    requires timers.Keys == unacked.Keys
  {
    var ks := Ascending(ExpiredKeys(timers, now));
    AscendingSorted(ExpiredKeys(timers, now));
    assert forall i :: 0 <= i < |ks| ==> ks[i] in ExpiredKeys(timers, now);
    Lookup(unacked, ks)
  }

  ghost function CheckTimers(st: State, now: nat): (next: State)
    requires TimersMatch(st)
    ensures TimersMatch(next)
  {
    st.(sent := st.sent + Resent(st.unacked, st.timers, now), timers := Restarted(st.timers, now))
  }

  /** The timeout loop of phase 1, over the timers in ascending order of number. */
  method HandleTimeouts(st: State, now: nat) returns (next: State)
    requires TimersMatch(st)
    ensures next == CheckTimers(st, now)
  {
    var expired := ExpiredKeys(st.timers, now);
    var pending := expired;
    var frames: seq<Transmission> := [];
    var timers := st.timers;
    ghost var done: seq<nat> := [];
    while pending != {}
      invariant pending <= expired && AllStored(st.unacked, done)
      invariant done + Ascending(pending) == Ascending(expired)
      invariant frames == Lookup(st.unacked, done)
      invariant timers == map k | k in st.timers :: if k in expired && k !in pending then now else st.timers[k]
      decreases pending
    {
      SmallestExists(pending);
      var k :| IsLeast(k, pending);
      WalkNext(st.unacked, done, pending, k);
      frames := frames + [st.unacked[k]];
      timers := timers[k := now];
      done := done + [k];
      pending := pending - {k};
    }
    assert done == done + Ascending(pending);
    next := st.(sent := st.sent + frames, timers := timers);
  }

  // ---------------------------------------------------------------------
  // Phase 2: one independent ACK.
  // ---------------------------------------------------------------------

  /** The buffer after one `recv`: what arrived is appended. */
  function Buffered(st: State, recv: Recv): (next: State)
    requires !recv.RecvError?
  {
    if recv.Data? then st.(ackBuffer := st.ackBuffer + recv.bytes) else st
  }

  /** The base moves up one number at a time while it is no longer outstanding and below `nextSeq`. */
  function Slide(unacked: map<nat, Transmission>, base: nat, nextSeq: nat): (r: nat)
    decreases nextSeq - base
  {
    if base !in unacked && base < nextSeq then Slide(unacked, base + 1, nextSeq) else base
  }

  /**
   * The base slides over acknowledged numbers only, and stops at the first
   * outstanding frame or at `nextSeq`.
   */
  lemma {:induction false} SlideStops(unacked: map<nat, Transmission>, base: nat, nextSeq: nat)
    requires base <= nextSeq
    ensures base <= Slide(unacked, base, nextSeq) <= nextSeq
    ensures Slide(unacked, base, nextSeq) < nextSeq ==> Slide(unacked, base, nextSeq) in unacked
    ensures forall k :: base <= k < Slide(unacked, base, nextSeq) ==> k !in unacked
    decreases nextSeq - base
  {
    if base !in unacked && base < nextSeq {
      SlideStops(unacked, base + 1, nextSeq);
    }
  }

  method SlideBase(unacked: map<nat, Transmission>, base: nat, nextSeq: nat) returns (r: nat)
    ensures r == Slide(unacked, base, nextSeq)
  {
    r := base;
    while r !in unacked && r < nextSeq
      invariant Slide(unacked, r, nextSeq) == Slide(unacked, base, nextSeq)
      decreases nextSeq - r
    {
      r := r + 1;
    }
  }

  /**
   * Phase 2: a full 4-byte slot is consumed; when it is an ACK, the frame
   * of that number alone is forgotten with its timer, and the base slides.
   */
  function ProcessAck(st: State): (next: State)
    ensures TimersMatch(st) ==> TimersMatch(next)
    ensures |st.ackBuffer| < ACK_SIZE ==> next == st
    ensures |st.ackBuffer| >= ACK_SIZE ==>
      && next.ackBuffer == st.ackBuffer[ACK_SIZE..]
      && next.nextSeq == st.nextSeq && next.pos == st.pos
      && next.fileDone == st.fileDone && next.sent == st.sent
    ensures |st.ackBuffer| >= ACK_SIZE && PendingAck(st.ackBuffer).Some? ==>
      var a := PendingAck(st.ackBuffer).value;
      && next.unacked == st.unacked - {a}
      && (TimersMatch(st) ==> next.timers == st.timers - {a})
      && next.base == Slide(next.unacked, st.base, st.nextSeq)
    ensures |st.ackBuffer| >= ACK_SIZE && PendingAck(st.ackBuffer).None? ==>
      next == st.(ackBuffer := st.ackBuffer[ACK_SIZE..])
  {
    if |st.ackBuffer| < ACK_SIZE then st
    else
      var acked :=
        match PendingAck(st.ackBuffer)
        case Some(a) =>
          var forgotten :=
            if a in st.unacked then st.(unacked := st.unacked - {a}, timers := st.timers - {a}) else st;
          forgotten.(base := Slide(forgotten.unacked, forgotten.base, forgotten.nextSeq))
        case None => st;
      acked.(ackBuffer := st.ackBuffer[ACK_SIZE..])
  }

  method HandleAck(st: State) returns (next: State)
    ensures next == ProcessAck(st)
  {
    next := st;
    if |st.ackBuffer| >= ACK_SIZE {
      var ackData := st.ackBuffer[..ACK_SIZE];
      if ackData[..3] == ACK_TAG {
        var ackSeqNum := ackData[3];
        if ackSeqNum in next.unacked {
          next := next.(unacked := next.unacked - {ackSeqNum}, timers := next.timers - {ackSeqNum});
        }
        var base := SlideBase(next.unacked, next.base, next.nextSeq);
        next := next.(base := base);
      }
      next := next.(ackBuffer := st.ackBuffer[ACK_SIZE..]);
    }
  }

  // ---------------------------------------------------------------------
  // Phase 3: one new frame.
  // ---------------------------------------------------------------------

  /** Phase 3: with room in the window and the file not exhausted, read and frame one chunk. */
  function SendNew(st: State, data: seq<byte>, now: nat, lost: bool): (next: State)
    requires st.pos <= |data|
    ensures next.pos <= |data|
    ensures TimersMatch(st) ==> TimersMatch(next)
  {
    if st.nextSeq < st.base + WINDOW_SIZE && !st.fileDone then
      var payload := Read(data, st.pos, PAYLOAD_SIZE);
      if payload == [] then st.(fileDone := true)
      else AddFrame(st, payload, now, lost)
    else st
  }

  // ---------------------------------------------------------------------
  // The reactive loop.
  // ---------------------------------------------------------------------

  /** One pass of the loop whose `recv` did not fail. */
  ghost function Pass(st: State, data: seq<byte>, t: Tick): (next: State)
    requires st.pos <= |data| && TimersMatch(st) && !t.recv.RecvError?
    ensures next.pos <= |data| && TimersMatch(next)
  {
    SendNew(ProcessAck(Buffered(CheckTimers(st, t.now), t.recv)), data, t.now, t.lost)
  }

  datatype Outcome = Outcome(final: State, exit: Exit)

  /** `END` goes out after the loop, however it was left. */
  function Finish(st: State): (next: State)
  {
    st.(sent := st.sent + [EndSignal])
  }

  /** The loop `while not file_done or unacknowledged_frames`, pass by pass. */
  ghost function Loop(st: State, data: seq<byte>, ticks: seq<Tick>): (o: Outcome)
    requires st.pos <= |data| && TimersMatch(st)
    decreases |ticks|
  {
    if st.fileDone && st.unacked == map[] then Outcome(Finish(st), AllAcked)
    else if |ticks| == 0 then Outcome(st, OutOfTicks)
    else if ticks[0].recv.RecvError? then Outcome(Finish(CheckTimers(st, ticks[0].now)), RecvFailed)
    else Loop(Pass(st, data, ticks[0]), data, ticks[1..])
  }

  /** The whole of `run_sender`: the burst, then the reactive loop. */
  ghost function Run(data: seq<byte>, draws: seq<Draw>, ticks: seq<Tick>): (o: Outcome)
  {
    Loop(Burst(Initial, data, draws), data, ticks)
  }

  /** One pass of the loop, from the pass at `ticks[i]` on. */
  lemma LoopNext(st: State, data: seq<byte>, ticks: seq<Tick>, i: nat)
    requires st.pos <= |data| && TimersMatch(st) && i < |ticks| && !(st.fileDone && st.unacked == map[])
    ensures Loop(st, data, ticks[i..]) ==
      if ticks[i].recv.RecvError? then Outcome(Finish(CheckTimers(st, ticks[i].now)), RecvFailed)
      else Loop(Pass(st, data, ticks[i]), data, ticks[i + 1..])
  {
    assert ticks[i..][0] == ticks[i];
    assert ticks[i..][1..] == ticks[i + 1..];
  }

  /** The body of the loop for a pass whose `recv` did not fail. */
  method HandlePass(st: State, data: seq<byte>, t: Tick) returns (next: State)
    requires st.pos <= |data| && TimersMatch(st) && !t.recv.RecvError?
    ensures next == Pass(st, data, t)
  {
    next := HandleTimeouts(st, t.now);
    if t.recv.Data? {
      next := next.(ackBuffer := next.ackBuffer + t.recv.bytes);
    }
    next := HandleAck(next);
    next := SendNew(next, data, t.now, t.lost);
  }

  /** `run_sender`, driven by the burst draws and the passes of the loop. */
  method RunSender(data: seq<byte>, draws: seq<Draw>, ticks: seq<Tick>) returns (st: State, exit: Exit)
    requires |draws| == WINDOW_SIZE
    ensures Outcome(st, exit) == Run(data, draws, ticks)
  {
    st := SendBurst(data, draws);
    var i := 0;
    while true
      invariant i <= |ticks| && st.pos <= |data| && TimersMatch(st)
      invariant Loop(st, data, ticks[i..]) == Run(data, draws, ticks)
      decreases |ticks| - i
    {
      if st.fileDone && st.unacked == map[] {
        st, exit := Finish(st), AllAcked;
        return;
      }
      if i == |ticks| {
        exit := OutOfTicks;
        return;
      }
      var t := ticks[i];
      LoopNext(st, data, ticks, i);
      if t.recv.RecvError? {
        // the timeout checks come first; the receive error then breaks the loop
        st := HandleTimeouts(st, t.now);
        st, exit := Finish(st), RecvFailed;
        return;
      }
      st := HandlePass(st, data, t);
      i := i + 1;
    }
  }

  // ---------------------------------------------------------------------
  // What the burst and every pass keep, whatever the link delivers.
  // ---------------------------------------------------------------------

  /**
   * The outstanding frames all lie in base .. nextSeq - 1, the window holds
   * at most 4 numbers, and the base is itself outstanding unless the window
   * is empty.
   */
  ghost predicate WindowShape(st: State)
  {
    && st.base <= st.nextSeq <= st.base + WINDOW_SIZE
    && (forall k :: k in st.unacked ==> st.base <= k)
    && (st.base < st.nextSeq ==> st.base in st.unacked)
  }

  /**
   * Frame 256, once numbered, is outstanding for good: no one-byte ACK can
   * name it.
   */
  ghost predicate StuckPast255(st: State)
  {
    st.nextSeq > 256 ==> 256 in st.unacked
  }

  ghost predicate Inv(st: State, data: seq<byte>)
  {
    && ReadUpTo(data, st.pos, st.nextSeq, st.fileDone)
    && FramesKept(st.unacked, st.nextSeq, data)
    && SentCorrectly(st.sent, data)
    && TimersMatch(st)
    && WindowShape(st)
    && StuckPast255(st)
  }

  lemma InitialInv(data: seq<byte>)
    ensures Inv(Initial, data)
  {
    assert data[0..] == data;
  }

  /** Framing the chunk at the offset under `nextSeq`, with room in the window, keeps the invariant. */
  lemma AddFrameKeepsInv(st: State, data: seq<byte>, now: nat, lost: bool)
    requires Inv(st, data) && st.nextSeq < st.base + WINDOW_SIZE
    requires Read(data, st.pos, PAYLOAD_SIZE) != []
    ensures Inv(AddFrame(st, Read(data, st.pos, PAYLOAD_SIZE), now, lost), data)
  {
    var payload := Read(data, st.pos, PAYLOAD_SIZE);
    NextChunk(data, st.pos, st.nextSeq);
    var frame := DataFrame(st.nextSeq, payload);
    assert SentCorrectly([frame], data);
    SentCorrectlyAppend(st.sent, [frame], data);
  }

  /** The burst frames at most the numbers 0 .. 3, each with its own chunk. */
  lemma {:induction false} BurstKeepsInv(st: State, data: seq<byte>, draws: seq<Draw>)
    requires Inv(st, data) && st.nextSeq + |draws| <= st.base + WINDOW_SIZE
    ensures Inv(Burst(st, data, draws), data)
    decreases |draws|
  {
    if |draws| != 0 {
      var payload := Read(data, st.pos, PAYLOAD_SIZE);
      if payload != [] {
        AddFrameKeepsInv(st, data, draws[0].now, draws[0].lost);
        BurstKeepsInv(AddFrame(st, payload, draws[0].now, draws[0].lost), data, draws[1..]);
      }
    }
  }

  /** Phase 1 resends only kept frames and restarts only timers. */
  lemma CheckTimersKeepsInv(st: State, data: seq<byte>, now: nat)
    requires Inv(st, data)
    ensures Inv(CheckTimers(st, now), data)
  {
    var expired := ExpiredKeys(st.timers, now);
    var frames := Resent(st.unacked, st.timers, now);
    AscendingSorted(expired);
    assert SentCorrectly(frames, data) by {
      forall i | 0 <= i < |frames|
        ensures frames[i] in st.unacked.Values
      {
        assert Ascending(expired)[i] in expired;
      }
    }
    SentCorrectlyAppend(st.sent, frames, data);
  }

  /** Phase 2 forgets one frame at most, never frame 256, and slides the base to the next outstanding one. */
  lemma ProcessAckKeepsInv(st: State, data: seq<byte>)
    requires Inv(st, data)
    ensures Inv(ProcessAck(st), data)
  {
    if |st.ackBuffer| >= ACK_SIZE && PendingAck(st.ackBuffer).Some? {
      var a := PendingAck(st.ackBuffer).value;
      var left := if a in st.unacked then st.unacked - {a} else st.unacked;
      SlideStops(left, st.base, st.nextSeq);
    }
  }

  /** Phase 3 frames the next chunk under the next number, inside the window. */
  lemma SendNewKeepsInv(st: State, data: seq<byte>, now: nat, lost: bool)
    requires Inv(st, data)
    ensures Inv(SendNew(st, data, now, lost), data)
  {
    if st.nextSeq < st.base + WINDOW_SIZE && !st.fileDone && Read(data, st.pos, PAYLOAD_SIZE) != [] {
      AddFrameKeepsInv(st, data, now, lost);
    }
  }

  lemma PassKeepsInv(st: State, data: seq<byte>, t: Tick)
    requires Inv(st, data) && !t.recv.RecvError?
    ensures Inv(Pass(st, data, t), data)
  {
    var a := CheckTimers(st, t.now);
    CheckTimersKeepsInv(st, data, t.now);
    ProcessAckKeepsInv(Buffered(a, t.recv), data);
    SendNewKeepsInv(ProcessAck(Buffered(a, t.recv)), data, t.now, t.lost);
  }

  lemma FinishKeepsInv(st: State, data: seq<byte>)
    requires Inv(st, data)
    ensures Inv(Finish(st), data)
  {
    assert SentCorrectly([EndSignal], data);
    SentCorrectlyAppend(st.sent, [EndSignal], data);
  }

  /**
   * Whatever the link delivers, the loop keeps the invariant to its end,
   * and it ends with everything acknowledged only once the file is read.
   */
  lemma {:induction false} LoopKeepsInv(st: State, data: seq<byte>, ticks: seq<Tick>)
    requires Inv(st, data)
    ensures Inv(Loop(st, data, ticks).final, data)
    ensures Loop(st, data, ticks).exit == AllAcked ==>
      Loop(st, data, ticks).final.fileDone && Loop(st, data, ticks).final.unacked == map[]
    decreases |ticks|
  {
    if st.fileDone && st.unacked == map[] {
      FinishKeepsInv(st, data);
    } else if |ticks| != 0 {
      if ticks[0].recv.RecvError? {
        CheckTimersKeepsInv(st, data, ticks[0].now);
        FinishKeepsInv(CheckTimers(st, ticks[0].now), data);
      } else {
        PassKeepsInv(st, data, ticks[0]);
        LoopKeepsInv(Pass(st, data, ticks[0]), data, ticks[1..]);
      }
    }
  }

  /** The whole run keeps the invariant: every data frame sent carries the chunk of its own number. */
  lemma RunKeepsInv(data: seq<byte>, draws: seq<Draw>, ticks: seq<Tick>)
    requires |draws| == WINDOW_SIZE
    ensures Inv(Run(data, draws, ticks).final, data)
    ensures Run(data, draws, ticks).exit == AllAcked ==>
      Run(data, draws, ticks).final.fileDone && Run(data, draws, ticks).final.unacked == map[]
  {
    InitialInv(data);
    BurstKeepsInv(Initial, data, draws);
    LoopKeepsInv(Burst(Initial, data, draws), data, ticks);
  }

  /**
   * Frame 256 is never acknowledged, so a file of more than 256 chunks never
   * gets to the end of the loop with everything acknowledged.
   */
  lemma LongFileNeverAllAcked(data: seq<byte>, draws: seq<Draw>, ticks: seq<Tick>)
    requires |draws| == WINDOW_SIZE && |Chunks(data, PAYLOAD_SIZE)| > 256
    ensures Run(data, draws, ticks).exit != AllAcked
  {
    RunKeepsInv(data, draws, ticks);
  }

  /**
   * Phase 1 resends exactly the frames whose timers ran out, each once,
   * by strictly ascending number, each carrying its own chunk; afterwards
   * no timer has run out.
   */
  lemma TimeoutsResendExpired(st: State, data: seq<byte>, now: nat)
    requires Inv(st, data)
    ensures var frames := Resent(st.unacked, st.timers, now);
      && |frames| == |ExpiredKeys(st.timers, now)|
      && (forall i :: 0 <= i < |frames| ==>
            && frames[i].DataFrame? && frames[i].seqNum in st.timers
            && Expired(st.timers[frames[i].seqNum], now)
            && frames[i].payload == Chunks(data, PAYLOAD_SIZE)[frames[i].seqNum])
      && (forall i, j :: 0 <= i < j < |frames| ==> frames[i].seqNum < frames[j].seqNum)
    ensures forall k :: k in CheckTimers(st, now).timers ==> !Expired(CheckTimers(st, now).timers[k], now)
  {
    var expired := ExpiredKeys(st.timers, now);
    AscendingSorted(expired);
    var ks := Ascending(expired);
    assert forall i :: 0 <= i < |ks| ==> ks[i] in expired;
  }
}

=== FILE: sliding_window.dfy ===
/**
 * What the two sliding-window senders share: the 100-byte reads, the
 * window of 4, the 3-second timeout, the events the environment supplies
 * to each pass of the reactive loop, and the one-slot ACK reader.
 */
module SlidingWindow {
  import opened Wrappers
  import opened Bytes
  import opened FrameCodec
  import opened FileSource

  const PAYLOAD_SIZE: nat := 100
  const WINDOW_SIZE: nat := 4
  /** The retransmission timeout, in milliseconds. */
  const TIMEOUT_MS: nat := 3000

  /** What one non-blocking `recv` gives: bytes, nothing yet, or an error that ends the loop. */
  datatype Recv = Data(bytes: seq<byte>) | NoData | RecvError

  /** One pass of the loop as the environment decides it: the clock, the socket, the loss draw. */
  datatype Tick = Tick(now: nat, recv: Recv, lost: bool)

  /** The number in the first ACK slot of the buffer, if it holds a whole slot tagged `ACK`. */
  function PendingAck(buffer: seq<byte>): (a: Option<nat>)
    ensures a.Some? ==> a.value < 256
  {
    if |buffer| < ACK_SIZE then None
    else match ParseAck(buffer[..ACK_SIZE])
      case Some(b) => Some(b)
      case None => None
  }

  /** Why the loop stopped: all acknowledged, a receive error, or the environment ran out of passes. */
  datatype Exit = AllAcked | RecvFailed | OutOfTicks

  /** Every data frame put on the link carries the chunk of its own number. */
  ghost predicate SentCorrectly(sent: seq<Transmission>, data: seq<byte>)
  {
    forall i :: 0 <= i < |sent| && sent[i].DataFrame? ==>
      sent[i].seqNum < |Chunks(data, PAYLOAD_SIZE)| &&
      sent[i].payload == Chunks(data, PAYLOAD_SIZE)[sent[i].seqNum]
  }

  lemma SentCorrectlyAppend(a: seq<Transmission>, b: seq<Transmission>, data: seq<byte>)
    requires SentCorrectly(a, data) && SentCorrectly(b, data)
    ensures SentCorrectly(a + b, data)
  {
    forall i | 0 <= i < |a + b| && (a + b)[i].DataFrame?
      ensures (a + b)[i].seqNum < |Chunks(data, PAYLOAD_SIZE)|
      ensures (a + b)[i].payload == Chunks(data, PAYLOAD_SIZE)[(a + b)[i].seqNum]
    {
      if i >= |a| {
        assert (a + b)[i] == b[i - |a|];
      }
    }
  }

  /**
   * The file offset `pos` is where the first `nextSeq` chunks end, and the
   * empty read has been seen only at the end of the file.
   */
  ghost predicate ReadUpTo(data: seq<byte>, pos: nat, nextSeq: nat, fileDone: bool)
  {
    && pos <= |data|
    && nextSeq <= |Chunks(data, PAYLOAD_SIZE)|
    && Chunks(data, PAYLOAD_SIZE)[nextSeq..] == Chunks(data[pos..], PAYLOAD_SIZE)
    && (fileDone ==> pos == |data|)
  }

  /** A non-empty read at the offset is the chunk numbered `nextSeq`. */
  lemma NextChunk(data: seq<byte>, pos: nat, nextSeq: nat)
    requires ReadUpTo(data, pos, nextSeq, false) && Read(data, pos, PAYLOAD_SIZE) != []
    ensures var payload := Read(data, pos, PAYLOAD_SIZE);
      && nextSeq < |Chunks(data, PAYLOAD_SIZE)|
      && Chunks(data, PAYLOAD_SIZE)[nextSeq] == payload
      && Chunks(data, PAYLOAD_SIZE)[nextSeq + 1..] == Chunks(data[pos + |payload|..], PAYLOAD_SIZE)
  {
    var chunks := Chunks(data, PAYLOAD_SIZE);
    ChunksFrom(data, pos, PAYLOAD_SIZE);
    assert chunks[nextSeq..][0] == chunks[nextSeq];
    assert chunks[nextSeq + 1..] == chunks[nextSeq..][1..];
  }

  /** Every kept frame is the chunk of its own number, and was numbered already. */
  ghost predicate FramesKept(unacked: map<nat, Transmission>, nextSeq: nat, data: seq<byte>)
  {
    forall k :: k in unacked ==>
      k < nextSeq && k < |Chunks(data, PAYLOAD_SIZE)| &&
      unacked[k] == DataFrame(k, Chunks(data, PAYLOAD_SIZE)[k])
  }
}

=== FILE: stop_and_wait_receiver.dfy ===
/**
 * The Stop-and-Wait receiver loop: one read is one frame; a valid frame
 * carrying the expected sequence number is written and acknowledged, a
 * lower one is re-acknowledged, anything else is dropped in silence.
 * `expected` counts without reduction modulo 256.
 */
module StopAndWaitReceiver {
  import opened Wrappers
  import opened Bytes
  import opened FrameCodec
  import opened FileSource

  /** One read from the link, with the simulated loss of the ACK it may cause. */
  datatype Incoming = Incoming(raw: seq<byte>, ackLost: bool)

  /** Next expected sequence number, bytes written to the output file, ACKs sent. */
  datatype State = State(expected: nat, written: seq<byte>, acks: seq<seq<byte>>)

  const Initial: State := State(0, [], [])

  /** One pass of the receive loop over a read that is not the termination signal. */
  function Step(st: State, input: Incoming): (next: State)
    // a malformed or corrupt frame changes nothing and is not acknowledged
    ensures ParseFrame(input.raw).Failure? ==> next == st
    // the output file only grows, by one payload at most
    ensures st.written <= next.written
    ensures st.acks <= next.acks && |next.acks| <= |st.acks| + 1
    // the expected frame is written once, and `expected` moves on even when the ACK is lost
    ensures ParseFrame(input.raw).Success? && ParseFrame(input.raw).value.seqNum == st.expected ==>
      next.expected == st.expected + 1 &&
      next.written == st.written + ParseFrame(input.raw).value.payload &&
      (input.ackLost ==> next.acks == st.acks) &&
      (!input.ackLost ==> next.acks == st.acks + [CreateAck(st.expected)])
    // any other frame leaves `expected` and the file alone
    ensures !(ParseFrame(input.raw).Success? && ParseFrame(input.raw).value.seqNum == st.expected) ==>
      next.expected == st.expected && next.written == st.written
    // a duplicate (lower number) is acknowledged with its own number; a higher one is not
    ensures ParseFrame(input.raw).Success? && ParseFrame(input.raw).value.seqNum < st.expected ==>
      next.acks == st.acks + [CreateAck(ParseFrame(input.raw).value.seqNum)]
    ensures ParseFrame(input.raw).Success? && ParseFrame(input.raw).value.seqNum > st.expected ==>
      next == st
  {
    match ParseFrame(input.raw)
    case Failure(_) => st
    case Success(f) =>
      if f.seqNum == st.expected then
        State(st.expected + 1, st.written + f.payload,
              if input.ackLost then st.acks else st.acks + [CreateAck(st.expected)])
      else if f.seqNum < st.expected then
        State(st.expected, st.written, st.acks + [CreateAck(f.seqNum)])
      else st
  }

  /** The state after processing `inputs` in order, starting from a fresh session. */
  function Receive(inputs: seq<Incoming>): State
  {
    if |inputs| == 0 then Initial
    else Step(Receive(inputs[..|inputs| - 1]), inputs[|inputs| - 1])
  }

  /** Receiving one more read is one more Step. */
  lemma ReceiveNext(link: seq<Incoming>, k: nat)
    requires k < |link|
    ensures Receive(link[..k + 1]) == Step(Receive(link[..k]), link[k])
  {
    assert link[..k + 1][..k] == link[..k];
  }

  /** None of `inputs` is the termination signal. */
  predicate NoTerminationAmong(inputs: seq<Incoming>)
  {
    forall i :: 0 <= i < |inputs| ==> !IsTermination(inputs[i].raw)
  }

  /**
   * One pass of the receive loop of `run_receiver`, for a read that is not
   * the termination signal; `input.ackLost` stands for the random draw that
   * decides whether the ACK is sent.
   */
  method HandleRead(expected: nat, written: seq<byte>, acks: seq<seq<byte>>, input: Incoming)
    returns (expected': nat, written': seq<byte>, acks': seq<seq<byte>>)
    ensures State(expected', written', acks') == Step(State(expected, written, acks), input)
  {
    expected', written', acks' := expected, written, acks;
    var parsed := ParseFrame(input.raw);
    if parsed.Success? {
      var receivedSeq := parsed.value.seqNum;
      if receivedSeq == expected {
        written' := written + parsed.value.payload;
        var ack := CreateAck(expected);
        if !input.ackLost {
          acks' := acks + [ack];
        }
        expected' := expected + 1;
      } else if receivedSeq < expected {
        acks' := acks + [CreateAck(receivedSeq)];
      }
    }
  }

  /**
   * `run_receiver`: reads until the termination signal or until the link
   * has nothing more to deliver; `consumed` is the number of reads processed.
   */
  method RunReceiver(link: seq<Incoming>) returns (st: State, consumed: nat)
    ensures consumed <= |link|
    ensures NoTerminationAmong(link[..consumed])
    ensures consumed < |link| ==> IsTermination(link[consumed].raw)
    ensures st == Receive(link[..consumed])
  {
    var expected: nat := 0;
    var written: seq<byte> := [];
    var acks: seq<seq<byte>> := [];
    consumed := 0;
    while consumed < |link| && !IsTermination(link[consumed].raw)
      invariant consumed <= |link|
      invariant NoTerminationAmong(link[..consumed])
      invariant State(expected, written, acks) == Receive(link[..consumed])
    {
      expected, written, acks := HandleRead(expected, written, acks, link[consumed]);
      ReceiveNext(link, consumed);
      consumed := consumed + 1;
    }
    st := State(expected, written, acks);
  }

  /** Every CRC-valid frame on the link carries, for sequence number k, the k-th chunk. */
  ghost predicate CarriesChunks(inputs: seq<Incoming>, chunks: seq<seq<byte>>)
  {
    forall i :: 0 <= i < |inputs| && ParseFrame(inputs[i].raw).Success? ==>
      ParseFrame(inputs[i].raw).value.seqNum < |chunks| &&
      ParseFrame(inputs[i].raw).value.payload == chunks[ParseFrame(inputs[i].raw).value.seqNum]
  }

  /**
   * Whatever the order, loss, duplication or corruption on the link, the
   * output file is always exactly the first `expected` chunks.
   */
  lemma {:induction false} WrittenIsPrefix(inputs: seq<Incoming>, chunks: seq<seq<byte>>)
    requires CarriesChunks(inputs, chunks)
    ensures Receive(inputs).expected <= |chunks|
    ensures Receive(inputs).written == Flatten(chunks[..Receive(inputs).expected])
  {
    if |inputs| != 0 {
      var prefix := inputs[..|inputs| - 1];
      assert CarriesChunks(prefix, chunks) by {
        forall i | 0 <= i < |prefix| && ParseFrame(prefix[i].raw).Success?
          ensures ParseFrame(prefix[i].raw).value.seqNum < |chunks|
          ensures ParseFrame(prefix[i].raw).value.payload == chunks[ParseFrame(prefix[i].raw).value.seqNum]
        {
          assert prefix[i] == inputs[i];
        }
      }
      WrittenIsPrefix(prefix, chunks);
      var st := Receive(prefix);
      var p := ParseFrame(inputs[|inputs| - 1].raw);
      if p.Success? && p.value.seqNum == st.expected {
        FlattenPrefix(chunks, st.expected);
      }
    }
  }

  /** The frames of `chunks`, sent once each, in order, with no loss. */
  function InOrder(chunks: seq<seq<byte>>): (link: seq<Incoming>)
    requires forall i :: 0 <= i < |chunks| ==> |chunks[i]| <= MAX_PAYLOAD
    ensures |link| == |chunks|
  {
    seq(|chunks|, i requires 0 <= i < |chunks| => Incoming(CreateFrame(i, chunks[i]), false))
  }

  /**
   * With no loss and fewer than 257 frames, the output file is the whole
   * input and every frame is acknowledged with its own number.
   */
  lemma {:induction false} InOrderDelivery(chunks: seq<seq<byte>>)
    requires |chunks| <= 256
    requires forall i :: 0 <= i < |chunks| ==> |chunks[i]| <= MAX_PAYLOAD
    ensures Receive(InOrder(chunks)).expected == |chunks|
    ensures Receive(InOrder(chunks)).written == Flatten(chunks)
    ensures Receive(InOrder(chunks)).acks == AckRun(|chunks|)
  {
    if |chunks| != 0 {
      var n := |chunks| - 1;
      var prefix := chunks[..n];
      var link := InOrder(chunks);
      assert link[..n] == InOrder(prefix);
      InOrderDelivery(prefix);
      var st := Receive(InOrder(prefix));
      var frame := CreateFrame(n, chunks[n]);
      assert link[n] == Incoming(frame, false);
      assert Receive(link) == Step(st, link[n]);
      ParseCreateFrame(n, chunks[n]);
      SmallMod(n);
      assert ParseFrame(frame) == Success(Frame(n, chunks[n]));
      assert Step(st, link[n]) == State(n + 1, st.written + chunks[n], st.acks + [CreateAck(n)]);
      FlattenPrefix(chunks, n);
      assert chunks[..n + 1] == chunks;
      AckRunSnoc(n);
    }
  }

  /**
   * Once 256 frames have been accepted `expected` is 256, which no sequence
   * byte can equal: the 257th frame, although it arrives in order, is taken
   * for a duplicate, re-acknowledged as ACK 0 and never written.
   */
  lemma FrameAfterWrapIsNeverWritten(chunks: seq<seq<byte>>, next: seq<byte>)
    requires |chunks| == 256 && |next| <= MAX_PAYLOAD
    requires forall i :: 0 <= i < |chunks| ==> |chunks[i]| <= MAX_PAYLOAD
    ensures Receive(InOrder(chunks) + [Incoming(CreateFrame(256, next), false)]).written == Flatten(chunks)
    ensures Receive(InOrder(chunks) + [Incoming(CreateFrame(256, next), false)]).expected == 256
    ensures Receive(InOrder(chunks) + [Incoming(CreateFrame(256, next), false)]).acks ==
      Receive(InOrder(chunks)).acks + [CreateAck(0)]
  {
    var link := InOrder(chunks) + [Incoming(CreateFrame(256, next), false)];
    assert link[..|link| - 1] == InOrder(chunks);
    InOrderDelivery(chunks);
    ParseCreateFrame(256, next);
  }
}

=== FILE: stop_and_wait_sender.dfy ===
/**
 * The Stop-and-Wait sender: the file is read 50 bytes at a time; each
 * chunk is framed under the running counter and sent again and again until
 * a reply arrives whose `ACK` number equals the counter; an empty read ends
 * the transfer with `END`. The counter is never reduced modulo 256.
 */
module StopAndWaitSender {
  import opened Wrappers
  import opened Bytes
  import opened FrameCodec
  import opened FileSource

  const PAYLOAD_SIZE: nat := 50

  /**
   * One pass of the retransmission loop, as decided by its environment:
   * whether the simulated loss drops the frame, and what `recv` hands back
   * before the timeout (`None` when the timeout fires first).
   */
  datatype Attempt = Attempt(lost: bool, reply: Option<seq<byte>>)

  /**
   * The test that ends the retransmission loop: a reply that starts with
   * `ACK` and whose remaining bytes, read as one big-endian number, equal
   * the unreduced counter.
   */
  predicate AckMatches(reply: Option<seq<byte>>, seqNum: nat)
  {
    reply.Some? && |reply.value| >= 3 && reply.value[..3] == ACK_TAG &&
    FromBytesBigEndian(reply.value[3..]) == seqNum
  }

  /** The ACK the receivers build for a number below 256 ends the loop for exactly that number. */
  lemma AckForItsNumber(k: nat, seqNum: nat)
    requires k < 256
    ensures AckMatches(Some(CreateAck(k)), seqNum) <==> seqNum == k
  {
    var ack := CreateAck(k);
    assert ack[..3] == ACK_TAG;
    FromOneByte(ack[3..]);
  }

  /**
   * A reply of one `ACK` slot carries one byte; once the counter has reached
   * 256 no such reply can end the retransmission loop.
   */
  lemma NoAckPast255(reply: seq<byte>, seqNum: nat)
    requires |reply| == ACK_SIZE && seqNum >= 256
    ensures !AckMatches(Some(reply), seqNum)
  {
    FromOneByte(reply[3..]);
  }

  /**
   * What the sender puts on the link, in order, the final counter, how many
   * attempts it used, and whether it got as far as sending `END`.
   */
  datatype Outcome = Outcome(sent: seq<Transmission>, seqNum: nat, used: nat, finished: bool)

  /**
   * The transfer from file offset `pos` with counter `seqNum`, driven by
   * `attempts`; it stops early, unfinished, if the attempts run out.
   */
  function Transfer(data: seq<byte>, pos: nat, seqNum: nat, attempts: seq<Attempt>): (o: Outcome)
    requires pos <= |data|
    ensures o.used <= |attempts| && seqNum <= o.seqNum
    decreases |attempts|
  {
    var payload := Read(data, pos, PAYLOAD_SIZE);
    if payload == [] then Outcome([EndSignal], seqNum, 0, true)
    else if |attempts| == 0 then Outcome([], seqNum, 0, false)
    else
      var frame := DataFrame(seqNum, payload);
      var out := if attempts[0].lost then [] else [frame];
      var rest :=
        if AckMatches(attempts[0].reply, seqNum) then Transfer(data, pos + |payload|, seqNum + 1, attempts[1..])
        else Transfer(data, pos, seqNum, attempts[1..]);
      Outcome(out + rest.sent, rest.seqNum, rest.used + 1, rest.finished)
  }

  /** `sent` and `used` already behind, then `rest`. */
  function Then(sent: seq<Transmission>, used: nat, rest: Outcome): (o: Outcome)
    ensures o.seqNum == rest.seqNum && o.finished == rest.finished
  {
    Outcome(sent + rest.sent, rest.seqNum, used + rest.used, rest.finished)
  }

  /** One attempt on a non-empty chunk: Transfer's own case split, on the attempts from `used` on. */
  lemma TransferUnfold(data: seq<byte>, pos: nat, seqNum: nat, attempts: seq<Attempt>, used: nat)
    requires pos <= |data| && used < |attempts| && Read(data, pos, PAYLOAD_SIZE) != []
    ensures var payload := Read(data, pos, PAYLOAD_SIZE);
      var rest := if AckMatches(attempts[used].reply, seqNum)
        then Transfer(data, pos + |payload|, seqNum + 1, attempts[used + 1..])
        else Transfer(data, pos, seqNum, attempts[used + 1..]);
      Transfer(data, pos, seqNum, attempts[used..]) ==
      Outcome((if attempts[used].lost then [] else [DataFrame(seqNum, payload)]) + rest.sent,
              rest.seqNum, rest.used + 1, rest.finished)
  {
    assert attempts[used..][1..] == attempts[used + 1..];
    assert attempts[used..][0] == attempts[used];
  }

  /** One pass of the retransmission loop, seen from the whole transfer. */
  lemma AttemptNext(data: seq<byte>, pos: nat, seqNum: nat, attempts: seq<Attempt>, used: nat, sent: seq<Transmission>)
    requires pos <= |data| && used < |attempts| && Read(data, pos, PAYLOAD_SIZE) != []
    ensures var payload := Read(data, pos, PAYLOAD_SIZE);
      var acked := AckMatches(attempts[used].reply, seqNum);
      Then(sent, used, Transfer(data, pos, seqNum, attempts[used..])) ==
      Then(if attempts[used].lost then sent else sent + [DataFrame(seqNum, payload)], used + 1,
           Transfer(data, if acked then pos + |payload| else pos,
                    if acked then seqNum + 1 else seqNum, attempts[used + 1..]))
  {
    TransferUnfold(data, pos, seqNum, attempts, used);
    var payload := Read(data, pos, PAYLOAD_SIZE);
    var acked := AckMatches(attempts[used].reply, seqNum);
    var rest := Transfer(data, if acked then pos + |payload| else pos,
                         if acked then seqNum + 1 else seqNum, attempts[used + 1..]);
    if attempts[used].lost {
      assert [] + rest.sent == rest.sent;
    } else {
      assert sent + ([DataFrame(seqNum, payload)] + rest.sent) == (sent + [DataFrame(seqNum, payload)]) + rest.sent;
    }
  }

  /**
   * The retransmission loop of `run_sender` for one framed chunk: send
   * (unless lost), wait for a reply, stop on the matching ACK. The model's
   * link may run out of attempts first.
   */
  method SendUntilAcked(data: seq<byte>, pos: nat, seqNum: nat, attempts: seq<Attempt>,
                        sent: seq<Transmission>, used: nat)
    returns (sent': seq<Transmission>, used': nat, acked: bool)
    requires pos <= |data| && used <= |attempts| && Read(data, pos, PAYLOAD_SIZE) != []
    ensures used <= used' <= |attempts|
    ensures acked ==> used' > used
    ensures !acked ==> used' == |attempts|
    ensures Then(sent, used, Transfer(data, pos, seqNum, attempts[used..])) ==
      Then(sent', used', Transfer(data, if acked then pos + |Read(data, pos, PAYLOAD_SIZE)| else pos,
                                  if acked then seqNum + 1 else seqNum, attempts[used'..]))
  {
    var frame := DataFrame(seqNum, Read(data, pos, PAYLOAD_SIZE));
    sent', used', acked := sent, used, false;
    while !acked && used' < |attempts|
      invariant used <= used' <= |attempts|
      invariant acked ==> used' > used
      invariant Then(sent, used, Transfer(data, pos, seqNum, attempts[used..])) ==
        Then(sent', used', Transfer(data, if acked then pos + |Read(data, pos, PAYLOAD_SIZE)| else pos,
                                    if acked then seqNum + 1 else seqNum, attempts[used'..]))
      decreases |attempts| - used'
    {
      AttemptNext(data, pos, seqNum, attempts, used', sent');
      var attempt := attempts[used'];
      if !attempt.lost {
        sent' := sent' + [frame];
      }
      if AckMatches(attempt.reply, seqNum) {
        acked := true;
      }
      used' := used' + 1;
    }
  }

  /**
   * `run_sender`: read a chunk, frame it under the counter, retransmit it
   * until acknowledged, count on; `END` after the empty read. The run ends
   * unfinished if the link runs out of attempts.
   */
  method RunSender(data: seq<byte>, attempts: seq<Attempt>)
    returns (sent: seq<Transmission>, seqNum: nat, used: nat, finished: bool)
    ensures Outcome(sent, seqNum, used, finished) == Transfer(data, 0, 0, attempts)
  {
    sent, seqNum, used, finished := [], 0, 0, false;
    var pos: nat := 0;
    while true
      invariant pos <= |data| && used <= |attempts|
      invariant Transfer(data, 0, 0, attempts) == Then(sent, used, Transfer(data, pos, seqNum, attempts[used..]))
      decreases |attempts| - used
    {
      var payload := Read(data, pos, PAYLOAD_SIZE);
      if payload == [] {
        break;
      }
      var ackReceived;
      sent, used, ackReceived := SendUntilAcked(data, pos, seqNum, attempts, sent, used);
      if !ackReceived {
        assert sent + [] == sent;
        return;
      }
      pos := pos + |payload|;
      seqNum := seqNum + 1;
    }
    sent := sent + [EndSignal];
    finished := true;
  }

  /**
   * While no reply matches the counter, the same frame goes out on every
   * attempt the loss does not drop, and the counter and the file offset stay
   * where they are.
   */
  lemma {:induction false} NoMatchingAck(data: seq<byte>, pos: nat, seqNum: nat, attempts: seq<Attempt>)
    requires pos <= |data| && Read(data, pos, PAYLOAD_SIZE) != []
    requires forall i :: 0 <= i < |attempts| ==> !AckMatches(attempts[i].reply, seqNum)
    ensures var o := Transfer(data, pos, seqNum, attempts);
      && o.seqNum == seqNum && !o.finished && o.used == |attempts|
      && forall i :: 0 <= i < |o.sent| ==> o.sent[i] == DataFrame(seqNum, Read(data, pos, PAYLOAD_SIZE))
    decreases |attempts|
  {
    if |attempts| != 0 {
      var rest := attempts[1..];
      assert forall i :: 0 <= i < |rest| ==> rest[i] == attempts[i + 1];
      NoMatchingAck(data, pos, seqNum, rest);
    }
  }

  /** Every reply is one ACK slot, or nothing before the timeout. */
  predicate SingleSlotReplies(attempts: seq<Attempt>)
  {
    forall i :: 0 <= i < |attempts| ==> attempts[i].reply.Some? ==> |attempts[i].reply.value| == ACK_SIZE
  }

  /**
   * The counter is compared unreduced with a one-byte ACK number: with
   * single-slot replies it never passes 256, and from 256 on the frame under
   * way is retransmitted for ever.
   */
  lemma {:induction false} CounterStopsAt256(data: seq<byte>, pos: nat, seqNum: nat, attempts: seq<Attempt>)
    requires pos <= |data| && seqNum <= 256 && SingleSlotReplies(attempts)
    ensures Transfer(data, pos, seqNum, attempts).seqNum <= 256
    decreases |attempts|
  {
    var payload := Read(data, pos, PAYLOAD_SIZE);
    if payload != [] && |attempts| != 0 {
      var rest := attempts[1..];
      assert forall i :: 0 <= i < |rest| ==> rest[i] == attempts[i + 1];
      if attempts[0].reply.Some? && seqNum == 256 {
        NoAckPast255(attempts[0].reply.value, seqNum);
      }
      if AckMatches(attempts[0].reply, seqNum) {
        CounterStopsAt256(data, pos + |payload|, seqNum + 1, rest);
      } else {
        CounterStopsAt256(data, pos, seqNum, rest);
      }
    }
  }

  /** The last transmission is `END`. */
  ghost predicate EndsWithEnd(sent: seq<Transmission>)
  {
    |sent| > 0 && sent[|sent| - 1] == EndSignal
  }

  lemma EndAfter(out: seq<Transmission>, rest: seq<Transmission>)
    requires EndsWithEnd(rest)
    ensures EndsWithEnd(out + rest)
  {
    assert (out + rest)[|out + rest| - 1] == rest[|rest| - 1];
  }

  /** A finished transfer sent `END` last. */
  lemma {:induction false} FinishedEndsWithEnd(data: seq<byte>, pos: nat, seqNum: nat, attempts: seq<Attempt>)
    requires pos <= |data| && Transfer(data, pos, seqNum, attempts).finished
    ensures EndsWithEnd(Transfer(data, pos, seqNum, attempts).sent)
    decreases |attempts|
  {
    var payload := Read(data, pos, PAYLOAD_SIZE);
    if payload != [] {
      var out := if attempts[0].lost then [] else [DataFrame(seqNum, payload)];
      if AckMatches(attempts[0].reply, seqNum) {
        FinishedEndsWithEnd(data, pos + |payload|, seqNum + 1, attempts[1..]);
        EndAfter(out, Transfer(data, pos + |payload|, seqNum + 1, attempts[1..]).sent);
      } else {
        FinishedEndsWithEnd(data, pos, seqNum, attempts[1..]);
        EndAfter(out, Transfer(data, pos, seqNum, attempts[1..]).sent);
      }
    }
  }

  /** A finished transfer counted one number per chunk of the rest of the file. */
  lemma {:induction false} FinishedCountsChunks(data: seq<byte>, pos: nat, seqNum: nat, attempts: seq<Attempt>)
    requires pos <= |data| && Transfer(data, pos, seqNum, attempts).finished
    ensures Transfer(data, pos, seqNum, attempts).seqNum == seqNum + |Chunks(data[pos..], PAYLOAD_SIZE)|
    decreases |attempts|
  {
    var payload := Read(data, pos, PAYLOAD_SIZE);
    if payload == [] {
      assert data[pos..] == [];
    } else if AckMatches(attempts[0].reply, seqNum) {
      FinishedCountsChunks(data, pos + |payload|, seqNum + 1, attempts[1..]);
      ChunksFrom(data, pos, PAYLOAD_SIZE);
    } else {
      FinishedCountsChunks(data, pos, seqNum, attempts[1..]);
    }
  }

  /**
   * Every data frame in `sent` carries, under the counter value k, the
   * (k - base)-th of `chunks`.
   */
  ghost predicate SentCarries(sent: seq<Transmission>, base: nat, chunks: seq<seq<byte>>)
  {
    forall i :: 0 <= i < |sent| && sent[i].DataFrame? ==>
      base <= sent[i].seqNum < base + |chunks| && sent[i].payload == chunks[sent[i].seqNum - base]
  }

  lemma SentCarriesCons(t: Transmission, sent: seq<Transmission>, base: nat, chunks: seq<seq<byte>>)
    requires SentCarries(sent, base, chunks)
    requires t.DataFrame? ==> base <= t.seqNum < base + |chunks| && t.payload == chunks[t.seqNum - base]
    ensures SentCarries([t] + sent, base, chunks)
  {
    forall i | 0 <= i < |[t] + sent| && ([t] + sent)[i].DataFrame?
      ensures base <= ([t] + sent)[i].seqNum < base + |chunks|
      ensures ([t] + sent)[i].payload == chunks[([t] + sent)[i].seqNum - base]
    {
      if i > 0 {
        assert ([t] + sent)[i] == sent[i - 1];
      }
    }
  }

  lemma SentCarriesShift(sent: seq<Transmission>, base: nat, chunks: seq<seq<byte>>)
    requires |chunks| > 0 && SentCarries(sent, base + 1, chunks[1..])
    ensures SentCarries(sent, base, chunks)
  {
    forall i | 0 <= i < |sent| && sent[i].DataFrame?
      ensures base <= sent[i].seqNum < base + |chunks|
      ensures sent[i].payload == chunks[sent[i].seqNum - base]
    {
      assert chunks[1..][sent[i].seqNum - (base + 1)] == chunks[sent[i].seqNum - base];
    }
  }

  /**
   * Every data frame sent from offset `pos` on carries, under the counter
   * value k, the (k - seqNum)-th chunk of the rest of the file: the sender
   * never pairs a chunk with a wrong number.
   */
  lemma {:induction false} FramesCarryChunks(data: seq<byte>, pos: nat, seqNum: nat, attempts: seq<Attempt>)
    requires pos <= |data|
    ensures SentCarries(Transfer(data, pos, seqNum, attempts).sent, seqNum, Chunks(data[pos..], PAYLOAD_SIZE))
    decreases |attempts|
  {
    var payload := Read(data, pos, PAYLOAD_SIZE);
    if payload != [] && |attempts| != 0 {
      var chunks := Chunks(data[pos..], PAYLOAD_SIZE);
      ChunksFrom(data, pos, PAYLOAD_SIZE);
      var r;
      if AckMatches(attempts[0].reply, seqNum) {
        r := Transfer(data, pos + |payload|, seqNum + 1, attempts[1..]);
        FramesCarryChunks(data, pos + |payload|, seqNum + 1, attempts[1..]);
        assert chunks[1..] == Chunks(data[pos + |payload|..], PAYLOAD_SIZE);
        SentCarriesShift(r.sent, seqNum, chunks);
      } else {
        r := Transfer(data, pos, seqNum, attempts[1..]);
        FramesCarryChunks(data, pos, seqNum, attempts[1..]);
      }
      assert Transfer(data, pos, seqNum, attempts).sent ==
        (if attempts[0].lost then [] else [DataFrame(seqNum, payload)]) + r.sent;
      if !attempts[0].lost {
        SentCarriesCons(DataFrame(seqNum, payload), r.sent, seqNum, chunks);
      } else {
        assert [] + r.sent == r.sent;
      }
    }
  }

  /**
   * Hence a file of more than 256 chunks is never sent to the end when every
   * reply is a single ACK slot, however many attempts the link allows.
   */
  lemma LongFileNeverFinishes(data: seq<byte>, attempts: seq<Attempt>)
    requires |Chunks(data, PAYLOAD_SIZE)| > 256 && SingleSlotReplies(attempts)
    ensures !Transfer(data, 0, 0, attempts).finished
  {
    assert data[0..] == data;
    CounterStopsAt256(data, 0, 0, attempts);
    if Transfer(data, 0, 0, attempts).finished {
      FinishedCountsChunks(data, 0, 0, attempts);
    }
  }
}

=== FILE: walsh.dfy ===
/**
 * The Walsh-Hadamard code table of the CDMA simulation (Sylvester's
 * doubling construction) and the power-of-two size it is built for.
 */
module WalshCodes {
  import opened Chips

  predicate IsPowerOf2(n: nat)
    decreases n
  {
    n == 1 || (n >= 2 && n % 2 == 0 && IsPowerOf2(n / 2))
  }

  /**
   * The table of size `n`: the table of size `n / 2` with every row
   * repeated (upper half) and with every row followed by its negation
   * (lower half); the table of size 1 is `[[1]]`.
   */
  function Walsh(n: nat): (w: seq<seq<int>>)
    requires IsPowerOf2(n)
    ensures |w| == n
    ensures forall i :: 0 <= i < n ==> |w[i]| == n
    decreases n
  {
    if n == 1 then [[1]]
    else
      var half := Walsh(n / 2);
      seq(n / 2, i requires 0 <= i < n / 2 => half[i] + half[i])
        + seq(n / 2, i requires 0 <= i < n / 2 => half[i] + Negate(half[i]))
  }

  /** The recursive builder: two loops append the doubled and the flipped rows of the half-size table. */
  method GenerateWalshTable(n: nat) returns (w: seq<seq<int>>)
    requires IsPowerOf2(n)
    ensures w == Walsh(n)
    decreases n
  {
    if n == 1 {
      return [[1]];
    }
    var half := GenerateWalshTable(n / 2);
    w := [];
    for i := 0 to n / 2
      invariant w == seq(i, k requires 0 <= k < i => half[k] + half[k])
    {
      assert seq(i + 1, k requires 0 <= k < i + 1 => half[k] + half[k])
        == seq(i, k requires 0 <= k < i => half[k] + half[k]) + [half[i] + half[i]];
      w := w + [half[i] + half[i]];
    }
    var top := w;
    for i := 0 to n / 2
      invariant w == top + seq(i, k requires 0 <= k < i => half[k] + Negate(half[k]))
    {
      var negated := Negate(half[i]);
      assert seq(i + 1, k requires 0 <= k < i + 1 => half[k] + Negate(half[k]))
        == seq(i, k requires 0 <= k < i => half[k] + Negate(half[k])) + [half[i] + negated];
      w := w + [half[i] + negated];
    }
  }

  /** Every entry of the table is +1 or -1. */
  lemma {:induction false} WalshSigns(n: nat, i: nat, j: nat)
    requires IsPowerOf2(n) && i < n && j < n
    ensures Walsh(n)[i][j] == 1 || Walsh(n)[i][j] == -1
    decreases n
  {
    if n > 1 {
      var h := n / 2;
      var a := if i < h then i else i - h;
      var b := if j < h then j else j - h;
      WalshSigns(h, a, b);
    }
  }

  /** Row `i` of the table of size `n > 1`, written over the table of half the size. */
  lemma WalshRow(n: nat, i: nat)
    requires IsPowerOf2(n) && n > 1 && i < n
    ensures i < n / 2 ==> Walsh(n)[i] == Walsh(n / 2)[i] + Walsh(n / 2)[i]
    ensures n / 2 <= i ==> Walsh(n)[i] == Walsh(n / 2)[i - n / 2] + Negate(Walsh(n / 2)[i - n / 2])
  {
  }

  /** Rows from the same half of the doubled table correlate to twice their halves' correlation. */
  lemma SameHalf(x: seq<int>, y: seq<int>)
    requires |x| == |y|
    ensures Dot(x + x, y + y) == 2 * Dot(x, y)
    ensures Dot(x + Negate(x), y + Negate(y)) == 2 * Dot(x, y)
  {
    DotAppend(x, x, y, y);
    DotAppend(x, Negate(x), y, Negate(y));
    DotNegate(x, y);
  }

  /** A row from the upper half and one from the lower half are orthogonal. */
  lemma CrossHalves(x: seq<int>, y: seq<int>)
    requires |x| == |y|
    ensures Dot(x + x, y + Negate(y)) == 0
    ensures Dot(x + Negate(x), y + y) == 0
  {
    DotAppend(x, x, y, Negate(y));
    DotAppend(x, Negate(x), y, y);
    DotNegate(x, y);
  }

  /** Distinct rows are orthogonal and every row correlates with itself to `n`. */
  lemma {:induction false} WalshOrthogonal(n: nat, i: nat, j: nat)
    requires IsPowerOf2(n) && i < n && j < n
    ensures Dot(Walsh(n)[i], Walsh(n)[j]) == if i == j then n else 0
    decreases n
  {
    if n > 1 {
      var h := n / 2;
      var half := Walsh(h);
      var a := if i < h then i else i - h;
      var b := if j < h then j else j - h;
      WalshOrthogonal(h, a, b);
      WalshRow(n, i);
      WalshRow(n, j);
      if (i < h) == (j < h) {
        SameHalf(half[a], half[b]);
      } else {
        CrossHalves(half[a], half[b]);
      }
    }
  }

  /** A power of two below another power of two is at most its half. */
  lemma {:induction false} PowerBelow(p: nat, q: nat)
    requires IsPowerOf2(p) && IsPowerOf2(q) && q < p
    ensures q <= p / 2
    decreases q
  {
    if q > 1 {
      PowerBelow(p / 2, q / 2);
    }
  }

  /** `next_power_of_2`: doubles from 1 while below `x`; the result is the least power of two that is at least `x`. */
  method NextPowerOf2(x: int) returns (power: nat)
    ensures IsPowerOf2(power) && x <= power
    ensures forall q: nat :: IsPowerOf2(q) && x <= q ==> power <= q
  {
    power := 1;
    while power < x
      invariant IsPowerOf2(power)
      invariant power == 1 || power / 2 < x
      decreases x - power
    {
      power := power * 2;
      assert power / 2 * 2 == power;
    }
    forall q: nat | IsPowerOf2(q) && x <= q
      ensures power <= q
    {
      if q < power {
        PowerBelow(power, q);
      }
    }
  }
}

=== FILE: wrappers.dfy ===
/** Small failure-carrying datatypes shared by the whole model. */
module Wrappers {

  datatype Option<+T> = None | Some(value: T)

  datatype Result<+T, +E> = Success(value: T) | Failure(error: E)
}
